=== FILE: README.md ===
# KhetiBandhu in Dafny

KhetiBandhu is a gamified advisory platform for farmers. A farmer registers
with a PM-Kisan identifier and a comma-separated list of crops. The farmer
is then assigned quests that match those crops. A proof of work is uploaded
for a quest, and an administrator approves or rejects it. An approval
completes the quest and credits its reward points. The points decide badges,
the leaderboard standing and which rewards can be redeemed. The platform
also generates dummy crop predictions, and a small chatbot answers from a
multilingual knowledge base.

This project models the logic of that core as pure Dafny functions over
immutable values. Every database table is a sequence of records. Every view
is a function from the tables and the request to the response and the new
tables. Randomness, the clock, URL and JSON parsing, the fuzzy matcher and
Unicode normalisation are passed in as parameters.

| module | file | models |
|---|---|---|
| `Common`, `Text`, `Sorting` | common.dfy, text.dfy, sorting.dfy | `Option`/`Result`, filtering and counting; Python `strip`/`split`/`join`/`lower`; a stable descending sort |
| `Farmers` | farmers.dfy | the `Farmer` model, `verify_pm_kisan_id`, the registration serializer, point crediting |
| `Quests` | quests.dfy | quest and farmer-quest models, `farmer_quests`, `assign_personalized_quests`, `start_quest` |
| `Signals` | signals.dfy | the pre-save and post-save handlers of a quest submission |
| `Gamification` | gamification.dfy | badges, leaderboard generation and listing, rewards and redemption, farmer statistics, initial badges, activity level |
| `Predictions` | predictions.dfy | prediction generation, listing and summary |
| `Chatbot` | chatbot.dfy | `normalize_text`, `clean_text`, `smart_match` and the `chat` view |
| `AuthContext` | auth_context.dfy | the web client's session: restore, login, register, logout, profile update |
| `RewardsPage`, `QuestsPage`, `QuestDetails`, `AdminSubmissions`, `ProfilePage`, `BadgesPage`, `LeaderboardPage`, `PredictionsPage` | one file each | the logic of the client pages of the same names |

The client's PM-Kisan check and the server's differ in two ways; neither
side is wrong on its own terms. The client checks the identifier as typed,
while the server trims it first. The client also counts UTF-16 code units,
while the server counts characters. Every identifier that is free of
surrounding white space and that the server accepts also passes the client
check. For such identifiers made only of Basic Multilingual Plane
characters, the two checks agree (`AuthContext.PmKisanChecksAgree`).
A trailing space lets a nine-character identifier pass the client and fail
at the server (`AuthContext.PmKisanTrailingSpace`). A leading space makes
the client refuse an identifier that the server accepts
(`AuthContext.PmKisanLeadingSpace`). Characters beyond that plane can pass
the client and fail at the server (`AuthContext.PmKisanChecksDiffer`).

The leaderboard page computes a name's initials in the same way as the
profile page, so `ProfilePage.Initials` covers both.

The client's prediction page grades confidence and sustainability on a
0–100 scale. The backend stores confidence as a fraction between 0 and 1.
The page is modelled as written, on the percent scale.

## Model

Paths are relative to the repository root.

| member | source | states |
|---|---|---|
| Farmers.VerifyPmKisanIdChars | khetibandhu_backend/farmers/models.py:19-22 | an identifier is accepted exactly when it starts with "PMK" and has at least ten characters |
| Farmers.PmKisanRejections | khetibandhu_backend/farmers/models.py:19-22 | identifiers shorter than ten characters, "PMK" alone, and identifiers with another prefix are rejected |
| Farmers.PmKisanExtension | khetibandhu_backend/farmers/models.py:19-22 | appending characters to an accepted identifier keeps it accepted |
| Farmers.NewFarmer | khetibandhu_backend/farmers/models.py:4-14 | a new farmer is unverified, has 0 points and an empty phone number unless the caller gives them |
| Farmers.ErrorMessage | khetibandhu_backend/farmers/serializers.py:11-23 | the server's text for each field error; a length error names its limit as a number |
| Farmers.LengthMessagesNameLimit | khetibandhu_backend/farmers/serializers.py:11-18 | the number in a "no more than" or "at least" message reads back as the field's limit |
| Farmers.NameLimitMessage | khetibandhu_backend/farmers/models.py:6 | a name that is too long gets "Ensure this field has no more than 100 characters." |
| Farmers.PasswordLimitMessage | khetibandhu_backend/farmers/serializers.py:12 | a password that is too short gets "Ensure this field has at least 6 characters." |
| Farmers.CheckCharField | khetibandhu_backend/farmers/serializers.py:11-18 | an accepted text field is present and trimmed, and respects its maximum length, minimum length, blank rule and the rule that no text field holds U+0000; a missing required field gives exactly the "required" error; a non-blank field holding U+0000 gets the null-character error, reported with any length errors |
| Farmers.NullNameRefused | khetibandhu_backend/farmers/serializers.py:10-18 | the name "Ram" followed by U+0000 gets exactly the null-character error, and the registration is rejected |
| Farmers.CheckPmKisanId | khetibandhu_backend/farmers/serializers.py:20-23 | an identifier is accepted exactly when, trimmed, it is not blank, fits 20 characters, holds no U+0000, is not already taken and passes the format check; a taken identifier is refused; one that passes every other check and fails the format gets exactly "Invalid PM-Kisan ID format" |
| Farmers.CheckEmail | khetibandhu_backend/farmers/serializers.py:13 | the e-mail field passes exactly when it is present, not blank once trimmed, free of U+0000 and accepted by the validator, and then yields its trimmed text; a non-blank address the validator refuses always carries the e-mail error |
| Farmers.ErrorsOf | khetibandhu_backend/farmers/serializers.py:11-23 | every error of a field is reported under that field's name |
| Farmers.RunChecks | khetibandhu_backend/farmers/serializers.py:11-23 | a field passes exactly when it is present and its trimmed text meets that field's rule: not blank, within the model's maximum length, a password of at least 6 characters, a valid e-mail address, an acceptable identifier, and no U+0000 in any field; an optional phone number is skipped exactly when it is missing; a passing field yields its trimmed text |
| Farmers.CollectErrors | khetibandhu_backend/farmers/serializers.py:11-23 | the error list is empty exactly when no field check failed |
| Farmers.ValidateRegistration | khetibandhu_backend/farmers/serializers.py:11-23 | a request is valid exactly when every field rule holds on its trimmed text (U+0000 refused in every field), and then the data are the trimmed fields; a bad identifier format or a short password makes it invalid; an invalid request has at least one error |
| Farmers.Register | khetibandhu_backend/farmers/serializers.py:25-42 | rejected with the field errors exactly when a field rule fails (U+0000 in any field included); `UsernameTaken` exactly when the rules hold and the username is in use, which the server answers with an unhandled database error (a 500), not with field errors, as the serializer does not check the username; otherwise one user and one farmer are appended, holding exactly the trimmed request fields, the farmer verified, at 0 points and linked to the user, whose first name is the farmer's name |
| Farmers.RegisterTwiceRejected | khetibandhu_backend/farmers/serializers.py:20-23 | sending a successful registration again is rejected, as its identifier is now taken |
| Farmers.PmKisanFormatCheck | khetibandhu_backend/farmers/serializers.py:20-23 | a present identifier that fails the format check gets exactly the "Invalid PM-Kisan ID format" error |
| Farmers.ValidateReportsPmKisanFormat | khetibandhu_backend/farmers/serializers.py:20-23 | validation of such an identifier reports that error under the identifier field |
| Farmers.RegisterReportsPmKisanFormat | khetibandhu_backend/farmers/serializers.py:20-23 | registration with such an identifier is rejected with that error |
| Farmers.RegisterPassesRejection | khetibandhu_backend/farmers/serializers.py:11-42 | an invalid request is rejected with the validation errors and creates nothing |
| Farmers.RegisterKeepsTable | khetibandhu_backend/farmers/models.py:5-7 | registration keeps farmer ids, user links and PM-Kisan identifiers unique |
| Farmers.AppendKeepsTable | khetibandhu_backend/farmers/models.py:5-7 | appending a farmer whose id, user and identifier are new keeps the table unique |
| Farmers.AddPoints | khetibandhu_backend/quests/signals.py:36-38 | only the farmer with the id gains the amount; every other row is unchanged |
| Farmers.AddPointsSum | khetibandhu_backend/quests/signals.py:36-38 | the total of all points grows by the amount times the number of rows with the id |
| Farmers.AddPointsToOne | khetibandhu_backend/quests/signals.py:36-38 | with unique ids and the farmer present, the total grows by exactly the amount |
| Farmers.UniqueHolder | khetibandhu_backend/farmers/models.py:4-7 | in a table with unique ids, a present id is held by exactly one row |
| Quests.ParseStatus | khetibandhu_backend/quests/models.py:5-10 | a parsed status code prints back as the same code |
| Quests.StatusCodeRoundTrip | khetibandhu_backend/quests/models.py:5-10 | every status's code parses back to that status |
| Quests.ParseQuestType | khetibandhu_backend/quests/models.py:12-18 | a parsed quest-type code prints back as the same code |
| Quests.QuestTypeCodeRoundTrip | khetibandhu_backend/quests/models.py:12-18 | every quest type's code parses back to that type |
| Quests.NewQuest | khetibandhu_backend/quests/models.py:20-27 | the defaults are 0 points, difficulty 1, 7 days, no target crop and active |
| Quests.NewFarmerQuest | khetibandhu_backend/quests/models.py:33-40 | a new assignment is available, at 0 progress, neither started nor completed |
| Quests.StartQuest | khetibandhu_backend/quests/views.py:61-84 | the start succeeds exactly when the farmer holds the quest as available; success changes only that row to in progress; a failure changes nothing; unique pairs stay unique |
| Quests.StartTwice | khetibandhu_backend/quests/views.py:65-84 | a second start of the same quest fails and leaves the table as it is |
| Quests.MatchingCrops | khetibandhu_backend/quests/views.py:37-38 | the farmer's crop pieces are trimmed, free of commas and lower-case |
| Quests.MatchingCropsParsed | khetibandhu_backend/quests/views.py:37-38 | the non-empty pieces are exactly the parsed, lower-cased crop list |
| Quests.FirstCropMatched | khetibandhu_backend/quests/views.py:37-38 | the lower-cased first crop is among the pieces |
| Quests.AsWrittenIgnoresCapitalised | khetibandhu_backend/quests/views.py:44 | as written, a quest whose target crop has an upper-case letter never matches the farmer's crops |
| Quests.RiceQuestCounterexample | khetibandhu_backend/quests/views.py:44 | as written, a "Rice" quest does not match a farmer growing "Rice, Wheat" |
| Quests.RiceQuestCorrected | khetibandhu_backend/quests/views.py:44 | with the case-insensitive comparison it does |
| Quests.SuitableCaseInsensitive | khetibandhu_backend/quests/views.py:41-47 | suitability ignores the case of the target crop and of the crop list; a quest is suitable exactly when it is active and its target crop is empty or a listed crop |
| Quests.ChooseQuests | khetibandhu_backend/quests/views.py:41-51 | for either crop comparison: at most five active quests of the table are chosen; when some quest suits, every chosen quest suits and as many are chosen as the smaller of five and the number of suitable quests; otherwise as many as the smaller of five and the number of active quests; nothing is chosen exactly when no quest is active |
| Quests.ChosenFilter | khetibandhu_backend/quests/views.py:41-51 | the chosen quests are the first five of the table's quests passing the rule (suitable when any quest suits, otherwise active), in table order |
| Quests.ChosenAtRank | khetibandhu_backend/quests/views.py:41-51 | every quest passing the rule with fewer than five passing quests before it in the table is chosen, at the place given by their number |
| Quests.ChosenHasRank | khetibandhu_backend/quests/views.py:41-51 | every chosen quest passes the rule, comes from the table, and has exactly its place's number of passing quests before it |
| Quests.RiceQuestChoices | khetibandhu_backend/quests/views.py:41-51 | for a farmer growing "Rice, Wheat", a "Rice" quest and a general quest: the comparison as written assigns only the general quest, the case-insensitive one assigns both |
| Quests.ChoiceOfTwo | khetibandhu_backend/quests/views.py:41-51 | of an active quest and an active general quest, the general quest is always chosen, and the other one, placed first, exactly when it suits |
| Quests.GetOrCreate | khetibandhu_backend/quests/views.py:55-59 | afterwards the pair exists; at most one available row is appended; unique pairs stay unique |
| Quests.AssignAll | khetibandhu_backend/quests/views.py:54-59 | the old rows are kept in front; every appended row is a fresh assignment of one of the chosen quests |
| Quests.AssignAllCovers | khetibandhu_backend/quests/views.py:54-59 | afterwards the farmer holds every chosen quest |
| Quests.AssignAllUnique | khetibandhu_backend/quests/views.py:54-59 | unique farmer and quest pairs stay unique |
| Quests.AssignAllKeeps | khetibandhu_backend/quests/views.py:54-59 | when the farmer already holds every chosen quest, nothing changes |
| Quests.AssignAllIdempotent | khetibandhu_backend/quests/views.py:54-59 | assigning the same quests a second time changes nothing |
| Quests.AssignPersonalizedQuests | khetibandhu_backend/quests/views.py:35-59 | the old rows are kept in front and at most five are appended, each a fresh assignment of an active quest to the farmer; unique pairs stay unique |
| Quests.AssignedRecordExists | khetibandhu_backend/quests/views.py:35-59 | when any quest is active, the farmer holds at least one quest afterwards |
| Quests.FarmerQuestsView | khetibandhu_backend/quests/views.py:9-33 | "not found" exactly for an unknown farmer; the rows listed are exactly the farmer's rows of the resulting table; the table changes only when the farmer had no rows, and then only by appending; the list is non-empty when any quest is active |
| Signals.RememberOldStatus | khetibandhu_backend/quests/signals.py:8-17 | a submission without a key, or with key 0, has no prior status; a found prior status is that of the stored row with the same key; no prior status for a key means no stored row has it |
| Signals.Complete | khetibandhu_backend/quests/signals.py:27-31 | the farmer's quest becomes completed at 100 progress with the completion time; farmer, quest and start time are kept |
| Signals.HandleSubmissionReview | khetibandhu_backend/quests/signals.py:20-38 | a transition into approved completes the matching farmer's quest and credits the reward points; any other save changes nothing |
| Signals.Save | khetibandhu_backend/quests/signals.py:8-38 | an unsaved submission gets the fresh key and is appended; a saved one keeps its key; afterwards a non-zero key recalls the stored status; points are credited exactly when the save is a transition into approved |
| Signals.RememberAfterSave | khetibandhu_backend/quests/signals.py:9-15 | after a row is stored, its remembered prior status is its own status |
| Signals.ReSaveAwardsNothing | khetibandhu_backend/quests/signals.py:10-24 | saving an approved submission a second time credits nothing, unless its key is 0 |
| Signals.ZeroKeyPaysAgain | khetibandhu_backend/quests/signals.py:10 | a submission stored under key 0 is read as unsaved, so every save of it as approved credits the reward again |
| Signals.NonApprovalChangesNothing | khetibandhu_backend/quests/signals.py:24 | a save whose status is not approved changes neither quests nor farmers |
| Signals.ApprovalAddsReward | khetibandhu_backend/quests/signals.py:35-38 | an approval raises the total of all points by exactly the quest's reward |
| Signals.SaveAwardsPoints | khetibandhu_backend/quests/signals.py:35-38 | an approval credits the reward to the submitting farmer |
| Gamification.ParseBadgeType | khetibandhu_backend/gamification/models.py:5-11 | a parsed badge-type code prints back as the same code |
| Gamification.BadgeTypeCodeRoundTrip | khetibandhu_backend/gamification/models.py:5-11 | every badge type's code parses back to that type |
| Gamification.ParseLeaderboardType | khetibandhu_backend/gamification/models.py:35-40 | a parsed leaderboard-type code prints back as the same code |
| Gamification.LeaderboardTypeCodeRoundTrip | khetibandhu_backend/gamification/models.py:35-40 | every leaderboard type's code parses back to that type |
| Gamification.ParseRewardType | khetibandhu_backend/gamification/models.py:57-62 | a parsed reward-type code prints back as the same code |
| Gamification.RewardTypeCodeRoundTrip | khetibandhu_backend/gamification/models.py:57-62 | every reward type's code parses back to that type |
| Gamification.NewBadge | khetibandhu_backend/gamification/models.py:13-18 | the defaults are the trophy icon, 0 points required and active |
| Gamification.NewReward | khetibandhu_backend/gamification/models.py:64-69 | the defaults are a cost of 0 and active |
| Gamification.NewFarmerReward | khetibandhu_backend/gamification/models.py:74-78 | a new redemption is unused and records farmer, reward and time |
| Gamification.ResolveBadge | khetibandhu_backend/gamification/views.py:224-227 | the lookup by name finds the first badge of that name, or none exactly when no badge has it |
| Gamification.ResolveExtends | khetibandhu_backend/gamification/views.py:224-227 | appending badges does not change which badge a found name resolves to |
| Gamification.GetOrCreateBadge | khetibandhu_backend/gamification/views.py:224-227 | afterwards a badge of the name exists; the table only grows, and only when the name was missing |
| Gamification.ResolveUnique | khetibandhu_backend/gamification/views.py:224-227 | in a table without repeated badge names, the lookup by a stored name finds exactly that badge, so taking the first match is the ORM's single match |
| Gamification.GetOrCreateKeepsNamesUnique | khetibandhu_backend/gamification/views.py:224-227 | a badge created by the lookup never repeats a name, so a table with unique names keeps them unique |
| Gamification.GetOrCreateFarmerBadge | khetibandhu_backend/gamification/views.py:230-233 | afterwards the farmer holds the badge; at most one row is appended; unique pairs stay unique |
| Gamification.AwardSeed | khetibandhu_backend/gamification/views.py:223-233 | one badge description is settled: its badge exists, and the farmer holds it when the points reach its requirement; every new award is earned |
| Gamification.AwardSeeds | khetibandhu_backend/gamification/views.py:223-233 | over the list, the tables only grow, uniqueness is kept and every new award is earned |
| Gamification.AwardInitialBadges | khetibandhu_backend/gamification/views.py:196-233 | at most three badges are created; awards only grow and stay unique; every new award's requirement is reached |
| Gamification.AwardSettles | khetibandhu_backend/gamification/views.py:223-233 | afterwards every badge description is settled |
| Gamification.SettledAwardsNothing | khetibandhu_backend/gamification/views.py:223-233 | when every description is already settled, nothing changes |
| Gamification.AwardIdempotent | khetibandhu_backend/gamification/views.py:196-233 | awarding the initial badges twice is awarding them once |
| Gamification.AwardGivesReachedBadges | khetibandhu_backend/gamification/views.py:199-233 | a farmer whose points reach a badge's requirement holds that badge afterwards |
| Gamification.Redraw | khetibandhu_backend/gamification/views.py:174-178 | every farmer's points become that farmer's drawn number |
| Gamification.RankedRows | khetibandhu_backend/gamification/views.py:181-194 | one row per farmer, ranked 1, 2, … by non-increasing points, holding exactly the drawn farmer and points pairs |
| Gamification.RankedRowsDistinct | khetibandhu_backend/gamification/views.py:186-194 | with distinct farmers, the ranked rows name distinct farmers |
| Gamification.GenerateLeaderboard | khetibandhu_backend/gamification/views.py:162-194 | without farmers nothing changes; otherwise the points are redrawn, the rows of the kind are replaced by the ranked rows, and other kinds are kept |
| Gamification.GeneratedOfKind | khetibandhu_backend/gamification/views.py:170 | clearing the rows of a kind and adding new ones leaves exactly the new rows of that kind and every other kind untouched |
| Gamification.RankOrder | khetibandhu_backend/gamification/views.py:22 | ordering by rank gives a permutation with ranks non-decreasing |
| Gamification.Listing | khetibandhu_backend/gamification/views.py:20-22 | at most the limit of rows, in rank order |
| Gamification.ListingRows | khetibandhu_backend/gamification/views.py:20-22 | the listed rows are of the kind; the listing is empty exactly when the limit is 0 or no row is of the kind |
| Gamification.LeaderboardView | khetibandhu_backend/gamification/views.py:13-38 | a non-numeric or negative limit is a server error; otherwise the type defaults to all time, at most the limit (10 by default) rows are listed in rank order, and a non-empty listing leaves the tables alone |
| Gamification.FreshLeaderboardView | khetibandhu_backend/gamification/views.py:24-29 | with no rows of the kind, the leaderboard is generated and listed from rank 1 |
| Gamification.ZeroLimitRedraws | khetibandhu_backend/gamification/views.py:17-29 | a limit of 0 lists nothing and still regenerates the leaderboard on every request |
| Gamification.RankedRowsInOrder | khetibandhu_backend/gamification/views.py:181-194 | generated rows are already in rank order |
| Gamification.RankOf | khetibandhu_backend/gamification/views.py:121-125 | the rank is one more than the farmer's first position in the all-time rows by rank, or unranked when the farmer is absent |
| Gamification.FarmerStats | khetibandhu_backend/gamification/views.py:114-160 | "not found" exactly for an unknown farmer; the badge and redemption counts are the numbers of the farmer's rows, and the quest count the number of the farmer's completed rows; the rank and activity level are those of the farmer |
| Gamification.FarmerBadges | khetibandhu_backend/gamification/views.py:40-64 | "not found" exactly for an unknown farmer; the listed rows are the farmer's badges and the total is their number; badges are awarded only when the farmer has none |
| Gamification.FarmerBadgesRows | khetibandhu_backend/gamification/views.py:40-64 | every listed badge is the farmer's; a farmer who already has badges gets the existing list |
| Gamification.AvailableRewards | khetibandhu_backend/gamification/views.py:66-75 | the active rewards, as a permutation, in non-decreasing cost |
| Gamification.AvailableRewardsActive | khetibandhu_backend/gamification/views.py:69 | every listed reward is active, and every active reward is listed |
| Gamification.RedeemReward | khetibandhu_backend/gamification/views.py:77-112 | "not found" exactly for an unknown farmer or inactive or unknown reward; "insufficient" reports fewer available than required points; a redemption deducts the cost, leaves a non-negative balance and records one redemption; otherwise nothing changes |
| Gamification.RedeemSucceedsIffAffordable | khetibandhu_backend/gamification/views.py:84-106 | for a known farmer and active reward, the redemption succeeds exactly when the points cover the cost |
| Gamification.RedeemConservesPoints | khetibandhu_backend/gamification/views.py:84-92 | a redemption lowers the total of all points by exactly the cost |
| Gamification.ActivityCountsThresholds | khetibandhu_backend/gamification/views.py:235-248 | the activity level is the number of thresholds (100, 500, 1000, 2000) the points reach |
| Gamification.ActivityMonotone | khetibandhu_backend/gamification/views.py:235-248 | more points never give a lower activity level |
| Gamification.ActivityLabelsDistinct | khetibandhu_backend/gamification/views.py:240-248 | different levels have different labels |
| Sorting.SortDesc | khetibandhu_backend/gamification/views.py:181 | the sort gives a permutation of its input with keys non-increasing |
| Sorting.SortSorted | khetibandhu_backend/gamification/views.py:181 | sorting an input already in order changes nothing |
| Sorting.SortHeadFirst | FarmerChatbot/chatbot/views.py:23 | the stable sort puts first the earliest element with the largest key |
| Sorting.SortAscendingReverses | khetibandhu_backend/predictions/views.py:18-21 | sorting a list whose keys strictly increase in descending order reverses it |
| Predictions.ParsePredictionType | khetibandhu_backend/predictions/models.py:5-11 | a parsed prediction-type code prints back as the same code |
| Predictions.PredictionTypeCodeRoundTrip | khetibandhu_backend/predictions/models.py:5-11 | every prediction type's code parses back to that type |
| Predictions.PredictionCrops | khetibandhu_backend/predictions/views.py:55-56 | the crops predicted for are the first three of the parsed crop list, each trimmed and non-empty |
| Predictions.GeneratePredictions | khetibandhu_backend/predictions/views.py:53-96 | four predictions per crop, crop by crop, each of its template's type, with a value from the template, a score in the template's range, created at its own clock reading and valid 30 days from it; creation times never decrease and every prediction is still valid now |
| Predictions.GeneratedPerCrop | khetibandhu_backend/predictions/views.py:85-96 | the prediction for crop c and template t sits at position 4c+t; at most twelve are made |
| Predictions.GeneratedCount | khetibandhu_backend/predictions/views.py:85-86 | the count is four times the smaller of 3 and the number of crops; nothing is made exactly when the crop list is empty |
| Predictions.CurrentPredictions | khetibandhu_backend/predictions/views.py:18-21 | exactly the farmer's still-valid predictions, as a permutation, newest first |
| Predictions.PredictionSummary | khetibandhu_backend/predictions/views.py:98-111 | the summary is empty exactly for no predictions; otherwise it counts them and takes the first one's time |
| Predictions.SummaryNewest | khetibandhu_backend/predictions/views.py:98-111 | the summary's time is that of the newest current prediction |
| Predictions.FarmerPredictions | khetibandhu_backend/predictions/views.py:11-51 | "not found" exactly for an unknown farmer; the listed predictions are the current ones, summarised; predictions are generated only when the farmer has none current |
| Predictions.FreshPredictionsListed | khetibandhu_backend/predictions/views.py:24-29 | a farmer with crops and no current predictions gets the freshly generated ones |
| Predictions.FreshListingReversed | khetibandhu_backend/predictions/views.py:18-29 | when the clock advances between rows, the fresh listing is the generated rows in reverse order |
| Chatbot.NormalizeMissing | FarmerChatbot/chatbot/utils.py:10-11 | a missing text normalises like the empty text |
| Chatbot.NormalizeIdempotent | FarmerChatbot/chatbot/utils.py:10-11 | normalised text is lower-case and stripped, and normalising it again changes nothing |
| Chatbot.Scrub | FarmerChatbot/chatbot/utils.py:14 | word characters and white space are kept in place; every other character becomes a space |
| Chatbot.ScrubKeeps | FarmerChatbot/chatbot/utils.py:14 | the result has only word characters and spaces, and equals the input exactly when the input has no others |
| Chatbot.CleanText | FarmerChatbot/chatbot/utils.py:13-15 | the cleaned text has single spaces between words, none at the ends, only word characters and spaces; its words, split on white space or on the space character, are the words of the input once punctuation became spaces; and, when word characters are not white space, its non-space characters are exactly the word characters of the input in order |
| Chatbot.CleanSeparatesWords | FarmerChatbot/chatbot/utils.py:13-15 | two runs of word characters around one other character come out as the two runs joined by a single space |
| Text.Collapse | FarmerChatbot/chatbot/utils.py:15 | the result has only single interior spaces and keeps the words of the input: splitting it on white space, or a non-empty result on the space character, gives the input's words |
| Text.CollapseTwoWords | FarmerChatbot/chatbot/utils.py:15 | two words around one white-space character become the words joined by one space |
| Chatbot.ScrubSolid | FarmerChatbot/chatbot/utils.py:14 | the non-space characters left by the substitution are exactly the word characters of the input |
| Text.CollapseSolid | FarmerChatbot/chatbot/utils.py:15 | collapsing white space keeps every other character, in order |
| Chatbot.CollapseKeeps | FarmerChatbot/chatbot/utils.py:15 | collapsing white space keeps only word characters and spaces |
| Chatbot.CleanIdempotent | FarmerChatbot/chatbot/utils.py:13-15 | cleaning cleaned text changes nothing |
| Chatbot.Scores | FarmerChatbot/chatbot/utils.py:22-31 | position i holds the score of keyword i against the cleaned message; then the ratio of the cleaned message to the cleaned title, then to the first 150 characters of the cleaned content |
| Chatbot.Window | FarmerChatbot/chatbot/utils.py:31 | the content the ratio sees is the first 150 characters of the cleaned content, or all of it when shorter |
| Chatbot.SmartMatch | FarmerChatbot/chatbot/utils.py:17-32 | the match is one of the scores and no score exceeds it |
| Chatbot.SmartMatchBounds | FarmerChatbot/chatbot/utils.py:17-32 | with a ratio between 0 and 100, the match is between 0 and 100 |
| Chatbot.KeywordHitScores | FarmerChatbot/chatbot/utils.py:24-26 | a keyword contained in the message, or containing it, makes the match at least 95 |
| Chatbot.EmptyMessageHits | FarmerChatbot/chatbot/utils.py:24-26 | an empty cleaned message hits every non-empty keyword |
| Chatbot.RequestedLanguage | FarmerChatbot/chatbot/views.py:16 | a missing language means English; a given one, even null, is used as it is |
| Chatbot.Select | FarmerChatbot/chatbot/views.py:22-30 | the chosen entry is one of the candidates |
| Chatbot.SelectConfident | FarmerChatbot/chatbot/views.py:22-27 | when some candidate scores above 60, the earliest top-scoring candidate is chosen |
| Chatbot.SelectFallback | FarmerChatbot/chatbot/views.py:28-30 | when no candidate scores above 60, the randomly picked candidate is chosen |
| Chatbot.ChatWith | FarmerChatbot/chatbot/views.py:18-30 | the reply is the "no advice" text exactly when no entry is in the language; otherwise it is the chosen entry's content and title |
| Chatbot.NoCandidates | FarmerChatbot/chatbot/views.py:18-20 | without entries in the language, the reply is the "no advice" text |
| Chatbot.ReplyFromCandidate | FarmerChatbot/chatbot/views.py:18-30 | with an entry in the language, the reply is the content and title of some entry in that language |
| Chatbot.ConfidentReply | FarmerChatbot/chatbot/views.py:22-27 | when a candidate scores above 60, the reply comes from the earliest candidate with the highest score |
| Chatbot.FallbackReply | FarmerChatbot/chatbot/views.py:28-30 | with no candidate above 60, the reply comes from the picked candidate |
| Chatbot.LoneConfidentCandidate | FarmerChatbot/chatbot/views.py:25-27 | a lone candidate above 60 is the answer |
| Chatbot.KeywordHitConfident | FarmerChatbot/chatbot/views.py:22-27 | an entry whose keyword hits the normalised message scores above 60 |
| Chatbot.KeywordHitAnswers | FarmerChatbot/chatbot/views.py:13-27 | a lone entry in the language whose keyword hits the message is the answer, whatever the random pick |
| Text.ParseList | khetibandhu_backend/predictions/views.py:55-56 | every parsed crop is non-empty, trimmed and free of commas |
| Text.ParseJoinRoundTrip | khetibandhu_backend/predictions/views.py:55-56 | a list of clean crops joined with ", " parses back to the same list |
| Text.Trim | FarmerChatbot/chatbot/utils.py:11 | the result has no white space at either end, uses only characters of the input, and is the input itself when the input has none there |
| AuthContext.NormalizeCrops | khetibandhu-agro-assist-main/src/context/AuthContext.tsx:68-70 | a list is kept; a non-empty text is parsed as a comma-separated list; anything else gives no crops |
| AuthContext.NormalizeFarmer | khetibandhu-agro-assist-main/src/context/AuthContext.tsx:67-85 | each field is taken from the server's record or its fallback name, with defaults for missing fields |
| AuthContext.NormalizeRoundTrip | khetibandhu-agro-assist-main/src/context/AuthContext.tsx:67-85 | normalising a stored user record gives back the same record |
| AuthContext.NormalizeCropsClean | khetibandhu-agro-assist-main/src/context/AuthContext.tsx:68-70 | crops parsed from text are clean, and normalising them again changes nothing |
| AuthContext.Utf16Length | khetibandhu-agro-assist-main/src/context/AuthContext.tsx:158-160 | the length in UTF-16 code units is at least the number of characters, and equal to it when every character is in the Basic Multilingual Plane |
| AuthContext.PmKisanChecksAgree | khetibandhu-agro-assist-main/src/context/AuthContext.tsx:158-160 | for an identifier without surrounding white space, every one the server accepts passes the client check; with Basic Multilingual Plane characters only, the two checks agree |
| AuthContext.PmKisanTrailingSpace | khetibandhu-agro-assist-main/src/context/AuthContext.tsx:158-160 | a nine-character identifier with the "PMK" prefix and a trailing space, such as "PMK123456 ", passes the client check and gets the format error from the server |
| AuthContext.PmKisanLeadingSpace | khetibandhu-agro-assist-main/src/context/AuthContext.tsx:158-160 | an identifier the server accepts, typed with a leading space, fails the client check and is accepted, trimmed, by the server |
| AuthContext.PmKisanChecksDiffer | khetibandhu-agro-assist-main/src/context/AuthContext.tsx:158-160 | "PMK" followed by four characters outside that plane passes the client check and fails the server's |
| AuthContext.InitAuth | khetibandhu-agro-assist-main/src/context/AuthContext.tsx:88-115 | loading ends; the session is restored exactly when a token and a readable user are stored; an unreadable stored user is removed from storage |
| AuthContext.ApplyAnswer | khetibandhu-agro-assist-main/src/context/AuthContext.tsx:129-152 | success exactly for a successful answer, which stores token, user and farmer id; any failure changes nothing and shows the server's message, a fixed text, or the network error text |
| AuthContext.Login | khetibandhu-agro-assist-main/src/context/AuthContext.tsx:117-153 | a login always sends a request; it succeeds exactly for a successful answer and then signs the normalised farmer in; a failure changes nothing and falls back to "Login failed" |
| AuthContext.Register | khetibandhu-agro-assist-main/src/context/AuthContext.tsx:155-196 | nothing is sent exactly when the identifier fails the client check, which shows the identifier error; otherwise the answer is handled like a login's |
| AuthContext.RegisterRefusesBadId | khetibandhu-agro-assist-main/src/context/AuthContext.tsx:158-160 | an identifier without surrounding white space, of Basic Multilingual Plane characters, that the server would reject is never sent |
| AuthContext.Logout | khetibandhu-agro-assist-main/src/context/AuthContext.tsx:198-209 | the session and the three stored keys are cleared |
| AuthContext.UpdateUser | khetibandhu-agro-assist-main/src/context/AuthContext.tsx:211-214 | only the user changes, in memory and in storage |
| AuthContext.SessionSurvivesReload | khetibandhu-agro-assist-main/src/context/AuthContext.tsx:94-101 | after a successful login, reloading the page restores the same signed-in user |
| AuthContext.LogoutThenReload | khetibandhu-agro-assist-main/src/context/AuthContext.tsx:102-104 | after a logout, reloading the page restores nobody |
| RewardsPage.RedeemReward | khetibandhu-agro-assist-main/src/pages/Rewards.tsx:233-252 | the catalogue is kept; an unknown reward changes nothing; any change puts the found affordable reward in front of the history as pending |
| RewardsPage.UnaffordableIsNoOp | khetibandhu-agro-assist-main/src/pages/Rewards.tsx:229-235 | an unaffordable reward is not redeemed |
| RewardsPage.RedeemUpdatesStats | khetibandhu-agro-assist-main/src/pages/Rewards.tsx:245-251 | the cost moves from available to spent points, one redemption is counted, the total and the rest of the history are kept, and the available points stay non-negative |
| RewardsPage.RedeemIgnoresStock | khetibandhu-agro-assist-main/src/pages/Rewards.tsx:233-235 | an affordable reward is redeemed whatever its stock |
| RewardsPage.ButtonLabel | khetibandhu-agro-assist-main/src/pages/Rewards.tsx:403-409 | the label is "Redeem Now" exactly when the button is enabled, and "Insufficient Points" exactly when the reward is unaffordable |
| RewardsPage.EnabledButtonRedeems | khetibandhu-agro-assist-main/src/pages/Rewards.tsx:403-404 | every click of an enabled button redeems |
| QuestsPage.FilteredQuests | khetibandhu-agro-assist-main/src/pages/Quests.tsx:127-132 | the list never grows |
| QuestsPage.FilteredQuestsIff | khetibandhu-agro-assist-main/src/pages/Quests.tsx:127-132 | a quest is listed exactly when its status passes the filter and the search term occurs, ignoring case, in its title or target crop |
| QuestsPage.AllAndEmptyShowsAll | khetibandhu-agro-assist-main/src/pages/Quests.tsx:127-132 | the filter "all" with an empty search lists every quest in order |
| QuestsPage.StartQuest | khetibandhu-agro-assist-main/src/pages/Quests.tsx:134-141 | quests with the id become in progress at 0 progress; the others are unchanged |
| QuestsPage.StartQuestIdempotent | khetibandhu-agro-assist-main/src/pages/Quests.tsx:134-141 | starting twice is starting once |
| QuestsPage.StartedIsInProgress | khetibandhu-agro-assist-main/src/pages/Quests.tsx:128-141 | a started quest is listed under "in_progress", whatever its earlier status |
| QuestsPage.StarRow | khetibandhu-agro-assist-main/src/pages/Quests.tsx:143-150 | star j of the row is filled exactly when j is below the level |
| QuestsPage.DifficultyStars | khetibandhu-agro-assist-main/src/pages/Quests.tsx:143-150 | always five stars; star j is filled exactly when j is below the level |
| QuestsPage.StarRowFilled | khetibandhu-agro-assist-main/src/pages/Quests.tsx:143-150 | the number of filled stars of a row is the level, clamped to the row's length |
| QuestsPage.DifficultyStarsFilled | khetibandhu-agro-assist-main/src/pages/Quests.tsx:143-150 | the number of filled stars is the level clamped to 0..5 |
| QuestDetails.VideoEmbedSrc | khetibandhu-agro-assist-main/src/pages/QuestDetails.tsx:55-70 | no address gives ""; a youtube.com address with a non-empty v becomes an embed address of v; a youtu.be address becomes an embed address of its path; anything else, including an unparsable address, is kept |
| QuestDetails.WatchWithoutVKept | khetibandhu-agro-assist-main/src/pages/QuestDetails.tsx:59-66 | a youtube.com address without v is kept |
| QuestDetails.EmbedIsKept | khetibandhu-agro-assist-main/src/pages/QuestDetails.tsx:55-70 | rewriting an embed address again keeps it |
| QuestDetails.MediaTypeOf | khetibandhu-agro-assist-main/src/pages/QuestDetails.tsx:99 | video exactly for a type starting "video"; image for one starting "image" that is not a video; unknown otherwise |
| QuestDetails.SubmitProof | khetibandhu-agro-assist-main/src/pages/QuestDetails.tsx:85-119 | nothing happens without a user, a quest and a file; a quest not in progress is started first and a failed start ends with "not found"; the upload is the last request and carries the file, its media type and the notes when given; the form is cleared exactly on success |
| QuestDetails.UploadNeedsStart | khetibandhu-agro-assist-main/src/pages/QuestDetails.tsx:89-95 | an upload is sent only for a quest in progress or after a successful start, and the quest is then in progress |
| AdminSubmissions.Query | khetibandhu-agro-assist-main/src/pages/AdminSubmissions.tsx:30-37 | the status is sent exactly when a filter is set; the page and a page size of 12 are always sent last |
| AdminSubmissions.Load | khetibandhu-agro-assist-main/src/pages/AdminSubmissions.tsx:32-46 | a success replaces the list, page and page count, with missing or zero numbers read as 1; a refusal only ends loading; an unreadable answer leaves the page loading |
| AdminSubmissions.Review | khetibandhu-agro-assist-main/src/pages/AdminSubmissions.tsx:52-65 | a successful review issues exactly the load of the current page with the current filter and takes on its result; a refusal changes nothing and shows the server's message or "Failed to review"; an unreadable answer changes nothing and shows nothing |
| AdminSubmissions.ReviewReloadsCurrentPage | khetibandhu-agro-assist-main/src/pages/AdminSubmissions.tsx:30-37 | the reload a successful review issues carries the current page, the page size 12 and the status of the current filter, none under "all", and keeps that filter |
| AdminSubmissions.PagingStaysInRange | khetibandhu-agro-assist-main/src/pages/AdminSubmissions.tsx:114-116 | from a page in range, every enabled paging button asks for a page in range; a single page disables both |
| AdminSubmissions.LoadedPaging | khetibandhu-agro-assist-main/src/pages/AdminSubmissions.tsx:40-46 | after a load, Prev is disabled exactly on page 1 or below, and always when the server gave no page |
| ProfilePage.FormOf | khetibandhu-agro-assist-main/src/pages/Profile.tsx:62-68 | the form is filled from the user's fields, or empty without a user |
| ProfilePage.EditToggle | khetibandhu-agro-assist-main/src/pages/Profile.tsx:122-134 | the toggle flips edit mode; leaving it resets the form from the user; entering it keeps the form |
| ProfilePage.SaveProfile | khetibandhu-agro-assist-main/src/pages/Profile.tsx:136-155 | without a user nothing happens; otherwise only the five edited fields change, the crops are clean, and edit mode ends |
| ProfilePage.SavedCrops | khetibandhu-agro-assist-main/src/pages/Profile.tsx:147 | a crop is saved exactly when it is a non-empty trimmed piece of the crop text between commas |
| ProfilePage.SaveUneditedIsIdentity | khetibandhu-agro-assist-main/src/pages/Profile.tsx:62-68 | saving the form as filled leaves a user with clean crops unchanged |
| ProfilePage.CancelThenSave | khetibandhu-agro-assist-main/src/pages/Profile.tsx:122-155 | cancelling an edit and then saving changes nothing |
| ProfilePage.CommaCropIsSplit | khetibandhu-agro-assist-main/src/pages/Profile.tsx:147 | a crop containing a comma is saved as two crops |
| ProfilePage.Initials | khetibandhu-agro-assist-main/src/pages/Profile.tsx:157-159 | at most one initial per space-separated piece |
| ProfilePage.InitialsOfWords | khetibandhu-agro-assist-main/src/pages/Profile.tsx:157-159 | for single-spaced words, the initials are the upper-cased first letters, one per word |
| ProfilePage.LevelProgress | khetibandhu-agro-assist-main/src/pages/Profile.tsx:161-167 | the progress lies between 0 and 100 |
| ProfilePage.LevelProgressPieces | khetibandhu-agro-assist-main/src/pages/Profile.tsx:161-167 | the progress is 0 up to the level's start, 100 from its end, and one percent per five points in between |
| ProfilePage.LevelProgressMonotone | khetibandhu-agro-assist-main/src/pages/Profile.tsx:161-167 | more points never mean less progress |
| BadgesPage.FilteredBadges | khetibandhu-agro-assist-main/src/pages/Badges.tsx:263-265 | the list never grows |
| BadgesPage.EarnedBadges | khetibandhu-agro-assist-main/src/pages/Badges.tsx:267 | the earned badges are among those shown |
| BadgesPage.UnearnedBadges | khetibandhu-agro-assist-main/src/pages/Badges.tsx:268 | the unearned badges are among those shown |
| BadgesPage.AllTabShowsAll | khetibandhu-agro-assist-main/src/pages/Badges.tsx:263-265 | the "all" tab shows every badge in order |
| BadgesPage.CategoryTab | khetibandhu-agro-assist-main/src/pages/Badges.tsx:263-265 | a category tab shows exactly the badges of that category |
| BadgesPage.CategoryCodeInjective | khetibandhu-agro-assist-main/src/pages/Badges.tsx:263-265 | different categories have different tab codes |
| BadgesPage.EarnedPartition | khetibandhu-agro-assist-main/src/pages/Badges.tsx:263-268 | the earned and unearned lists split the shown badges, each in its own way |
| BadgesPage.EarnedInOrder | khetibandhu-agro-assist-main/src/pages/Badges.tsx:263-268 | both lists keep the original order |
| BadgesPage.IconFor | khetibandhu-agro-assist-main/src/pages/Badges.tsx:228-242 | an own key of the map gives its icon; a key inherited from Object.prototype gives the inherited value, which is no icon; any other name gives the award icon, which no own key maps to |
| BadgesPage.IconsOfKnownNames | khetibandhu-agro-assist-main/src/pages/Badges.tsx:228-242 | "crown" and "target" are known; "medal" and "Crown" fall back to the award icon; "constructor" yields the inherited value |
| BadgesPage.RarityColor | khetibandhu-agro-assist-main/src/pages/Badges.tsx:244-251 | the colour of a rarity is "border-<hue>-300 bg-<hue>-50" for its colour family: gray, blue, purple, yellow |
| BadgesPage.RarityBadge | khetibandhu-agro-assist-main/src/pages/Badges.tsx:253-261 | the label is the rarity key of the badge data ("common", "rare", "epic", "legendary") with its first letter in upper case |
| BadgesPage.RarityLookupsDistinguish | khetibandhu-agro-assist-main/src/pages/Badges.tsx:244-261 | different rarities get different colours, different variants and different labels |
| LeaderboardPage.RankIconOf | khetibandhu-agro-assist-main/src/pages/Leaderboard.tsx:169-180 | a crown exactly for rank 1, medals for 2 and 3, "#n" for every other rank |
| LeaderboardPage.RankBadge | khetibandhu-agro-assist-main/src/pages/Leaderboard.tsx:182-187 | Champion exactly for rank 1; Top 3 for other ranks up to 3; Top 10 for 4 to 10; "#n" beyond |
| LeaderboardPage.RankBadgeMonotone | khetibandhu-agro-assist-main/src/pages/Leaderboard.tsx:182-187 | from rank 1 on, a better rank never has a lesser badge |
| LeaderboardPage.RankIconMatchesBadge | khetibandhu-agro-assist-main/src/pages/Leaderboard.tsx:169-187 | for real ranks, the crown goes with Champion and the medals with Top 3 |
| LeaderboardPage.RankNumberReadsBack | khetibandhu-agro-assist-main/src/pages/Leaderboard.tsx:178 | the "#n" text reads back as the rank |
| LeaderboardPage.PodiumAsWritten | khetibandhu-agro-assist-main/src/pages/Leaderboard.tsx:292-296 | the podium renders exactly when the entry count is not 1; place i shows the entry at position 1, 0, 2 |
| LeaderboardPage.PodiumAsWrittenFailsOnOne | khetibandhu-agro-assist-main/src/pages/Leaderboard.tsx:292-296 | with exactly one entry, the first place reads an entry that does not exist |
| LeaderboardPage.Podium | khetibandhu-agro-assist-main/src/pages/Leaderboard.tsx:292-296 | the podium shows the first three entries, with the leader in the middle place |
| LeaderboardPage.PodiumAgrees | khetibandhu-agro-assist-main/src/pages/Leaderboard.tsx:292-296 | wherever the page renders, it renders the intended podium: second, first, third |
| LeaderboardPage.AtMostOneYou | khetibandhu-agro-assist-main/src/pages/Leaderboard.tsx:336 | with distinct farmers, at most one row says "You", and none without a signed-in user |
| LeaderboardPage.UserPoints | khetibandhu-agro-assist-main/src/pages/Leaderboard.tsx:414 | a user's points are shown as they are; without a user, or without points, they read 0 |
| LeaderboardPage.VsAverageAsWritten | khetibandhu-agro-assist-main/src/pages/Leaderboard.tsx:419-420 | the text is never empty |
| LeaderboardPage.VsAverageAsWrittenSigns | khetibandhu-agro-assist-main/src/pages/Leaderboard.tsx:419-420 | as written, below the average the text starts "+-", and above it there is no '+' |
| LeaderboardPage.VsAverage | khetibandhu-agro-assist-main/src/pages/Leaderboard.tsx:419-420 | '+' exactly above the average, '-' exactly below, "0" exactly at it |
| LeaderboardPage.VsAverageReadsBack | khetibandhu-agro-assist-main/src/pages/Leaderboard.tsx:419-420 | the intended text reads back as the points minus the average |
| PredictionsPage.TrendOf | khetibandhu-agro-assist-main/src/pages/Predictions.tsx:162-169 | up exactly when the value contains '+'; down when it contains '-' but no '+'; flat otherwise |
| PredictionsPage.PlusWins | khetibandhu-agro-assist-main/src/pages/Predictions.tsx:162-169 | a value with both signs is shown as up |
| PredictionsPage.TrendOfFrontSign | khetibandhu-agro-assist-main/src/pages/Predictions.tsx:162-169 | for a value with a sign only in front, the trend is that sign |
| PredictionsPage.GeneratedSignsInFront | khetibandhu_backend/predictions/views.py:58-83 | every generated value has its sign only in front, and only yield values have one |
| PredictionsPage.YieldSigns | khetibandhu_backend/predictions/views.py:61 | every yield value has its sign only in front |
| PredictionsPage.RainfallSigns | khetibandhu_backend/predictions/views.py:67 | rainfall values carry no sign |
| PredictionsPage.PriceSigns | khetibandhu_backend/predictions/views.py:73 | price values carry no sign |
| PredictionsPage.PestRiskSigns | khetibandhu_backend/predictions/views.py:79 | pest-risk values carry no sign |
| PredictionsPage.TrendOfGeneratedValues | khetibandhu-agro-assist-main/src/pages/Predictions.tsx:162-169 | a generated yield value trends with its sign; every other generated value is flat |
| PredictionsPage.ConfidenceColour | khetibandhu-agro-assist-main/src/pages/Predictions.tsx:171-175 | emerald from 80, orange from 60 below 80, red below 60 |
| PredictionsPage.SustainabilityGrade | khetibandhu-agro-assist-main/src/pages/Predictions.tsx:177-182 | Excellent from 80, Good from 70, Fair from 60, Poor below |
| PredictionsPage.GradeMonotone | khetibandhu-agro-assist-main/src/pages/Predictions.tsx:171-182 | a higher score never has a lower grade or a worse colour |
| PredictionsPage.GeneratedYieldScoresAtLeastGood | khetibandhu_backend/predictions/views.py:63 | every generated yield sustainability score (70 to 95) grades Good or better |
| PredictionsPage.WeatherIconOf | khetibandhu-agro-assist-main/src/pages/Predictions.tsx:184-191 | the sun exactly for "sunny" and droplets exactly for "rainy", ignoring case; a cloud otherwise |
| PredictionsPage.WeatherIconIgnoresCase | khetibandhu-agro-assist-main/src/pages/Predictions.tsx:184-191 | changing the case of the condition does not change the icon |

## Left out

- Network, database and file I/O. Tables are sequences, requests are values, and the server's answers to the client are parameters. The JSON knowledge base file of the chatbot is a parameter.
- Oracles as parameters: the fuzzy matcher's `partial_ratio`, Unicode NFC normalisation, the regular-expression word class, URL parsing, JSON parsing, the email validator and the serialisation of a user record.
- Randomness and time. Random choices and draws are explicit inputs. Times are integers counting seconds, and "30 days later" is `now + 30 * 86400`.
- Case mapping and white space are ASCII only. Python `lower`/`strip` and JavaScript `toLowerCase`/`trim` also map and strip non-ASCII characters.
- `Text.Trim`, `Text.Words` and `Text.IsSpace`: the white space is the six characters space, tab, line feed, vertical tab, form feed and carriage return, which both languages share. Python's `str.strip`, `str.split` and the regular expression `\s` also treat the ASCII separators U+001C, U+001D, U+001E and U+001F as white space, and JavaScript's `trim` does not. On the server side the model keeps these four characters: for example, a serializer field holding only U+001C is accepted by the model, while the server trims it to blank and rejects it.
- Floating point. Confidence scores, averages and their rounding are not modelled. The page grades use `real`.
- The translation function `t` of the client pages. Only the fixed fallback texts are modelled.
- Mock data of the client pages: the quest, reward, badge and leaderboard lists, the 2850 default points, the timers. The pages' logic is modelled over arbitrary data.
- Rendering and styling: the podium heights, colour classes other than those listed, the layout.
- The QuestSubmission model is not part of this model's sources. Its fields are inferred from the signal handlers and the review page.
- `Quests.ChooseQuests`: the target crop is never null. The model has no null target crop, so the `isnull` branch of the query is covered by the empty-crop branch.
- `Quests.FarmerQuestsView` and `Signals.HandleSubmissionReview`: tables hold unique pairs. The ORM's `MultipleObjectsReturned` is not modelled; the first matching row is used.
- The weather views (`weather_forecast`, `generate_dummy_weather`, `weather_data`) and the weather part of the predictions response. They only generate and return random data.
- The chatbot's `user_id` is read and never used. It is not modelled.
- Knowledge-base entries are assumed to have a title and a content. Python would raise an error for an entry without them.
- `AuthContext.NormalizeFarmer`: fields other than the crops are taken as text. The JavaScript `String(...)` of numbers and other values is the `ScalarText` helper.
- `Chatbot.Chat` (the whole view) is stated through `Chatbot.ChatWith`, with the scoring function as a parameter.
- `LeaderboardPage.RankBadge`: a rank of 0 or below gets "Top 3", as written. The model keeps that behaviour and states the badge only from rank 1 in `LeaderboardPage.RankBadgeMonotone`.
- `Predictions.PredictionSummary`: the averages of confidence and sustainability are floating point and are not stated. Only the count and the time of the newest prediction are.
- `Gamification.LeaderboardView`: `int()` of the limit parameter is modelled as "a number or not a number". A negative limit is a server error because Django refuses negative slices.
- The ordering of equal ranks and of equal creation times by the database is not fixed by the source. The model uses a stable sort of the stored order.
- `Farmers.CheckPmKisanId`: DRF runs the unique validator together with the length and null-character checks and reports all their errors at once; the model reports "already exists" only once those checks pass. The error lists differ only for a taken identifier that also breaks a length or null rule, which a table holding only registered identifiers cannot contain.
- `Farmers.CheckCharField`: DRF also refuses lone surrogate code points; a Dafny `char` is a Unicode scalar value, so no model string holds one and the check is not modelled.
- `Farmers.Register`: the user row holds the password and e-mail address as validated. Django's `create_user` stores a salted hash of the password and normalises the domain of the e-mail address; hashing and normalisation are not modelled.
- `Signals.Save`: the key given to an unsaved submission is fresh and at least 1, as the database's auto-increment key is.
- `Gamification.GetOrCreateBadge` and `Gamification.ResolveBadge`: `Badge.name` has no unique constraint (gamification/models.py:13). With two badges of one name, `get_or_create` raises `MultipleObjectsReturned` and `farmer_badges` answers with a server error; the model takes the first badge of that name instead. `Gamification.ResolveUnique` and `Gamification.GetOrCreateKeepsNamesUnique` show that this reading is exact as long as the names are unique, which the award's own creations keep.
- `Gamification.RankedRows`: `period_start` and `period_end` come from two clock readings (gamification/views.py:183-184). The model uses one reading `now`, so the period is exactly 30 days.
- `Predictions.GeneratePredictions`: the source reads the clock once for `valid_until` and once for `created_at` of each row. The model uses one reading per row, so each row is valid for exactly 30 days.
- `ProfilePage.LevelProgress`: the progress is computed in exact `real` arithmetic, not in floating point.

## Findings

| source | as written | input that shows it | evidently intended | confidence | as-written member | corrected member |
|---|---|---|---|---|---|---|
| khetibandhu_backend/quests/views.py:44 | the farmer's crops are lower-cased, but the quest's target crop is compared as stored | a quest with target crop "Rice" and a farmer growing "Rice, Wheat" | crops match regardless of case | not executed | Quests.RiceQuestCounterexample | Quests.RiceQuestCorrected |
| khetibandhu-agro-assist-main/src/pages/Leaderboard.tsx:419-420 | a '+' is put in front when the average is above the user's points, in front of a negative number | an average of 200 and 100 points shows "+-100" | '+' only when the user is above the average | not executed | LeaderboardPage.VsAverageAsWrittenSigns | LeaderboardPage.VsAverageReadsBack |
| khetibandhu-agro-assist-main/src/pages/Leaderboard.tsx:292-296 | the podium reads the second entry whenever the leaderboard is non-empty | a leaderboard of exactly one entry | show the places whose entries exist | not executed | LeaderboardPage.PodiumAsWrittenFailsOnOne | LeaderboardPage.PodiumAgrees |

The quest lookup takes the comparison as a parameter (`Quests.CropMatch`):
`AsWritten` is the view as written, and `CaseInsensitive` is the corrected
`Quests.IsSuitable`. Every contract of choosing, assigning and listing
quests holds for both, and `Quests.RiceQuestChoices` shows where they differ.
The leaderboard page is stated through the corrected
`LeaderboardPage.VsAverage` and `LeaderboardPage.Podium`.

=== FILE: admin_submissions.dfy ===
/** The administrator's review page of the web client: the query string of
    a page load, the handling of the server's answer, the review action and
    the enabling of the review and paging buttons. */
module AdminSubmissions {
  import opened Common
  import opened Text

  datatype SubmissionStatus = Pending | Approved | Rejected

  function StatusCode(s: SubmissionStatus): string {
    match s
    case Pending => "pending"
    case Approved => "approved"
    case Rejected => "rejected"
  }

  /** The status filter; `None` is "all". */
  type StatusFilter = Option<SubmissionStatus>

  datatype SubmissionRow = SubmissionRow(id: int, farmer: int, quest: int, file: string, notes: string,
                                         status: SubmissionStatus)

  /** The page state; the filter starts at pending, page and page count at 1. */
  datatype AdminState = AdminState(submissions: seq<SubmissionRow>, filter: StatusFilter, isLoading: bool,
                                   page: int, totalPages: int)

  const PageSize: nat := 12

  const InitialState: AdminState := AdminState([], Some(Pending), true, 1, 1)

  /** The query of a load of page `p`, as ordered key/value pairs. */
  function Query(filter: StatusFilter, p: int): (q: seq<(string, string)>)
    ensures |q| == (if filter.None? then 2 else 3)
    ensures (exists i :: 0 <= i < |q| && q[i].0 == "status") <==> filter.Some?
    ensures filter.Some? ==> q[0] == ("status", StatusCode(filter.value))
    ensures q[|q| - 2] == ("page", IntText(p)) && q[|q| - 1] == ("page_size", "12")
  {
    var status := if filter.Some? then [("status", StatusCode(filter.value))] else [];
    assert IntText(PageSize) == "12" by {
      assert Digits(1) == "1" && Digits(2) == "2";
    }
    var q := status + [("page", IntText(p)), ("page_size", IntText(PageSize))];
    assert filter.Some? ==> q[0].0 == "status";
    assert filter.None? ==> q[0].0 == "page" && q[1].0 == "page_size";
    q
  }

  /** The server's answer to a load: `Threw` when reading its JSON fails,
      `Refused` when it is not a success, otherwise the fields it carried. */
  datatype ListAnswer =
    | Threw
    | Refused
    | Listed(results: Option<seq<SubmissionRow>>, page: Option<int>, totalPages: Option<int>)

  /** JavaScript `x || 1` on an optional number. */
  function OrOne(x: Option<int>): int {
    if x.Some? && x.value != 0 then x.value else 1
  }

  /** `load(p)`: a success replaces the list, the page and the page count
      (missing or zero numbers read as 1, a missing list as empty); a refusal
      changes nothing but ends loading; a failure to read the answer leaves
      the page loading. */
  function Load(st: AdminState, answer: ListAnswer): (r: AdminState)
    ensures r.filter == st.filter
    ensures answer.Refused? ==> r == st.(isLoading := false)
    ensures answer.Threw? ==> r == st.(isLoading := true)
    ensures answer.Listed? ==> !r.isLoading && r.submissions == answer.results.GetOr([])
    ensures answer.Listed? && answer.page.Some? && answer.page.value != 0 ==> r.page == answer.page.value
    ensures answer.Listed? && (answer.page.None? || answer.page == Some(0)) ==> r.page == 1
    ensures answer.Listed? && answer.totalPages.Some? && answer.totalPages.value != 0 ==>
      r.totalPages == answer.totalPages.value
    ensures answer.Listed? && (answer.totalPages.None? || answer.totalPages == Some(0)) ==> r.totalPages == 1
    ensures answer.Listed? ==> r.page != 0 && r.totalPages != 0
  {
    match answer
    case Threw => st.(isLoading := true)
    case Refused => st.(isLoading := false)
    case Listed(results, page, totalPages) =>
      AdminState(results.GetOr([]), st.filter, false, OrOne(page), OrOne(totalPages))
  }

  /** The server's answer to a review: `ReviewThrew` when reading its JSON
      fails, which ends the handler before it does anything else. */
  datatype ReviewAnswer = ReviewOk | ReviewFailed(message: Option<string>) | ReviewThrew

  const ReviewFailedText: string := "Failed to review"

  /** What a review leads to: the page state, the alert shown, and the query
      of the page load the review issues, if any. */
  datatype ReviewOutcome = ReviewOutcome(state: AdminState, alert: Option<string>,
                                         reload: Option<seq<(string, string)>>)

  /** The value a query carries under `key`, if any. */
  function QueryValue(q: seq<(string, string)>, key: string): Option<string> {
    if |q| == 0 then None
    else if q[0].0 == key then Some(q[0].1)
    else QueryValue(q[1..], key)
  }

  /** `review`: a success issues a load of the current page with the current
      filter (`reloaded` is the server's answer to that load); a refusal
      shows the server's message, or a fixed one when it gave none, and
      changes nothing; an unreadable answer changes nothing and shows
      nothing. */
  function Review(st: AdminState, answer: ReviewAnswer, reloaded: ListAnswer): (r: ReviewOutcome)
    ensures r.reload.Some? <==> answer.ReviewOk?
    ensures r.reload.Some? ==> r.reload.value == Query(st.filter, st.page)
    ensures answer.ReviewOk? ==> r.state == Load(st, reloaded) && r.alert.None?
    ensures r.alert.Some? <==> answer.ReviewFailed?
    ensures answer.ReviewFailed? && answer.message.Some? && answer.message.value != "" ==>
      r.alert == answer.message
    ensures answer.ReviewFailed? && (answer.message.None? || answer.message.value == "") ==>
      r.alert == Some(ReviewFailedText)
    ensures !answer.ReviewOk? ==> r.state == st
  {
    match answer
    case ReviewOk => ReviewOutcome(Load(st, reloaded), None, Some(Query(st.filter, st.page)))
    case ReviewFailed(message) =>
      ReviewOutcome(st, Some(if message.Some? && message.value != "" then message.value else ReviewFailedText), None)
    case ReviewThrew => ReviewOutcome(st, None, None)
  }

  /** The load a successful review issues asks for the page on display,
      with the status of the filter on display (none under "all"), at the
      usual page size; and the reloaded list keeps that filter. */
  lemma {:induction false} ReviewReloadsCurrentPage(st: AdminState, reloaded: ListAnswer)
    ensures var r := Review(st, ReviewOk, reloaded);
      r.reload.Some? &&
      QueryValue(r.reload.value, "page") == Some(IntText(st.page)) &&
      QueryValue(r.reload.value, "page_size") == Some("12") &&
      QueryValue(r.reload.value, "status") == (if st.filter.Some? then Some(StatusCode(st.filter.value)) else None) &&
      r.state.filter == st.filter
  {
    var q := Query(st.filter, st.page);
    var t := q[|q| - 2..];
    assert t == [("page", IntText(st.page)), ("page_size", "12")];
    assert QueryValue(t, "page") == Some(IntText(st.page));
    assert QueryValue(t, "page_size") == Some("12") by {
      assert t[1..] == [("page_size", "12")];
    }
    assert QueryValue(t, "status") == None by {
      assert t[1..][1..] == [];
      assert t[0].0 != "status" && t[1].0 != "status";
      assert QueryValue(t[1..], "status") == QueryValue(t[1..][1..], "status");
    }
    if st.filter.Some? {
      assert q[1..] == t;
      assert QueryValue(q, "status") == Some(StatusCode(st.filter.value));
    } else {
      assert q == t;
    }
  }

  /** Approve and reject are enabled only for pending submissions. */
  predicate ReviewEnabled(s: SubmissionRow) {
    s.status == Pending
  }

  predicate PrevEnabled(st: AdminState) {
    !(st.page <= 1)
  }

  predicate NextEnabled(st: AdminState) {
    !(st.page >= st.totalPages)
  }

  /** The page Prev and Next request. */
  function PrevPage(st: AdminState): int { st.page - 1 }
  function NextPage(st: AdminState): int { st.page + 1 }

  /** From a page within 1..totalPages, every enabled paging button asks for
      a page within 1..totalPages, and on a single page both are disabled. */
  lemma PagingStaysInRange(st: AdminState)
    requires 1 <= st.page <= st.totalPages
    ensures PrevEnabled(st) ==> 1 <= PrevPage(st) <= st.totalPages
    ensures NextEnabled(st) ==> 1 <= NextPage(st) <= st.totalPages
    ensures st.totalPages == 1 ==> !PrevEnabled(st) && !NextEnabled(st)
  {
  }

  /** After any successful load, Prev is disabled exactly on page 1 or
      below, whatever page the server reported. */
  lemma LoadedPaging(st: AdminState, results: Option<seq<SubmissionRow>>, page: Option<int>, totalPages: Option<int>)
    ensures var r := Load(st, Listed(results, page, totalPages));
      !PrevEnabled(r) <==> r.page <= 1
    ensures page.None? ==> !PrevEnabled(Load(st, Listed(results, page, totalPages)))
  {
  }
}

=== FILE: auth_context.dfy ===
/** The web client's session: the normalisation of the farmer record the
    server sends, the PM-Kisan check made before registering, and the state
    and browser-storage outcomes of start-up, login, registration, logout
    and user update. Network answers, JSON text and its parser are
    parameters. */
module AuthContext {
  import opened Common
  import opened Text
  import Farmers

  // ---------------------------------------------------------------------
  // Raw values as they arrive in JSON

  /** A JSON scalar. Numbers are integers here. */
  datatype Scalar = Str(s: string) | Num(n: int) | Bool(b: bool)

  /** The `crops` field: a list, or some scalar. */
  datatype CropsValue = CropList(items: seq<string>) | CropScalar(v: Scalar)

  datatype RawUser = RawUser(username: Option<string>, email: Option<string>)

  /** A farmer object as received; `None` is a missing or null field. */
  datatype RawFarmer = RawFarmer(
    id: Option<Scalar>,
    pk: Option<Scalar>,
    name: Option<string>,
    username: Option<string>,
    user: Option<RawUser>,
    email: Option<string>,
    pmKisanId: Option<string>,
    village: Option<string>,
    crops: Option<CropsValue>,
    phone: Option<string>,
    phoneNumber: Option<string>,
    totalPoints: Option<int>,
    level: Option<int>,
    isStaff: Option<Scalar>)

  /** JavaScript truthiness of a scalar. */
  predicate Truthy(v: Scalar) {
    match v
    case Str(s) => s != ""
    case Num(n) => n != 0
    case Bool(b) => b
  }

  /** `String(v)` of a scalar. */
  function ScalarText(v: Scalar): string {
    match v
    case Str(s) => s
    case Num(n) => IntText(n)
    case Bool(b) => if b then "true" else "false"
  }

  // ---------------------------------------------------------------------
  // The client's farmer record

  /** The client's farmer record. */
  datatype UserRecord = UserRecord(
    id: string,
    name: string,
    username: string,
    email: string,
    pmKisanId: string,
    village: string,
    crops: seq<string>,
    phone: string,
    totalPoints: Option<int>,
    level: Option<int>,
    isStaff: bool)

  /** The crops of a raw record: a list is kept as it is; a truthy scalar is
      read as comma-separated text, trimmed, without empty items; anything
      else gives no crops. */
  function NormalizeCrops(c: Option<CropsValue>): (r: seq<string>)
    ensures c.Some? && c.value.CropList? ==> r == c.value.items
    ensures c.Some? && c.value.CropScalar? && Truthy(c.value.v) ==> r == ParseList(ScalarText(c.value.v))
    ensures (c.None? || (c.value.CropScalar? && !Truthy(c.value.v))) ==> r == []
  {
    match c
    case None => []
    case Some(CropList(items)) => items
    case Some(CropScalar(v)) => if Truthy(v) then ParseList(ScalarText(v)) else []
  }

  /** `normalizeFarmer`: fills every field, falling back to the alternative
      field names and finally to empty values. */
  function NormalizeFarmer(raw: Option<RawFarmer>): (u: UserRecord)
    ensures raw.None? ==> u == UserRecord("", "", "", "", "", "", [], "", None, None, false)
    ensures raw.Some? ==>
      var f := raw.value;
      && u.id == (if f.id.Some? then ScalarText(f.id.value) else if f.pk.Some? then ScalarText(f.pk.value) else "")
      && u.name == f.name.GetOr("") && u.pmKisanId == f.pmKisanId.GetOr("") && u.village == f.village.GetOr("")
      && u.username == (if f.username.Some? then f.username.value
                        else if f.user.Some? && f.user.value.username.Some? then f.user.value.username.value else "")
      && u.email == (if f.email.Some? then f.email.value
                     else if f.user.Some? && f.user.value.email.Some? then f.user.value.email.value else "")
      && u.phone == (if f.phone.Some? then f.phone.value else f.phoneNumber.GetOr(""))
      && u.crops == NormalizeCrops(f.crops)
      && u.isStaff == (f.isStaff.Some? && Truthy(f.isStaff.value))
      && u.totalPoints == f.totalPoints && u.level == f.level
  {
    match raw
    case None => UserRecord("", "", "", "", "", "", [], "", None, None, false)
    case Some(f) =>
      var id := if f.id.Some? then ScalarText(f.id.value) else if f.pk.Some? then ScalarText(f.pk.value) else "";
      var username := match f.username
        case Some(n) => n
        case None => if f.user.Some? then f.user.value.username.GetOr("") else "";
      var email := match f.email
        case Some(e) => e
        case None => if f.user.Some? then f.user.value.email.GetOr("") else "";
      UserRecord(id, f.name.GetOr(""), username, email, f.pmKisanId.GetOr(""), f.village.GetOr(""),
                 NormalizeCrops(f.crops), f.phone.GetOr(f.phoneNumber.GetOr("")),
                 f.totalPoints, f.level, f.isStaff.Some? && Truthy(f.isStaff.value))
  }

  /** The object a stored record reads back as: `JSON.stringify` drops the
      undefined point and level fields, and the parse restores the rest. */
  function Embed(u: UserRecord): RawFarmer {
    RawFarmer(Some(Str(u.id)), None, Some(u.name), Some(u.username), None, Some(u.email),
              Some(u.pmKisanId), Some(u.village), Some(CropList(u.crops)), Some(u.phone), None,
              u.totalPoints, u.level, Some(Bool(u.isStaff)))
  }

  /** Normalising a stored record gives it back unchanged: the record the
      client stores survives a reload. */
  lemma NormalizeRoundTrip(u: UserRecord)
    ensures NormalizeFarmer(Some(Embed(u))) == u
  {
  }

  /** Normalising an already normalised record changes nothing, and crops
      read from text are clean items. */
  lemma NormalizeCropsClean(c: Option<CropsValue>)
    requires c.Some? ==> c.value.CropScalar?
    ensures forall i :: 0 <= i < |NormalizeCrops(c)| ==> CleanItem(NormalizeCrops(c)[i])
    ensures NormalizeCrops(Some(CropList(NormalizeCrops(c)))) == NormalizeCrops(c)
  {
  }

  // ---------------------------------------------------------------------
  // The PM-Kisan check before registering

  /** Length of a string in UTF-16 code units, JavaScript's `length`:
      characters beyond the basic plane count twice. */
  function Utf16Length(s: string): (n: nat)
    ensures n >= |s|
    ensures (forall i :: 0 <= i < |s| ==> s[i] as int <= 0xFFFF) ==> n == |s|
    decreases |s|
  {
    if |s| == 0 then 0
    else (if s[0] as int > 0xFFFF then 2 else 1) + Utf16Length(s[1..])
  }

  /** The client's check: starts with "PMK" and has at least ten UTF-16
      code units. */
  predicate ClientPmKisanOk(s: string) {
    StartsWith(s, Farmers.PmKisanPrefix) && Utf16Length(s) >= Farmers.PmKisanMinLength
  }

  /** The server trims the identifier before judging it; the client judges
      the text as typed. On identifiers without surrounding whitespace every
      identifier the server accepts passes the client's check, and within
      the basic plane the two checks agree. */
  lemma PmKisanChecksAgree(s: string)
    ensures Stripped(s) && Farmers.VerifyPmKisanId(Trim(s)) ==> ClientPmKisanOk(s)
    ensures Stripped(s) && (forall i :: 0 <= i < |s| ==> s[i] as int <= 0xFFFF) ==>
      (ClientPmKisanOk(s) <==> Farmers.VerifyPmKisanId(Trim(s)))
  {
  }

  /** A trailing space pads a nine-character identifier past the client's
      check, and the server, after trimming, refuses its format
      ("PMK123456 " is one such identifier). */
  lemma PmKisanTrailingSpace(x: string, fs: seq<Farmers.Farmer>)
    requires |x| == Farmers.PmKisanMinLength - 1 && StartsWith(x, Farmers.PmKisanPrefix) && Stripped(x)
    requires !Farmers.PmKisanTaken(fs, x) && Farmers.NullFree(x)
    ensures ClientPmKisanOk(x + " ")
    ensures Farmers.CheckPmKisanId(Some(x + " "), fs) == Farmers.Errors([Farmers.InvalidPmKisanFormat])
  {
    TrimBeforeSpace(x);
    assert (x + " ")[..3] == x[..3];
  }

  /** A leading space makes the client refuse any identifier that the
      server, after trimming, accepts (" PMK1234567" is one). */
  lemma PmKisanLeadingSpace(x: string, fs: seq<Farmers.Farmer>)
    requires Stripped(x) && Farmers.PmKisanIdAcceptable(x, fs)
    ensures !ClientPmKisanOk(" " + x)
    ensures Farmers.CheckPmKisanId(Some(" " + x), fs) == Farmers.Ok(x)
  {
    TrimAfterSpace(x);
    assert (" " + x)[0] == ' ';
  }

  /** Four characters beyond the basic plane after "PMK" pass the client's
      check and fail the server's. */
  lemma PmKisanChecksDiffer()
    ensures var s := "PMK" + "\U{1F33E}\U{1F33E}\U{1F33E}\U{1F33E}";
      ClientPmKisanOk(s) && !Farmers.VerifyPmKisanId(s)
  {
    var e := "\U{1F33E}";
    var s := "PMK" + "\U{1F33E}\U{1F33E}\U{1F33E}\U{1F33E}";
    assert s[..3] == "PMK";
    assert Utf16Length(e) == 2;
    Utf16LengthConcat(e, e);
    Utf16LengthConcat(e + e, e);
    Utf16LengthConcat(e + e + e, e);
    assert Utf16Length("PMK") == 3;
    Utf16LengthConcat("PMK", e + e + e + e);
    assert s == "PMK" + (e + e + e + e);
  }

  lemma {:induction false} Utf16LengthConcat(a: string, b: string)
    ensures Utf16Length(a + b) == Utf16Length(a) + Utf16Length(b)
    decreases |a|
  {
    if |a| == 0 {
      assert a + b == b;
    } else {
      Utf16LengthConcat(a[1..], b);
      assert (a + b)[1..] == a[1..] + b;
    }
  }

  // ---------------------------------------------------------------------
  // Session state and storage

  datatype AuthState = AuthState(user: Option<UserRecord>, token: Option<string>, isAuthenticated: bool, isLoading: bool)

  /** The three browser-storage keys: token, user (JSON text) and farmer id. */
  datatype Storage = Storage(token: Option<string>, user: Option<string>, farmerId: Option<string>)

  const InitialState: AuthState := AuthState(None, None, false, true)
  const EmptyStorage: Storage := Storage(None, None, None)

  /** A stored value that is present and not empty (JavaScript truthiness). */
  predicate Present(v: Option<string>) {
    v.Some? && v.value != ""
  }

  /** What `JSON.parse` makes of the stored user text: an exception, or a
      value (`None` for null or a non-object). */
  datatype Parsed = ParseError | ParsedValue(raw: Option<RawFarmer>)

  /** `initAuth`, run once from the initial state: a present token and user
      restore the session; a user text that does not parse clears all three
      keys; otherwise only loading ends. */
  function InitAuth(storage: Storage, parse: string -> Parsed): (r: (AuthState, Storage))
    ensures !r.0.isLoading
    ensures r.0.isAuthenticated <==>
      Present(storage.token) && Present(storage.user) && parse(storage.user.value) != ParseError
    ensures r.0.isAuthenticated ==>
      r.0.token == storage.token && r.0.user == Some(NormalizeFarmer(parse(storage.user.value).raw))
    ensures !r.0.isAuthenticated ==> r.0 == AuthState(None, None, false, false)
    ensures r.1 == (if Present(storage.token) && Present(storage.user) && parse(storage.user.value) == ParseError
                    then EmptyStorage else storage)
  {
    if Present(storage.token) && Present(storage.user) then
      match parse(storage.user.value)
      case ParseError => (InitialState.(isLoading := false), EmptyStorage)
      case ParsedValue(raw) => (AuthState(Some(NormalizeFarmer(raw)), storage.token, true, false), storage)
    else (InitialState.(isLoading := false), storage)
  }

  /** A server answer: `Unreachable` when the request or the reading of its
      JSON body throws. */
  datatype Response =
    | Unreachable
    | Answered(ok: bool, status: Option<string>, message: Option<string>, farmer: Option<RawFarmer>, token: string)

  /** The outcome of a login or registration: whether a request was sent,
      the result the caller sees, and the new state and storage. */
  datatype AuthOutcome = AuthOutcome(sent: bool, success: bool, message: Option<string>, state: AuthState, storage: Storage)

  const NetworkErrorText: string := "Network error. Please check your connection and try again."
  const LoginFailedText: string := "Login failed. Please check your credentials."
  const RegisterFailedText: string := "Registration failed. Please try again."
  const PmKisanErrorText: string := "PM-Kisan ID must start with \"PMK\" and be at least 10 characters long."

  /** Whether a response is the server's success. */
  predicate Succeeded(resp: Response) {
    resp.Answered? && resp.ok && resp.status == Some("success")
  }

  /** The common handling of a login or registration answer. On success the
      normalised farmer and the token are stored and the session is signed
      in; otherwise nothing changes and the message is the server's, when it
      sent a non-empty one, else `failed`. */
  function ApplyAnswer(state: AuthState, storage: Storage, resp: Response, failed: string,
                       show: UserRecord -> string): (o: AuthOutcome)
    ensures o.sent
    ensures o.success <==> Succeeded(resp)
    ensures o.success ==>
      var u := NormalizeFarmer(resp.farmer);
      && o.state == AuthState(Some(u), Some(resp.token), true, false)
      && o.storage == Storage(Some(resp.token), Some(show(u)), Some(u.id))
      && o.message.None?
    ensures !o.success ==> o.state == state && o.storage == storage && o.message.Some?
    ensures resp.Unreachable? ==> o.message == Some(NetworkErrorText)
    ensures resp.Answered? && !o.success ==>
      o.message == Some(if Present(resp.message) then resp.message.value else failed)
  {
    match resp
    case Unreachable => AuthOutcome(true, false, Some(NetworkErrorText), state, storage)
    case Answered(ok, status, message, farmer, token) =>
      if ok && status == Some("success") then
        var u := NormalizeFarmer(farmer);
        AuthOutcome(true, true, None, AuthState(Some(u), Some(token), true, false),
                    Storage(Some(token), Some(show(u)), Some(u.id)))
      else
        AuthOutcome(true, false, Some(if Present(message) then message.value else failed), state, storage)
  }

  /** `login`. */
  function Login(state: AuthState, storage: Storage, resp: Response, show: UserRecord -> string): (o: AuthOutcome)
    ensures o.sent && (o.success <==> Succeeded(resp))
    ensures o.success ==>
      o.state.isAuthenticated && o.state.user == Some(NormalizeFarmer(resp.farmer)) &&
      o.storage.token == Some(resp.token) && o.storage.farmerId == Some(NormalizeFarmer(resp.farmer).id)
    ensures !o.success ==> o.state == state && o.storage == storage
    ensures resp.Answered? && !o.success && !Present(resp.message) ==> o.message == Some(LoginFailedText)
  {
    ApplyAnswer(state, storage, resp, LoginFailedText, show)
  }

  /** `register`: an identifier failing the client's check is refused before
      any request, with nothing changed. */
  function Register(state: AuthState, storage: Storage, pmKisanId: string, resp: Response,
                    show: UserRecord -> string): (o: AuthOutcome)
    ensures !o.sent <==> !ClientPmKisanOk(pmKisanId)
    ensures !o.sent ==> !o.success && o.message == Some(PmKisanErrorText) && o.state == state && o.storage == storage
    ensures o.sent ==> o == ApplyAnswer(state, storage, resp, RegisterFailedText, show)
  {
    if !StartsWith(pmKisanId, Farmers.PmKisanPrefix) || Utf16Length(pmKisanId) < Farmers.PmKisanMinLength then
      AuthOutcome(false, false, Some(PmKisanErrorText), state, storage)
    else ApplyAnswer(state, storage, resp, RegisterFailedText, show)
  }

  /** An identifier the server would refuse for its format never reaches the
      server when it is typed without surrounding whitespace and within the
      basic plane (see `PmKisanTrailingSpace` for one with a space). */
  lemma RegisterRefusesBadId(state: AuthState, storage: Storage, pmKisanId: string, resp: Response,
                             show: UserRecord -> string)
    requires !Farmers.VerifyPmKisanId(Trim(pmKisanId))
    requires Stripped(pmKisanId)
    requires forall i :: 0 <= i < |pmKisanId| ==> pmKisanId[i] as int <= 0xFFFF
    ensures !Register(state, storage, pmKisanId, resp, show).sent
    ensures Register(state, storage, pmKisanId, resp, show).state == state
  {
    PmKisanChecksAgree(pmKisanId);
  }

  /** `logout`: everything is cleared. */
  function Logout(state: AuthState, storage: Storage): (r: (AuthState, Storage))
    ensures r.0.user.None? && r.0.token.None? && !r.0.isAuthenticated && !r.0.isLoading
    ensures r.1.token.None? && r.1.user.None? && r.1.farmerId.None?
  {
    (AuthState(None, None, false, false), EmptyStorage)
  }

  /** `updateUser`: replaces the user and its stored text, nothing else. */
  function UpdateUser(state: AuthState, storage: Storage, u: UserRecord, show: UserRecord -> string): (r: (AuthState, Storage))
    ensures r.0.user == Some(u) && r.0.token == state.token
    ensures r.0.isAuthenticated == state.isAuthenticated && r.0.isLoading == state.isLoading
    ensures r.1.user == Some(show(u)) && r.1.token == storage.token && r.1.farmerId == storage.farmerId
  {
    (state.(user := Some(u)), storage.(user := Some(show(u))))
  }

  /** A session signed in with a non-empty token is restored by the next
      start-up with the same user, when the stored text parses back to the
      stored record. */
  lemma SessionSurvivesReload(state: AuthState, storage: Storage, resp: Response,
                              show: UserRecord -> string, parse: string -> Parsed)
    requires Succeeded(resp) && resp.token != ""
    requires forall u :: show(u) != "" && parse(show(u)) == ParsedValue(Some(Embed(u)))
    ensures var o := Login(state, storage, resp, show);
      InitAuth(o.storage, parse).0 == o.state
  {
    var u := NormalizeFarmer(resp.farmer);
    NormalizeRoundTrip(u);
  }

  /** After logout the next start-up is signed out. */
  lemma LogoutThenReload(state: AuthState, storage: Storage, parse: string -> Parsed)
    ensures InitAuth(Logout(state, storage).1, parse).0 == AuthState(None, None, false, false)
  {
  }
}

=== FILE: badges_page.dfy ===
/** The badges page of the web client: the category tabs, the split of the
    shown badges into earned and not yet earned, and the icon and rarity
    lookups. */
module BadgesPage {
  import opened Common
  import opened Text

  datatype BadgeCategory = Achiever | Expert | Pioneer | Helper | Learner
  datatype Rarity = Common | Rare | Epic | Legendary

  function CategoryCode(c: BadgeCategory): string {
    match c
    case Achiever => "achiever"
    case Expert => "expert"
    case Pioneer => "pioneer"
    case Helper => "helper"
    case Learner => "learner"
  }

  /** A badge as the page holds it; the progress towards its target is left
      out. */
  datatype ClientBadge = ClientBadge(
    id: string,
    name: string,
    category: BadgeCategory,
    icon: string,
    earned: bool,
    rarity: Rarity,
    pointsReward: int)

  /** The tab that shows every category. */
  const AllCategory: string := "all"

  predicate InCategory(b: ClientBadge, active: string) {
    active == AllCategory || CategoryCode(b.category) == active
  }

  function InCategoryBy(active: string): ClientBadge -> bool {
    (b: ClientBadge) => InCategory(b, active)
  }

  function IsEarned(): ClientBadge -> bool {
    (b: ClientBadge) => b.earned
  }

  function IsUnearned(): ClientBadge -> bool {
    (b: ClientBadge) => !b.earned
  }

  /** `filteredBadges`: the badges of the active tab, in order. */
  function FilteredBadges(badges: seq<ClientBadge>, active: string): (r: seq<ClientBadge>)
    ensures |r| <= |badges|
  {
    Filter(badges, InCategoryBy(active))
  }

  /** `earnedBadges` and `unearnedBadges`. */
  function EarnedBadges(badges: seq<ClientBadge>, active: string): (r: seq<ClientBadge>)
    ensures |r| <= |FilteredBadges(badges, active)|
  {
    Filter(FilteredBadges(badges, active), IsEarned())
  }

  function UnearnedBadges(badges: seq<ClientBadge>, active: string): (r: seq<ClientBadge>)
    ensures |r| <= |FilteredBadges(badges, active)|
  {
    Filter(FilteredBadges(badges, active), IsUnearned())
  }

  /** The "all" tab shows every badge in order. */
  lemma AllTabShowsAll(badges: seq<ClientBadge>)
    ensures FilteredBadges(badges, AllCategory) == badges
  {
    FilterAll(badges, InCategoryBy(AllCategory));
  }

  /** Any other tab shows exactly the badges of its category. */
  lemma CategoryTab(badges: seq<ClientBadge>, c: BadgeCategory)
    ensures forall i :: 0 <= i < |FilteredBadges(badges, CategoryCode(c))| ==>
      FilteredBadges(badges, CategoryCode(c))[i].category == c &&
      FilteredBadges(badges, CategoryCode(c))[i] in badges
    ensures forall i :: 0 <= i < |badges| && badges[i].category == c ==>
      badges[i] in FilteredBadges(badges, CategoryCode(c))
  {
    var r := FilteredBadges(badges, CategoryCode(c));
    FilterMembers(badges, InCategoryBy(CategoryCode(c)));
    forall i | 0 <= i < |r| ensures r[i].category == c {
      CategoryCodeInjective(r[i].category, c);
    }
  }

  lemma CategoryCodeInjective(a: BadgeCategory, b: BadgeCategory)
    ensures CategoryCode(a) == CategoryCode(b) ==> a == b
  {
  }

  /** The earned and unearned lists split the shown badges: every shown
      badge is in exactly one of them, as often as it is shown. */
  lemma EarnedPartition(badges: seq<ClientBadge>, active: string)
    ensures multiset(EarnedBadges(badges, active)) + multiset(UnearnedBadges(badges, active))
      == multiset(FilteredBadges(badges, active))
    ensures forall i :: 0 <= i < |EarnedBadges(badges, active)| ==> EarnedBadges(badges, active)[i].earned
    ensures forall i :: 0 <= i < |UnearnedBadges(badges, active)| ==> !UnearnedBadges(badges, active)[i].earned
  {
    var f := FilteredBadges(badges, active);
    FilterPartition(f, IsEarned(), IsUnearned());
    FilterMembers(f, IsEarned());
    FilterMembers(f, IsUnearned());
  }

  /** The earned list keeps the order of the catalogue: it is the catalogue
      filtered once by tab and earned together. */
  lemma EarnedInOrder(badges: seq<ClientBadge>, active: string)
    ensures EarnedBadges(badges, active) == Filter(badges, (b: ClientBadge) => InCategory(b, active) && b.earned)
    ensures UnearnedBadges(badges, active) == Filter(badges, (b: ClientBadge) => InCategory(b, active) && !b.earned)
  {
    var both := (b: ClientBadge) => InCategory(b, active) && b.earned;
    var neither := (b: ClientBadge) => InCategory(b, active) && !b.earned;
    FilterMembers(badges, InCategoryBy(active));
    FilterNarrow(badges, InCategoryBy(active), both);
    FilterNarrow(badges, InCategoryBy(active), neither);
    FilterSame(Filter(badges, InCategoryBy(active)), IsEarned(), both);
    FilterSame(Filter(badges, InCategoryBy(active)), IsUnearned(), neither);
  }

  // ---------------------------------------------------------------------
  // Icon and rarity lookups

  /** What the icon lookup yields: one of the page's icon components, or a
      value a plain object literal inherits from `Object.prototype` (a
      method, or the prototype itself for `__proto__`), which is truthy but
      is not an icon component. */
  datatype Icon =
    | Target | Trophy | Droplets | Leaf | Zap | Users | Star | Clock | Crown | Shield | Award
    | Inherited(key: string)

  /** The icon map of the page. */
  const IconMap: map<string, Icon> := map[
    "target" := Target, "trophy" := Trophy, "droplets" := Droplets, "leaf" := Leaf, "zap" := Zap,
    "users" := Users, "star" := Star, "clock" := Clock, "crown" := Crown, "shield" := Shield]

  /** The names every object literal inherits from `Object.prototype`, per
      section 20.1.3 and annex B.2.2 of ECMA-262. */
  const ObjectPrototypeKeys: set<string> := {
    "constructor", "hasOwnProperty", "isPrototypeOf", "propertyIsEnumerable",
    "toLocaleString", "toString", "valueOf", "__proto__",
    "__defineGetter__", "__defineSetter__", "__lookupGetter__", "__lookupSetter__"}

  /** `getIconComponent`: `icons[iconName] || Award`. An own key gives its
      icon; an inherited key gives the inherited value, which is truthy and
      so is returned as it is; any other name gives Award, which no own key
      maps to. */
  function IconFor(name: string): (r: Icon)
    ensures name in IconMap ==> r == IconMap[name]
    ensures r == Award <==> name !in IconMap && name !in ObjectPrototypeKeys
    ensures r.Inherited? <==> name in ObjectPrototypeKeys
    ensures r.Inherited? ==> r.key == name
  {
    if name in IconMap then IconMap[name]
    else if name in ObjectPrototypeKeys then Inherited(name)
    else Award
  }

  /** The lookup is exact and case-sensitive: "crown" is a crown, "Crown"
      and an unlisted name are Award, and "constructor" is not an icon. */
  lemma IconsOfKnownNames()
    ensures IconFor("crown") == Crown && IconFor("target") == Target
    ensures IconFor("medal") == Award && IconFor("Crown") == Award
    ensures IconFor("constructor") == Inherited("constructor")
  {
    assert "medal" !in IconMap && "medal" !in ObjectPrototypeKeys;
    assert "Crown" !in IconMap && "Crown" !in ObjectPrototypeKeys;
    assert "constructor" !in IconMap;
  }

  /** The rarity key a badge carries in its data. */
  function RarityCode(r: Rarity): string {
    match r
    case Common => "common"
    case Rare => "rare"
    case Epic => "epic"
    case Legendary => "legendary"
  }

  /** The colour family of each rarity. */
  function RarityHue(r: Rarity): string {
    match r
    case Common => "gray"
    case Rare => "blue"
    case Epic => "purple"
    case Legendary => "yellow"
  }

  /** The class list of a colour family: a border and a light background. */
  function ColourClasses(hue: string): string {
    "border-" + hue + "-300 bg-" + hue + "-50"
  }

  /** `getRarityColor`: the class list of the rarity's colour family. */
  function RarityColor(r: Rarity): (c: string)
    ensures c == ColourClasses(RarityHue(r))
  {
    match r
    case Common => GrayClasses(); "border-gray-300 bg-gray-50"
    case Rare => BlueClasses(); "border-blue-300 bg-blue-50"
    case Epic => PurpleClasses(); "border-purple-300 bg-purple-50"
    case Legendary => YellowClasses(); "border-yellow-300 bg-yellow-50"
  }

  lemma GrayClasses()
    ensures ColourClasses("gray") == "border-gray-300 bg-gray-50"
  {
  }

  lemma BlueClasses()
    ensures ColourClasses("blue") == "border-blue-300 bg-blue-50"
  {
  }

  lemma PurpleClasses()
    ensures ColourClasses("purple") == "border-purple-300 bg-purple-50"
  {
  }

  lemma YellowClasses()
    ensures ColourClasses("yellow") == "border-yellow-300 bg-yellow-50"
  {
  }

  datatype BadgeVariant = Secondary | Default | Outline | Destructive

  /** `getRarityBadge`: the label is the rarity key with its first letter
      in upper case. */
  function RarityBadge(r: Rarity): (v: (BadgeVariant, string))
    ensures |v.1| == |RarityCode(r)| > 0
    ensures v.1[0] == UpperChar(RarityCode(r)[0]) && v.1[1..] == RarityCode(r)[1..]
  {
    match r
    case Common => (Secondary, "Common")
    case Rare => (Default, "Rare")
    case Epic => (Outline, "Epic")
    case Legendary => (Destructive, "Legendary")
  }

  /** Distinct rarities get distinct colours, variants and labels, so the
      colour or the label alone tells the rarity. */
  lemma RarityLookupsDistinguish(a: Rarity, b: Rarity)
    ensures a != b ==> RarityColor(a) != RarityColor(b)
    ensures a != b ==> RarityBadge(a).0 != RarityBadge(b).0 && RarityBadge(a).1 != RarityBadge(b).1
  {
  }
}

=== FILE: chatbot.dfy ===
/** The farmer chatbot's retrieval rule: the message is normalised and
    cleaned, each knowledge-base entry of the requested language is scored
    by keyword hits and a fuzzy ratio, and the best entry answers when its
    score is above 60; otherwise a randomly chosen entry of that language
    answers. The fuzzy ratio, Unicode NFC normalisation, the regular
    expression word class and the random choice are parameters. */
module Chatbot {
  import opened Common
  import opened Text
  import opened Sorting

  // ---------------------------------------------------------------------
  // Text normalisation and cleaning

  /** `normalize_text`: a missing message counts as the empty one; the text
      is lower-cased, stripped and handed to the NFC normaliser `nfc`. */
  function NormalizeText(text: Option<string>, nfc: string -> string): string {
    nfc(Trim(Lower(text.GetOr(""))))
  }

  /** A missing message normalises like the empty one. */
  lemma NormalizeMissing(nfc: string -> string)
    ensures NormalizeText(None, nfc) == NormalizeText(Some(""), nfc) == nfc("")
  {
    assert Trim(Lower("")) == "";
  }

  /** A string already lower-case and stripped. */
  predicate Normal(s: string) {
    Stripped(s) && forall i :: 0 <= i < |s| ==> !IsUpper(s[i])
  }

  /** With a normaliser that leaves lower-case stripped text alone (as NFC
      does for ASCII), the result is lower-case and stripped, and
      normalising it again changes nothing. */
  lemma NormalizeIdempotent(text: Option<string>, nfc: string -> string)
    requires forall s :: Normal(s) ==> nfc(s) == s
    ensures Normal(NormalizeText(text, nfc))
    ensures NormalizeText(Some(NormalizeText(text, nfc)), nfc) == NormalizeText(text, nfc)
  {
    var t := Trim(Lower(text.GetOr("")));
    TrimmedLowerNormal(text.GetOr(""));
    assert NormalizeText(text, nfc) == t;
    LowerNoUpper(t);
    assert Trim(Lower(t)) == t;
  }

  lemma TrimmedLowerNormal(s: string)
    ensures Normal(Trim(Lower(s)))
  {
    var l := Lower(s);
    LowerNormalises(s);
    var t := Trim(l);
    forall i | 0 <= i < |t| ensures !IsUpper(t[i]) {
      assert t[i] in l;
    }
  }

  /** Lower-casing a string without upper-case letters changes nothing. */
  lemma LowerNoUpper(s: string)
    requires forall i :: 0 <= i < |s| ==> !IsUpper(s[i])
    ensures Lower(s) == s
  {
  }

  /** The regular-expression substitution `[^\w\s]` to a space: a character
      that is neither a word character (`isWord`) nor whitespace becomes a
      space; every other character is kept. */
  function Scrub(s: string, isWord: char -> bool): (r: string)
    ensures |r| == |s|
    ensures forall i :: 0 <= i < |s| && (isWord(s[i]) || IsSpace(s[i])) ==> r[i] == s[i]
    ensures forall i :: 0 <= i < |s| && !(isWord(s[i]) || IsSpace(s[i])) ==> r[i] == ' '
  {
    seq(|s|, i requires 0 <= i < |s| => if isWord(s[i]) || IsSpace(s[i]) then s[i] else ' ')
  }

  /** Every character of a scrubbed string is a word character or whitespace,
      and scrubbing changes a string exactly when it has another character. */
  lemma ScrubKeeps(s: string, isWord: char -> bool)
    ensures forall c :: c in Scrub(s, isWord) ==> isWord(c) || IsSpace(c)
    ensures Scrub(s, isWord) == s <==> forall i :: 0 <= i < |s| ==> isWord(s[i]) || IsSpace(s[i])
  {
    var r := Scrub(s, isWord);
    if r == s {
      forall i | 0 <= i < |s| ensures isWord(s[i]) || IsSpace(s[i]) {
        assert r[i] == s[i];
      }
    }
  }

  /** Every character is a word character or a plain space. */
  predicate WordsAndSpaces(r: string, isWord: char -> bool) {
    forall i :: 0 <= i < |r| ==> isWord(r[i]) || r[i] == ' '
  }

  /** `clean_text`: punctuation and symbols become spaces, then whitespace
      runs collapse to single spaces and the ends are trimmed. */
  function CleanText(s: string, isWord: char -> bool): (r: string)
    ensures Collapsed(r) && Stripped(r)
    ensures WordsAndSpaces(r, isWord)
    ensures (forall c :: isWord(c) ==> !IsSpace(c)) ==> Solid(r) == Filter(s, isWord)
    ensures Words(r) == Words(Scrub(s, isWord))
    ensures r != "" ==> Split(r, ' ') == Words(Scrub(s, isWord))
  {
    var x := Scrub(s, isWord);
    ScrubKeeps(s, isWord);
    CollapseKeeps(x, isWord);
    CollapseSolid(x);
    ScrubWordChars(s, isWord);
    Collapse(x)
  }

  /** Two runs of word characters around one other character come out as
      two words separated by a single space: the words stay apart. */
  lemma CleanSeparatesWords(a: string, c: char, b: string, isWord: char -> bool)
    requires forall x :: isWord(x) ==> !IsSpace(x)
    requires a != "" && b != "" && !isWord(c)
    requires forall i :: 0 <= i < |a| ==> isWord(a[i])
    requires forall i :: 0 <= i < |b| ==> isWord(b[i])
    ensures CleanText(a + [c] + b, isWord) == a + " " + b
  {
    var s := a + [c] + b;
    var x := Scrub(s, isWord);
    var blank := if IsSpace(c) then c else ' ';
    assert s[|a|] == c;
    assert forall i :: 0 <= i < |a| ==> s[i] == a[i];
    assert forall i :: 0 <= i < |b| ==> s[|a| + 1 + i] == b[i];
    assert x == a + [blank] + b;
    CollapseTwoWords(a, blank, b);
  }

  lemma ScrubWordChars(s: string, isWord: char -> bool)
    ensures (forall c :: isWord(c) ==> !IsSpace(c)) ==> Solid(Scrub(s, isWord)) == Filter(s, isWord)
  {
    if forall c :: isWord(c) ==> !IsSpace(c) {
      ScrubSolid(s, isWord);
    }
  }

  /** When no word character is whitespace, the non-whitespace characters
      left by the substitution are exactly the word characters, in order. */
  lemma {:induction false} ScrubSolid(s: string, isWord: char -> bool)
    requires forall c :: isWord(c) ==> !IsSpace(c)
    ensures Solid(Scrub(s, isWord)) == Filter(s, isWord)
    decreases |s|
  {
    if |s| > 0 {
      var x := Scrub(s, isWord);
      assert x[1..] == Scrub(s[1..], isWord);
      ScrubSolid(s[1..], isWord);
    }
  }

  function WordOrBlank(isWord: char -> bool): char -> bool {
    c => isWord(c) || c == ' '
  }

  /** Collapsing a text of word characters and whitespace leaves only word
      characters and single spaces. */
  lemma CollapseKeeps(x: string, isWord: char -> bool)
    requires forall c :: c in x ==> isWord(c) || IsSpace(c)
    ensures WordsAndSpaces(Collapse(x), isWord)
  {
    var ws := Words(x);
    WordsIn(x);
    CleanChars(x, ws, isWord);
    var P := WordOrBlank(isWord);
    assert forall i, j :: 0 <= i < |ws| && 0 <= j < |ws[i]| ==> P(ws[i][j]);
    assert forall j :: 0 <= j < |" "| ==> P(" "[j]);
    JoinKeep(ws, " ", P);
    assert Collapse(x) == Join(ws, " ");
  }

  lemma CleanChars(x: string, ws: seq<string>, isWord: char -> bool)
    requires forall c :: c in x ==> isWord(c) || IsSpace(c)
    requires forall i :: 0 <= i < |ws| ==> NoSpace(ws[i])
    requires forall i, j :: 0 <= i < |ws| && 0 <= j < |ws[i]| ==> ws[i][j] in x
    ensures forall i, j :: 0 <= i < |ws| && 0 <= j < |ws[i]| ==> isWord(ws[i][j]) || ws[i][j] == ' '
  {
  }

  /** Cleaning an already cleaned text changes nothing. */
  lemma CleanIdempotent(s: string, isWord: char -> bool)
    ensures CleanText(CleanText(s, isWord), isWord) == CleanText(s, isWord)
  {
    var c := CleanText(s, isWord);
    ScrubKeeps(c, isWord);
    assert Scrub(c, isWord) == c;
    CollapseIdempotent(Scrub(s, isWord));
  }

  // ---------------------------------------------------------------------
  // Scoring

  /** A knowledge-base entry. A missing keyword list is the empty list; a
      missing language is `None`. */
  datatype KbEntry = KbEntry(title: string, content: string, keywords: seq<string>, language: Option<string>)

  /** The score of a keyword hit. */
  const KeywordHit: int := 95

  /** Characters of the cleaned content the fuzzy ratio sees. */
  const ContentWindow: nat := 150

  /** The score of one keyword against the cleaned message: a hit when the
      cleaned keyword is non-empty and one of the two contains the other,
      otherwise the fuzzy ratio `ratio(keyword, message)`. */
  function KeywordScore(kw: string, msg: string, ratio: (string, string) -> int, isWord: char -> bool): int {
    var ck := CleanText(kw, isWord);
    if ck != "" && (Contains(msg, ck) || Contains(ck, msg)) then KeywordHit else ratio(ck, msg)
  }

  /** The list of scores `smart_match` takes the maximum of: one per keyword,
      then the title's ratio, then the ratio against the start of the content. */
  function Scores(message: string, e: KbEntry, ratio: (string, string) -> int, isWord: char -> bool): (r: seq<int>)
    ensures |r| == |e.keywords| + 2
    ensures forall i :: 0 <= i < |e.keywords| ==>
      r[i] == KeywordScore(e.keywords[i], CleanText(message, isWord), ratio, isWord)
    ensures r[|e.keywords|] == ratio(CleanText(message, isWord), CleanText(e.title, isWord))
    ensures r[|e.keywords| + 1] == ratio(CleanText(message, isWord), Window(e.content, isWord))
  {
    ScoreList(CleanText(message, isWord), e.keywords, CleanText(e.title, isWord), Window(e.content, isWord), ratio, isWord)
  }

  /** The scores of keywords, title and content window against a cleaned message. */
  function ScoreList(msg: string, kws: seq<string>, title: string, window: string,
                     ratio: (string, string) -> int, isWord: char -> bool): (r: seq<int>)
    ensures |r| == |kws| + 2
    ensures forall i :: 0 <= i < |kws| ==> r[i] == KeywordScore(kws[i], msg, ratio, isWord)
    ensures r[|kws|] == ratio(msg, title) && r[|kws| + 1] == ratio(msg, window)
  {
    var hits := KeywordScores(kws, msg, ratio, isWord);
    var r := hits + [ratio(msg, title), ratio(msg, window)];
    assert forall i :: 0 <= i < |hits| ==> r[i] == hits[i];
    r
  }

  /** The start of the cleaned content that the fuzzy ratio sees. */
  function Window(content: string, isWord: char -> bool): (w: string)
    ensures |w| == Min(ContentWindow, |CleanText(content, isWord)|)
    ensures w == CleanText(content, isWord)[..|w|]
  {
    Take(CleanText(content, isWord), ContentWindow)
  }

  /** The score of each keyword against the cleaned message, in order. */
  function KeywordScores(kws: seq<string>, msg: string, ratio: (string, string) -> int, isWord: char -> bool): (r: seq<int>)
    ensures |r| == |kws|
    ensures forall i :: 0 <= i < |kws| ==> r[i] == KeywordScore(kws[i], msg, ratio, isWord)
  {
    seq(|kws|, i requires 0 <= i < |kws| => KeywordScore(kws[i], msg, ratio, isWord))
  }

  /** `smart_match`: the largest of the scores (the list is never empty,
      so the empty case of the source does not arise). */
  function SmartMatch(message: string, e: KbEntry, ratio: (string, string) -> int, isWord: char -> bool): (r: int)
    ensures r in Scores(message, e, ratio, isWord)
    ensures forall i :: 0 <= i < |Scores(message, e, ratio, isWord)| ==> Scores(message, e, ratio, isWord)[i] <= r
  {
    MaxOf(Scores(message, e, ratio, isWord))
  }

  /** With a fuzzy ratio between 0 and 100 the score is between 0 and 100. */
  lemma SmartMatchBounds(message: string, e: KbEntry, ratio: (string, string) -> int, isWord: char -> bool)
    requires forall a, b :: 0 <= ratio(a, b) <= 100
    ensures 0 <= SmartMatch(message, e, ratio, isWord) <= 100
  {
    var msg, title, window := CleanText(message, isWord), CleanText(e.title, isWord), Window(e.content, isWord);
    var s := ScoreList(msg, e.keywords, title, window, ratio, isWord);
    ScoreListBounded(msg, e.keywords, title, window, ratio, isWord);
    assert Scores(message, e, ratio, isWord) == s;
    InRangeMember(s, SmartMatch(message, e, ratio, isWord));
  }

  /** A member of a list of scores between 0 and 100 is between 0 and 100. */
  lemma InRangeMember(s: seq<int>, x: int)
    requires x in s && forall i :: 0 <= i < |s| ==> 0 <= s[i] <= 100
    ensures 0 <= x <= 100
  {
  }

  lemma ScoreListBounded(msg: string, kws: seq<string>, title: string, window: string,
                         ratio: (string, string) -> int, isWord: char -> bool)
    requires forall a, b :: 0 <= ratio(a, b) <= 100
    ensures forall i :: 0 <= i < |ScoreList(msg, kws, title, window, ratio, isWord)| ==>
      0 <= ScoreList(msg, kws, title, window, ratio, isWord)[i] <= 100
  {
    var s := ScoreList(msg, kws, title, window, ratio, isWord);
    forall i | 0 <= i < |kws| ensures 0 <= s[i] <= 100 {
      KeywordScoreBounded(kws[i], msg, ratio, isWord);
    }
  }

  lemma KeywordScoreBounded(kw: string, msg: string, ratio: (string, string) -> int, isWord: char -> bool)
    requires forall a, b :: 0 <= ratio(a, b) <= 100
    ensures 0 <= KeywordScore(kw, msg, ratio, isWord) <= 100
  {
  }

  /** A keyword hit makes the entry score at least 95, whatever the ratios. */
  lemma KeywordHitScores(message: string, e: KbEntry, ratio: (string, string) -> int, isWord: char -> bool, i: nat)
    requires i < |e.keywords|
    requires var ck := CleanText(e.keywords[i], isWord); var msg := CleanText(message, isWord);
      ck != "" && (Contains(msg, ck) || Contains(ck, msg))
    ensures SmartMatch(message, e, ratio, isWord) >= KeywordHit
  {
    var s := Scores(message, e, ratio, isWord);
    assert s[i] == KeywordScore(e.keywords[i], CleanText(message, isWord), ratio, isWord);
  }

  /** A message that cleans to nothing hits every entry with a keyword that
      does not clean to nothing: the empty message occurs in every keyword. */
  lemma EmptyMessageHits(message: string, e: KbEntry, ratio: (string, string) -> int, isWord: char -> bool, i: nat)
    requires i < |e.keywords| && CleanText(e.keywords[i], isWord) != ""
    requires CleanText(message, isWord) == ""
    ensures SmartMatch(message, e, ratio, isWord) >= KeywordHit
  {
    ContainsSelfAndEmpty(CleanText(e.keywords[i], isWord));
    KeywordHitScores(message, e, ratio, isWord, i);
  }

  // ---------------------------------------------------------------------
  // The chat endpoint

  /** The fixed reply when no entry has the requested language. */
  const NoAdviceText: string := "Sorry, no advice in this language."

  const DefaultLanguage: string := "en"

  /** The score above which the best entry is trusted. */
  const AcceptScore: int := 60

  datatype ChatReply = Reply(reply: string, source: Option<string>)

  /** The requested language: absent means English; present but null is
      `None`, which matches entries without a language. */
  function RequestedLanguage(language: Option<Option<string>>): (lang: Option<string>)
    ensures language.None? ==> lang == Some(DefaultLanguage)
    ensures language.Some? ==> lang == language.value
  {
    language.GetOr(Some(DefaultLanguage))
  }

  function HasLanguage(lang: Option<string>): KbEntry -> bool {
    (e: KbEntry) => e.language == lang
  }

  /** The score of an entry against the normalised message. */
  function ScoreOf(msg: string, ratio: (string, string) -> int, isWord: char -> bool): KbEntry -> int {
    (e: KbEntry) => SmartMatch(msg, e, ratio, isWord)
  }

  /** The answer of an entry: its content, with its title as the source. */
  function Answer(e: KbEntry): ChatReply {
    Reply(e.content, Some(e.title))
  }

  /** The candidates: the entries whose language is the requested one. */
  function Candidates(kb: seq<KbEntry>, language: Option<Option<string>>): seq<KbEntry> {
    Filter(kb, HasLanguage(RequestedLanguage(language)))
  }

  /** The score of an entry against the normalised message. */
  function Key(message: Option<string>, ratio: (string, string) -> int, nfc: string -> string,
               isWord: char -> bool): KbEntry -> int {
    ScoreOf(NormalizeText(message, nfc), ratio, isWord)
  }

  /** The entry that answers among non-empty candidates: the first after a
      stable sort by score, best first, when its score exceeds 60, else the
      entry at index `pick` modulo their number. */
  function Select(entries: seq<KbEntry>, key: KbEntry -> int, pick: nat): (e: KbEntry)
    requires entries != []
    ensures e in entries
  {
    var scored := SortDesc(entries, key);
    assert scored[0] in multiset(entries);
    if key(scored[0]) > AcceptScore then scored[0] else entries[pick % |entries|]
  }

  /** When some candidate scores above 60, the earliest candidate with the
      highest score is selected. */
  lemma SelectConfident(entries: seq<KbEntry>, key: KbEntry -> int, pick: nat, k: nat)
    requires k < |entries| && key(entries[k]) > AcceptScore
    ensures exists i :: (FirstOfKey(entries, key, i) &&
      (forall j :: 0 <= j < |entries| ==> key(entries[j]) <= key(entries[i])) &&
      Select(entries, key, pick) == entries[i])
  {
    SortHeadMax(entries, key);
    SortHeadFirst(entries, key);
    var i :| FirstOfKey(entries, key, i) && entries[i] == SortDesc(entries, key)[0];
  }

  /** When no candidate scores above 60, the picked candidate is selected. */
  lemma SelectFallback(entries: seq<KbEntry>, key: KbEntry -> int, pick: nat)
    requires entries != []
    requires forall j :: 0 <= j < |entries| ==> key(entries[j]) <= AcceptScore
    ensures Select(entries, key, pick) == entries[pick % |entries|]
  {
    SortHeadMax(entries, key);
  }

  /** `chat` for a scoring `key`: without candidates the fixed apology;
      otherwise the answer of the selected candidate. The index `pick`
      stands for the random choice. */
  function ChatWith(kb: seq<KbEntry>, language: Option<Option<string>>, key: KbEntry -> int, pick: nat): (r: ChatReply)
    ensures Candidates(kb, language) == [] <==> r == Reply(NoAdviceText, None)
    ensures Candidates(kb, language) != [] ==> r == Answer(Select(Candidates(kb, language), key, pick))
  {
    var entries := Candidates(kb, language);
    if entries == [] then Reply(NoAdviceText, None)
    else Answer(Select(entries, key, pick))
  }

  /** `chat`: entries are scored with `smart_match` against the normalised
      message. */
  function Chat(kb: seq<KbEntry>, message: Option<string>, language: Option<Option<string>>,
                ratio: (string, string) -> int, nfc: string -> string, isWord: char -> bool,
                pick: nat): ChatReply
  {
    ChatWith(kb, language, Key(message, ratio, nfc, isWord), pick)
  }

  /** With no entry of the requested language the reply is the fixed
      apology, exactly when every entry has another language; this holds
      for every scoring. */
  lemma NoCandidates(kb: seq<KbEntry>, language: Option<Option<string>>, key: KbEntry -> int, pick: nat)
    ensures ChatWith(kb, language, key, pick) == Reply(NoAdviceText, None)
      <==> forall i :: 0 <= i < |kb| ==> kb[i].language != RequestedLanguage(language)
  {
    FilterEmpty(kb, HasLanguage(RequestedLanguage(language)));
  }

  /** Whenever an entry of the requested language exists, the reply is the
      answer of such an entry. */
  lemma ReplyFromCandidate(kb: seq<KbEntry>, language: Option<Option<string>>, key: KbEntry -> int, pick: nat)
    requires exists i :: 0 <= i < |kb| && kb[i].language == RequestedLanguage(language)
    ensures exists i :: (0 <= i < |kb| && kb[i].language == RequestedLanguage(language) &&
      ChatWith(kb, language, key, pick) == Answer(kb[i]))
  {
    var lang := RequestedLanguage(language);
    var entries := Candidates(kb, language);
    FilterEmpty(kb, HasLanguage(lang));
    FilterMembers(kb, HasLanguage(lang));
    var e := Select(entries, key, pick);
    assert ChatWith(kb, language, key, pick) == Answer(e);
    var j :| 0 <= j < |entries| && entries[j] == e;
    assert HasLanguage(lang)(entries[j]) && entries[j] in kb;
    var i :| 0 <= i < |kb| && kb[i] == e;
    assert kb[i].language == lang;
  }

  /** When some entry of the requested language scores above 60, the reply
      is the answer of the earliest entry of that language with the highest
      score. */
  lemma ConfidentReply(kb: seq<KbEntry>, language: Option<Option<string>>, key: KbEntry -> int, pick: nat, k: nat)
    requires k < |Candidates(kb, language)|
    requires key(Candidates(kb, language)[k]) > AcceptScore
    ensures var entries := Candidates(kb, language);
      exists i :: (FirstOfKey(entries, key, i) &&
        (forall j :: 0 <= j < |entries| ==> key(entries[j]) <= key(entries[i])) &&
        ChatWith(kb, language, key, pick) == Answer(entries[i]))
  {
    SelectConfident(Candidates(kb, language), key, pick, k);
  }

  /** When no entry of the requested language scores above 60, the reply is
      the answer of the picked entry. */
  lemma FallbackReply(kb: seq<KbEntry>, language: Option<Option<string>>, key: KbEntry -> int, pick: nat)
    requires Candidates(kb, language) != []
    requires forall j :: 0 <= j < |Candidates(kb, language)| ==> key(Candidates(kb, language)[j]) <= AcceptScore
    ensures ChatWith(kb, language, key, pick) == Answer(Candidates(kb, language)[pick % |Candidates(kb, language)|])
  {
    SelectFallback(Candidates(kb, language), key, pick);
  }

  /** A lone candidate scoring above 60 gives its own answer. */
  lemma LoneConfidentCandidate(e: KbEntry, language: Option<Option<string>>, key: KbEntry -> int, pick: nat)
    requires e.language == RequestedLanguage(language) && key(e) > AcceptScore
    ensures ChatWith([e], language, key, pick) == Answer(e)
  {
    FilterHead([e], HasLanguage(RequestedLanguage(language)));
    assert Candidates([e], language) == [e];
    ConfidentReply([e], language, key, pick, 0);
  }

  /** A keyword hit puts the entry's score above the acceptance score. */
  lemma KeywordHitConfident(e: KbEntry, message: Option<string>, ratio: (string, string) -> int,
                            nfc: string -> string, isWord: char -> bool, i: nat)
    requires i < |e.keywords|
    requires var ck := CleanText(e.keywords[i], isWord); var msg := CleanText(NormalizeText(message, nfc), isWord);
      ck != "" && (Contains(msg, ck) || Contains(ck, msg))
    ensures Key(message, ratio, nfc, isWord)(e) > AcceptScore
  {
    var m := NormalizeText(message, nfc);
    KeywordHitScores(m, e, ratio, isWord, i);
    KeyOf(message, ratio, nfc, isWord, e);
  }

  lemma KeyOf(message: Option<string>, ratio: (string, string) -> int, nfc: string -> string,
              isWord: char -> bool, e: KbEntry)
    ensures Key(message, ratio, nfc, isWord)(e) == SmartMatch(NormalizeText(message, nfc), e, ratio, isWord)
  {
  }

  /** A message hitting a keyword of the only candidate gets that
      candidate's answer, whatever the random choice. */
  lemma KeywordHitAnswers(e: KbEntry, message: Option<string>, language: Option<Option<string>>,
                          ratio: (string, string) -> int, nfc: string -> string, isWord: char -> bool,
                          pick: nat, i: nat)
    requires e.language == RequestedLanguage(language)
    requires i < |e.keywords|
    requires var ck := CleanText(e.keywords[i], isWord); var msg := CleanText(NormalizeText(message, nfc), isWord);
      ck != "" && (Contains(msg, ck) || Contains(ck, msg))
    ensures Chat([e], message, language, ratio, nfc, isWord, pick) == Answer(e)
  {
    KeywordHitConfident(e, message, ratio, nfc, isWord, i);
    LoneConfidentCandidate(e, language, Key(message, ratio, nfc, isWord), pick);
  }
}

=== FILE: common.dfy ===
/** Small shared vocabulary: optional values (Python's None, JavaScript's
    null/undefined) and the list operations both sides of the application
    lean on (filter, prefix slice, first match, count). */
module Common {

  datatype Option<+T> = None | Some(value: T) {

    /** The value, or `default` when absent (JavaScript's `x ?? d`). */
    function GetOr(default: T): T {
      match this
      case Some(v) => v
      case None => default
    }
  }

  /** Python's `min(a, b)` on integers. */
  function Min(a: int, b: int): int {
    if a <= b then a else b
  }

  /** `[x for x in s if p(x)]` / `s.filter(p)`: keeps exactly the elements
      satisfying `p`, in their original order. */
  function Filter<T>(s: seq<T>, p: T -> bool): (r: seq<T>)
    ensures |r| <= |s|
    decreases |s|
  {
    if |s| == 0 then []
    else
      var rest := Filter(s[1..], p);
      if p(s[0]) then [s[0]] + rest else rest
  }

  /** Every kept element satisfies `p` and comes from the input, and every
      input element satisfying `p` is kept. */
  lemma {:induction false} FilterMembers<T>(s: seq<T>, p: T -> bool)
    ensures forall i :: 0 <= i < |Filter(s, p)| ==> p(Filter(s, p)[i])
    ensures forall i :: 0 <= i < |Filter(s, p)| ==> Filter(s, p)[i] in s
    ensures forall i :: 0 <= i < |s| && p(s[i]) ==> s[i] in Filter(s, p)
    decreases |s|
  {
    if |s| > 0 {
      FilterMembers(s[1..], p);
      assert s == [s[0]] + s[1..];
    }
  }

  /** The filter is empty exactly when no element satisfies `p`. */
  lemma FilterEmpty<T>(s: seq<T>, p: T -> bool)
    ensures Filter(s, p) == [] <==> forall i :: 0 <= i < |s| ==> !p(s[i])
  {
    FilterMembers(s, p);
    if Filter(s, p) != [] {
      assert Filter(s, p)[0] in s;
    }
  }

  /** The elements failing `p` and those satisfying it together make up
      the whole sequence: no element is lost or duplicated. */
  lemma {:induction false} FilterPartition<T>(s: seq<T>, p: T -> bool, q: T -> bool)
    requires forall x :: q(x) == !p(x)
    ensures multiset(Filter(s, p)) + multiset(Filter(s, q)) == multiset(s)
    ensures |Filter(s, p)| + |Filter(s, q)| == |s|
    decreases |s|
  {
    if |s| > 0 {
      FilterPartition(s[1..], p, q);
      assert s == [s[0]] + s[1..];
    }
  }

  /** A filter whose predicate every element satisfies keeps the sequence as is. */
  lemma {:induction false} FilterAll<T>(s: seq<T>, p: T -> bool)
    requires forall i :: 0 <= i < |s| ==> p(s[i])
    ensures Filter(s, p) == s
    decreases |s|
  {
    if |s| > 0 {
      FilterAll(s[1..], p);
      assert s == [s[0]] + s[1..];
    }
  }

  lemma FilterHead<T>(s: seq<T>, p: T -> bool)
    requires |s| > 0
    ensures Filter(s, p) == (if p(s[0]) then [s[0]] else []) + Filter(s[1..], p)
  {
  }

  /** Filtering distributes over concatenation. */
  lemma {:induction false} FilterConcat<T>(a: seq<T>, b: seq<T>, p: T -> bool)
    ensures Filter(a + b, p) == Filter(a, p) + Filter(b, p)
    decreases |a|
  {
    if |a| == 0 {
      assert a + b == b;
    } else {
      FilterConcat(a[1..], b, p);
      FilterConcatStep(a, b, p);
    }
  }

  lemma FilterConcatStep<T>(a: seq<T>, b: seq<T>, p: T -> bool)
    requires |a| > 0
    requires Filter(a[1..] + b, p) == Filter(a[1..], p) + Filter(b, p)
    ensures Filter(a + b, p) == Filter(a, p) + Filter(b, p)
  {
    var h := if p(a[0]) then [a[0]] else [];
    var x := Filter(a[1..], p);
    var y := Filter(b, p);
    assert (a + b)[0] == a[0] && (a + b)[1..] == a[1..] + b;
    FilterHead(a + b, p);
    FilterHead(a, p);
    AppendAssoc(h, x, y);
  }

  lemma AppendAssoc<T>(x: seq<T>, y: seq<T>, z: seq<T>)
    ensures x + (y + z) == (x + y) + z
  {
  }

  /** Filtering by a weaker predicate first changes nothing. */
  lemma {:induction false} FilterNarrow<T>(s: seq<T>, weak: T -> bool, strong: T -> bool)
    requires forall x :: strong(x) ==> weak(x)
    ensures Filter(Filter(s, weak), strong) == Filter(s, strong)
    decreases |s|
  {
    if |s| > 0 {
      FilterNarrow(s[1..], weak, strong);
      FilterHead(s, weak);
      FilterHead(s, strong);
      if weak(s[0]) {
        FilterHead(Filter(s, weak), strong);
      }
    }
  }

  /** Predicates that agree on the elements filter alike. */
  lemma {:induction false} FilterSame<T>(s: seq<T>, p: T -> bool, q: T -> bool)
    requires forall i :: 0 <= i < |s| ==> p(s[i]) == q(s[i])
    ensures Filter(s, p) == Filter(s, q)
    decreases |s|
  {
    if |s| > 0 {
      FilterSame(s[1..], p, q);
      FilterHead(s, p);
      FilterHead(s, q);
    }
  }

  /** The filter keeps as many elements as satisfy `p`. */
  lemma {:induction false} FilterCount<T>(s: seq<T>, p: T -> bool)
    ensures |Filter(s, p)| == Count(s, p)
    decreases |s|
  {
    if |s| > 0 {
      FilterCount(s[1..], p);
    }
  }

  /** An element satisfying `p` is kept at its rank: the number of earlier
      elements that satisfy `p`. */
  lemma {:induction false} FilterAt<T>(s: seq<T>, p: T -> bool, j: int)
    requires 0 <= j < |s| && p(s[j])
    ensures Count(s[..j], p) < |Filter(s, p)| && Filter(s, p)[Count(s[..j], p)] == s[j]
    decreases j
  {
    FilterHead(s, p);
    if j == 0 {
      assert s[..j] == [];
    } else {
      FilterAt(s[1..], p, j - 1);
      assert s[..j][0] == s[0] && s[..j][1..] == s[1..][..j - 1];
    }
  }

  /** Conversely, the kept element of rank `k` sits at a position with
      exactly `k` earlier elements satisfying `p`. */
  lemma {:induction false} FilterFrom<T>(s: seq<T>, p: T -> bool, k: int)
    requires 0 <= k < |Filter(s, p)|
    ensures exists j :: 0 <= j < |s| && p(s[j]) && Count(s[..j], p) == k && Filter(s, p)[k] == s[j]
    decreases |s|
  {
    FilterHead(s, p);
    if p(s[0]) && k == 0 {
      assert s[..0] == [];
      assert p(s[0]) && Count(s[..0], p) == k && Filter(s, p)[k] == s[0];
    } else {
      var h := if p(s[0]) then 1 else 0;
      FilterFrom(s[1..], p, k - h);
      var j' :| 0 <= j' < |s[1..]| && p(s[1..][j']) && Count(s[1..][..j'], p) == k - h
                && Filter(s[1..], p)[k - h] == s[1..][j'];
      CountAfterHead(s, p, j');
      assert p(s[j' + 1]) && Count(s[..j' + 1], p) == k && Filter(s, p)[k] == s[j' + 1];
    }
  }

  lemma CountAfterHead<T>(s: seq<T>, p: T -> bool, j: int)
    requires 0 <= j < |s| - 1
    ensures Count(s[..j + 1], p) == (if p(s[0]) then 1 else 0) + Count(s[1..][..j], p)
  {
    assert s[..j + 1][0] == s[0] && s[..j + 1][1..] == s[1..][..j];
  }

  /** A filter no element passes gives the empty sequence. */
  lemma FilterNone<T>(s: seq<T>, p: T -> bool)
    requires forall i :: 0 <= i < |s| ==> !p(s[i])
    ensures Filter(s, p) == []
  {
  }

  /** Being a prefix is transitive. */
  lemma PrefixTrans<T>(a: seq<T>, b: seq<T>, c: seq<T>)
    requires |a| <= |b| && b[..|a|] == a
    requires |b| <= |c| && c[..|b|] == b
    ensures |a| <= |c| && c[..|a|] == a
  {
    assert forall i :: 0 <= i < |a| ==> c[i] == b[i];
  }

  /** Two positions holding the same value count twice in the multiset. */
  lemma CountTwo<T>(s: seq<T>, i: nat, j: nat)
    requires i < j < |s| && s[i] == s[j]
    ensures multiset(s)[s[i]] >= 2
  {
    assert s == s[..j] + [s[j]] + s[j + 1..];
    assert s[..j][i] == s[i];
    assert s[i] in multiset(s[..j]);
  }

  /** In a sequence without repeats every value counts at most once. */
  lemma {:induction false} DistinctCount<T>(s: seq<T>, x: T)
    requires forall i, j :: 0 <= i < j < |s| ==> s[i] != s[j]
    ensures multiset(s)[x] <= 1
    decreases |s|
  {
    if |s| > 0 {
      assert s == [s[0]] + s[1..];
      DistinctCount(s[1..], x);
      if x == s[0] {
        assert x !in s[1..];
      }
    }
  }

  /** Python's `s[:n]` for `n >= 0` (also Django's queryset slice). */
  function Take<T>(s: seq<T>, n: nat): (r: seq<T>)
    ensures |r| == Min(n, |s|)
    ensures forall i :: 0 <= i < |r| ==> r[i] == s[i]
  {
    if n <= |s| then s[..n] else s
  }

  /** Index of the first element satisfying `p` (Django's `.get(...)` on a
      unique key, JavaScript's `findIndex`). */
  function FindFirst<T>(s: seq<T>, p: T -> bool): (r: Option<nat>)
    ensures r.Some? ==> r.value < |s| && p(s[r.value])
    ensures r.Some? ==> forall j :: 0 <= j < r.value ==> !p(s[j])
    ensures r.None? <==> forall j :: 0 <= j < |s| ==> !p(s[j])
    decreases |s|
  {
    if |s| == 0 then None
    else if p(s[0]) then Some(0)
    else
      match FindFirst(s[1..], p)
      case None => None
      case Some(k) => Some(k + 1)
  }

  /** A weaker predicate counts at least as many elements. */
  lemma {:induction false} CountMonotone<T>(s: seq<T>, strong: T -> bool, weak: T -> bool)
    requires forall x :: strong(x) ==> weak(x)
    ensures Count(s, strong) <= Count(s, weak)
    decreases |s|
  {
    if |s| > 0 {
      CountMonotone(s[1..], strong, weak);
    }
  }

  /** Number of elements satisfying `p` (Django's `.filter(...).count()`). */
  function Count<T>(s: seq<T>, p: T -> bool): (n: nat)
    ensures n <= |s|
    ensures n == 0 <==> forall i :: 0 <= i < |s| ==> !p(s[i])
    decreases |s|
  {
    if |s| == 0 then 0
    else
      assert forall i :: 1 <= i < |s| ==> s[i] == s[1..][i - 1];
      (if p(s[0]) then 1 else 0) + Count(s[1..], p)
  }

  /** Counting one more element adds one exactly when it satisfies `p`. */
  lemma {:induction false} CountSnoc<T>(s: seq<T>, x: T, p: T -> bool)
    ensures Count(s + [x], p) == Count(s, p) + (if p(x) then 1 else 0)
    decreases |s|
  {
    if |s| == 0 {
      assert s + [x] == [x];
    } else {
      assert (s + [x])[1..] == s[1..] + [x];
      CountSnoc(s[1..], x, p);
    }
  }

  /** The positions of `s` holding an element that satisfies `p`. */
  function Positions<T>(s: seq<T>, p: T -> bool): set<int> {
    set i | 0 <= i < |s| && p(s[i])
  }

  /** The count is the number of positions holding an element that
      satisfies `p`. */
  lemma {:induction false} CountPositions<T>(s: seq<T>, p: T -> bool)
    ensures Count(s, p) == |Positions(s, p)|
    decreases |s|
  {
    if |s| > 0 {
      var n := |s| - 1;
      var t := s[..n];
      CountPositions(t, p);
      assert s == t + [s[n]];
      CountSnoc(t, s[n], p);
      var a := Positions(t, p);
      var b := Positions(s, p);
      assert n !in a;
      if p(s[n]) {
        assert b == a + {n};
      } else {
        assert b == a;
      }
    }
  }

  /** Python's `max(s)` on a non-empty list of integers. */
  function MaxOf(s: seq<int>): (m: int)
    requires |s| > 0
    ensures m in s
    ensures forall i :: 0 <= i < |s| ==> s[i] <= m
    decreases |s|
  {
    if |s| == 1 then s[0]
    else
      var rest := MaxOf(s[1..]);
      assert forall i :: 1 <= i < |s| ==> s[i] == s[1..][i - 1];
      if s[0] >= rest then s[0] else rest
  }
}

=== FILE: farmers.dfy ===
/** The `Farmer` record, the PM-Kisan identifier rule and farmer
    registration (field validation, then creation of a login user and a
    farmer that is marked as PM-Kisan verified). */
module Farmers {
  import opened Common
  import opened Text

  const NameMaxLength: nat := 100
  const PmKisanIdMaxLength: nat := 20
  const VillageMaxLength: nat := 100
  const PhoneMaxLength: nat := 15
  const PasswordMinLength: nat := 6
  const PmKisanPrefix: string := "PMK"
  const PmKisanMinLength: nat := 10

  datatype Farmer = Farmer(
    id: nat,
    user: nat,
    name: string,
    pmKisanId: string,
    village: string,
    crops: string,           // comma-separated list of crops
    isPmKisanVerified: bool,
    phoneNumber: string,
    totalPoints: int)

  datatype User = User(id: nat, username: string, password: string, email: string, firstName: string)

  /** The identifier check shared by registration: prefix "PMK"
      (case-sensitive) and at least ten characters. */
  predicate VerifyPmKisanId(pmKisanId: string) {
    StartsWith(pmKisanId, PmKisanPrefix) && |pmKisanId| >= PmKisanMinLength
  }

  /** Character-level reading of the identifier rule. */
  lemma VerifyPmKisanIdChars(s: string)
    ensures VerifyPmKisanId(s) <==> |s| >= 10 && s[0] == 'P' && s[1] == 'M' && s[2] == 'K'
  {
    if |s| >= 10 && s[0] == 'P' && s[1] == 'M' && s[2] == 'K' {
      assert s[..3] == "PMK";
    }
  }

  /** Every string shorter than ten characters is rejected, "PMK" included,
      and so is every string not starting with upper-case "PMK". */
  lemma PmKisanRejections(s: string)
    ensures |s| < 10 ==> !VerifyPmKisanId(s)
    ensures !VerifyPmKisanId("PMK")
    ensures |s| >= 3 && s[..3] != "PMK" ==> !VerifyPmKisanId(s)
  {
  }

  /** Appending characters to an accepted identifier keeps it accepted. */
  lemma PmKisanExtension(s: string, suffix: string)
    requires VerifyPmKisanId(s)
    ensures VerifyPmKisanId(s + suffix)
  {
    assert (s + suffix)[..3] == s[..3];
  }

  /** `Farmer.objects.create(...)` with the column defaults: not verified and
      zero points unless given. */
  function NewFarmer(id: nat, user: nat, name: string, pmKisanId: string, village: string,
                     crops: string, verified: Option<bool>, phoneNumber: Option<string>,
                     totalPoints: Option<int>): (f: Farmer)
    ensures verified.None? ==> !f.isPmKisanVerified
    ensures totalPoints.None? ==> f.totalPoints == 0
    ensures phoneNumber.None? ==> f.phoneNumber == ""
    ensures f.id == id && f.user == user && f.pmKisanId == pmKisanId
  {
    Farmer(id, user, name, pmKisanId, village, crops, verified.GetOr(false),
           phoneNumber.GetOr(""), totalPoints.GetOr(0))
  }

  /** The table constraints: primary key, one farmer per user, PM-Kisan
      identifier unique and at most twenty characters. */
  predicate FarmerTableOk(fs: seq<Farmer>) {
    && (forall i, j :: 0 <= i < j < |fs| ==> fs[i].id != fs[j].id)
    && (forall i, j :: 0 <= i < j < |fs| ==> fs[i].user != fs[j].user)
    && (forall i, j :: 0 <= i < j < |fs| ==> fs[i].pmKisanId != fs[j].pmKisanId)
    && (forall i :: 0 <= i < |fs| ==> |fs[i].pmKisanId| <= PmKisanIdMaxLength)
  }

  predicate PmKisanTaken(fs: seq<Farmer>, pmKisanId: string) {
    exists i :: 0 <= i < |fs| && fs[i].pmKisanId == pmKisanId
  }

  // ---------------------------------------------------------------------
  // Registration

  datatype Field = Name | PmKisanId | Village | Crops | PhoneNumber | Username | Password | Email

  datatype FieldError =
    | Required          // "This field is required."
    | Blank             // "This field may not be blank."
    | TooLong(max: nat)
    | TooShort(min: nat)
    | NotAnEmail
    | NullCharacter     // every text field refuses U+0000
    | AlreadyExists     // the unique validator of `pm_kisan_id`
    | InvalidPmKisanFormat

  /** The character every text field of the serializer refuses. */
  const NullChar: char := '\0'

  predicate NullFree(t: string) {
    NullChar !in t
  }

  /** The text the server sends for each error. */
  function ErrorMessage(e: FieldError): (m: string)
    ensures e.TooLong? ==> m == "Ensure this field has no more than " + IntText(e.max) + " characters."
    ensures e.TooShort? ==> m == "Ensure this field has at least " + IntText(e.min) + " characters."
    ensures m != ""
  {
    match e
    case Required => "This field is required."
    case Blank => "This field may not be blank."
    case TooLong(max) => "Ensure this field has no more than " + IntText(max) + " characters."
    case TooShort(min) => "Ensure this field has at least " + IntText(min) + " characters."
    case NullCharacter => "Null characters are not allowed."
    case NotAnEmail => "Enter a valid email address."
    case AlreadyExists => "farmer with this pm kisan id already exists."
    case InvalidPmKisanFormat => "Invalid PM-Kisan ID format"
  }

  /** The length messages name their limit: the number between the fixed
      words reads back as the limit. */
  lemma LengthMessagesNameLimit(n: nat)
    ensures var m := ErrorMessage(TooLong(n)); var p := |"Ensure this field has no more than "|;
      |m| > p + |" characters."| && DigitsValue(m[p..|m| - |" characters."|]) as int == n
    ensures var m := ErrorMessage(TooShort(n)); var p := |"Ensure this field has at least "|;
      |m| > p + |" characters."| && DigitsValue(m[p..|m| - |" characters."|]) as int == n
  {
    IntTextRoundTrip(n);
    var long := ErrorMessage(TooLong(n));
    assert long[35..|long| - 12] == IntText(n);
    var short := ErrorMessage(TooShort(n));
    assert short[31..|short| - 12] == IntText(n);
  }

  /** The name field's limit, as the server words it. */
  lemma NameLimitMessage()
    ensures ErrorMessage(TooLong(NameMaxLength)) == "Ensure this field has no more than 100 characters."
  {
    assert IntText(100) == "100";
  }

  /** The password field's limit, as the server words it. */
  lemma PasswordLimitMessage()
    ensures ErrorMessage(TooShort(PasswordMinLength)) == "Ensure this field has at least 6 characters."
  {
    assert IntText(6) == "6";
  }

  /** The request body; a missing key is `None`. */
  datatype RegistrationRequest = RegistrationRequest(
    name: Option<string>, pmKisanId: Option<string>, village: Option<string>,
    crops: Option<string>, phoneNumber: Option<string>, username: Option<string>,
    password: Option<string>, email: Option<string>)

  datatype Validated = Validated(
    name: string, pmKisanId: string, village: string, crops: string,
    phoneNumber: Option<string>, username: string, password: string, email: string)

  datatype FieldCheck = Ok(value: string) | Skip | Errors(errs: seq<FieldError>)

  /** The rule a present text field must meet once trimmed. */
  predicate CharFieldAccepts(t: string, allowBlank: bool, maxLength: Option<nat>, minLength: Option<nat>) {
    && (t != "" || allowBlank)
    && (maxLength.Some? ==> |t| <= maxLength.value)
    && (minLength.Some? ==> |t| >= minLength.value)
    && NullFree(t)
  }

  /** One character field of the serializer: values are trimmed, blank is
      refused unless allowed, then the length checks and the null-character
      check are run and all their failures are reported together. */
  function CheckCharField(raw: Option<string>, required: bool, allowBlank: bool,
                          maxLength: Option<nat>, minLength: Option<nat>): (c: FieldCheck)
    ensures raw.Some? ==> (c.Ok? <==> CharFieldAccepts(Trim(raw.value), allowBlank, maxLength, minLength))
    ensures c.Ok? ==> raw.Some? && c.value == Trim(raw.value)
    ensures raw.None? && required ==> c == Errors([Required])
    ensures c.Skip? <==> raw.None? && !required
    ensures raw.Some? && Trim(raw.value) != "" && !NullFree(Trim(raw.value)) ==> c.Errors? && NullCharacter in c.errs
    ensures WellFormedCheck(c)
  {
    match raw
    case None => if required then Errors([Required]) else Skip
    case Some(v) =>
      var t := Trim(v);
      if t == "" && !allowBlank then Errors([Blank])
      else
        var errs := (if maxLength.Some? && |t| > maxLength.value then [TooLong(maxLength.value)] else [])
                  + (if minLength.Some? && |t| < minLength.value then [TooShort(minLength.value)] else [])
                  + (if NullChar in t then [NullCharacter] else []);
        if errs == [] then Ok(t) else Errors(errs)
  }

  /** A name holding U+0000 is refused with the null-character error alone,
      and a request carrying one is rejected whatever its other fields. */
  lemma NullNameRefused(req: RegistrationRequest, users: seq<User>, fs: seq<Farmer>,
                        isEmail: string -> bool, u: nat, f: nat)
    requires req.name == Some("Ram\0")
    ensures CheckCharField(req.name, true, false, Some(NameMaxLength), None) == Errors([NullCharacter])
    ensures Register(req, users, fs, isEmail, u, f).Rejected?
  {
    assert Stripped("Ram\0");
    assert !NullFree("Ram\0") by { assert "Ram\0"[3] == NullChar; }
  }

  /** A trimmed identifier the serializer accepts: not blank, at most twenty
      characters, free of U+0000, not registered yet and of the PM-Kisan
      format. */
  predicate PmKisanIdAcceptable(t: string, fs: seq<Farmer>) {
    t != "" && |t| <= PmKisanIdMaxLength && NullFree(t) && !PmKisanTaken(fs, t) && VerifyPmKisanId(t)
  }

  /** The `pm_kisan_id` field: character checks, the unique validator, then
      the identifier rule, which runs only when the field checks passed. */
  function CheckPmKisanId(raw: Option<string>, fs: seq<Farmer>): (c: FieldCheck)
    ensures c.Ok? <==> raw.Some? && PmKisanIdAcceptable(Trim(raw.value), fs)
    ensures c.Ok? ==> raw.Some? && c.value == Trim(raw.value)
    ensures raw.Some? && PmKisanTaken(fs, Trim(raw.value)) ==> c.Errors?
    ensures raw.Some? && |Trim(raw.value)| <= PmKisanIdMaxLength && Trim(raw.value) != "" && NullFree(Trim(raw.value))
            && !PmKisanTaken(fs, Trim(raw.value)) && !VerifyPmKisanId(Trim(raw.value))
            ==> c == Errors([InvalidPmKisanFormat])
    ensures !c.Skip?
    ensures WellFormedCheck(c)
  {
    match CheckCharField(raw, true, false, Some(PmKisanIdMaxLength), None)
    case Errors(e) => Errors(e)
    case Skip => Skip
    case Ok(t) =>
      var unique := if PmKisanTaken(fs, t) then [AlreadyExists] else [];
      if unique != [] then Errors(unique)
      else if !VerifyPmKisanId(t) then Errors([InvalidPmKisanFormat])
      else Ok(t)
  }

  /** A failed check always carries at least one error. */
  predicate WellFormedCheck(c: FieldCheck) {
    c.Errors? ==> c.errs != []
  }

  function ErrorsOf(f: Field, c: FieldCheck): (es: seq<(Field, FieldError)>)
    ensures |es| == (if c.Errors? then |c.errs| else 0)
    ensures c.Errors? ==> forall e :: e in c.errs ==> (f, e) in es
  {
    if c.Errors? then
      var es := seq(|c.errs|, i requires 0 <= i < |c.errs| => (f, c.errs[i]));
      assert forall i :: 0 <= i < |c.errs| ==> es[i] == (f, c.errs[i]);
      es
    else []
  }

  function OptValue(c: FieldCheck): Option<string> {
    if c.Ok? then Some(c.value) else None
  }

  /** The outcome of every field check of the registration serializer. */
  datatype Checks = Checks(
    name: FieldCheck, pm: FieldCheck, village: FieldCheck, crops: FieldCheck,
    phone: FieldCheck, username: FieldCheck, password: FieldCheck, email: FieldCheck)

  /** The trimmed text of a field, `""` when it is missing. */
  function TrimmedOf(raw: Option<string>): string {
    if raw.Some? then Trim(raw.value) else ""
  }

  /** The registration rules, field by field, on the trimmed request: name
      and village not blank and within their maximum lengths, an acceptable
      PM-Kisan identifier, crops and username not blank, a phone number (when
      given) within its maximum length, a password of at least six characters
      and a valid e-mail address; and no field holds U+0000. */
  predicate Acceptable(req: RegistrationRequest, fs: seq<Farmer>, isEmail: string -> bool) {
    && req.name.Some? && TrimmedOf(req.name) != "" && |TrimmedOf(req.name)| <= NameMaxLength
    && req.pmKisanId.Some? && PmKisanIdAcceptable(TrimmedOf(req.pmKisanId), fs)
    && req.village.Some? && TrimmedOf(req.village) != "" && |TrimmedOf(req.village)| <= VillageMaxLength
    && req.crops.Some? && TrimmedOf(req.crops) != ""
    && |TrimmedOf(req.phoneNumber)| <= PhoneMaxLength
    && req.username.Some? && TrimmedOf(req.username) != ""
    && req.password.Some? && |TrimmedOf(req.password)| >= PasswordMinLength
    && req.email.Some? && TrimmedOf(req.email) != "" && isEmail(TrimmedOf(req.email))
    && NullFree(TrimmedOf(req.name)) && NullFree(TrimmedOf(req.village)) && NullFree(TrimmedOf(req.crops))
    && NullFree(TrimmedOf(req.phoneNumber)) && NullFree(TrimmedOf(req.username))
    && NullFree(TrimmedOf(req.password)) && NullFree(TrimmedOf(req.email))
  }

  /** The fields of a request as the serializer hands them on: trimmed, and
      the phone number only when it was sent. */
  function TrimmedData(req: RegistrationRequest): Validated {
    Validated(TrimmedOf(req.name), TrimmedOf(req.pmKisanId), TrimmedOf(req.village), TrimmedOf(req.crops),
              if req.phoneNumber.Some? then Some(TrimmedOf(req.phoneNumber)) else None,
              TrimmedOf(req.username), TrimmedOf(req.password), TrimmedOf(req.email))
  }

  /** The e-mail field: a required, non-blank text field whose trimmed text
      must also pass the e-mail validator, which runs after the
      null-character check and adds its error to that check's. */
  function CheckEmail(raw: Option<string>, isEmail: string -> bool): (c: FieldCheck)
    ensures c.Ok? <==> raw.Some? && TrimmedOf(raw) != "" && NullFree(TrimmedOf(raw)) && isEmail(TrimmedOf(raw))
    ensures c.Ok? ==> c.value == TrimmedOf(raw)
    ensures raw.Some? && TrimmedOf(raw) != "" && !isEmail(TrimmedOf(raw)) ==> c.Errors? && NotAnEmail in c.errs
    ensures !c.Skip? && WellFormedCheck(c)
  {
    var c := CheckCharField(raw, true, false, None, None);
    if raw.Some? && TrimmedOf(raw) != "" && !isEmail(TrimmedOf(raw)) then
      Errors((if c.Errors? then c.errs else []) + [NotAnEmail])
    else c
  }

  function RunChecks(req: RegistrationRequest, fs: seq<Farmer>, isEmail: string -> bool): (c: Checks)
    ensures c.name.Ok? <==> req.name.Some? && TrimmedOf(req.name) != "" && |TrimmedOf(req.name)| <= NameMaxLength
                            && NullFree(TrimmedOf(req.name))
    ensures c.pm.Ok? <==> req.pmKisanId.Some? && PmKisanIdAcceptable(TrimmedOf(req.pmKisanId), fs)
    ensures c.village.Ok? <==> req.village.Some? && TrimmedOf(req.village) != ""
                               && |TrimmedOf(req.village)| <= VillageMaxLength && NullFree(TrimmedOf(req.village))
    ensures c.crops.Ok? <==> req.crops.Some? && TrimmedOf(req.crops) != "" && NullFree(TrimmedOf(req.crops))
    ensures c.phone.Errors? <==> |TrimmedOf(req.phoneNumber)| > PhoneMaxLength || !NullFree(TrimmedOf(req.phoneNumber))
    ensures c.phone.Skip? <==> req.phoneNumber.None?
    ensures c.username.Ok? <==> req.username.Some? && TrimmedOf(req.username) != ""
                                && NullFree(TrimmedOf(req.username))
    ensures c.password.Ok? <==> req.password.Some? && |TrimmedOf(req.password)| >= PasswordMinLength
                                && NullFree(TrimmedOf(req.password))
    ensures c.email.Ok? <==> req.email.Some? && TrimmedOf(req.email) != "" && isEmail(TrimmedOf(req.email))
                             && NullFree(TrimmedOf(req.email))
    ensures c.name.Ok? ==> c.name.value == TrimmedOf(req.name)
    ensures c.pm.Ok? ==> c.pm.value == TrimmedOf(req.pmKisanId)
    ensures c.village.Ok? ==> c.village.value == TrimmedOf(req.village)
    ensures c.crops.Ok? ==> c.crops.value == TrimmedOf(req.crops)
    ensures c.phone.Ok? ==> c.phone.value == TrimmedOf(req.phoneNumber)
    ensures c.username.Ok? ==> c.username.value == TrimmedOf(req.username)
    ensures c.password.Ok? ==> c.password.value == TrimmedOf(req.password)
    ensures c.email.Ok? ==> c.email.value == TrimmedOf(req.email)
    ensures req.pmKisanId.Some? && !VerifyPmKisanId(TrimmedOf(req.pmKisanId)) ==> !c.pm.Ok?
    ensures WellFormedCheck(c.name) && WellFormedCheck(c.pm) && WellFormedCheck(c.village)
    ensures WellFormedCheck(c.crops) && WellFormedCheck(c.phone) && WellFormedCheck(c.username)
    ensures WellFormedCheck(c.password) && WellFormedCheck(c.email)
    ensures !c.name.Skip? && !c.pm.Skip? && !c.village.Skip? && !c.crops.Skip?
    ensures !c.username.Skip? && !c.password.Skip? && !c.email.Skip?
  {
    Checks(
      CheckCharField(req.name, true, false, Some(NameMaxLength), None),
      CheckPmKisanId(req.pmKisanId, fs),
      CheckCharField(req.village, true, false, Some(VillageMaxLength), None),
      CheckCharField(req.crops, true, false, None, None),
      CheckCharField(req.phoneNumber, false, true, Some(PhoneMaxLength), None),
      CheckCharField(req.username, true, false, None, None),
      CheckCharField(req.password, true, false, None, Some(PasswordMinLength)),
      CheckEmail(req.email, isEmail))
  }

  predicate AllPassed(c: Checks) {
    c.name.Ok? && c.pm.Ok? && c.village.Ok? && c.crops.Ok? && !c.phone.Errors?
    && c.username.Ok? && c.password.Ok? && c.email.Ok?
  }

  /** Every field's errors, in field order. */
  function CollectErrors(c: Checks): (es: seq<(Field, FieldError)>)
    requires WellFormedCheck(c.name) && WellFormedCheck(c.pm) && WellFormedCheck(c.village)
    requires WellFormedCheck(c.crops) && WellFormedCheck(c.phone) && WellFormedCheck(c.username)
    requires WellFormedCheck(c.password) && WellFormedCheck(c.email)
    ensures es == [] <==> !(c.name.Errors? || c.pm.Errors? || c.village.Errors? || c.crops.Errors?
                            || c.phone.Errors? || c.username.Errors? || c.password.Errors? || c.email.Errors?)
    ensures c.pm.Errors? ==> forall e :: e in c.pm.errs ==> (PmKisanId, e) in es
  {
    var head := ErrorsOf(Name, c.name);
    var pm := ErrorsOf(PmKisanId, c.pm);
    var rest := ErrorsOf(Village, c.village) + ErrorsOf(Crops, c.crops) + ErrorsOf(PhoneNumber, c.phone)
              + ErrorsOf(Username, c.username) + ErrorsOf(Password, c.password) + ErrorsOf(Email, c.email);
    assert forall x :: x in pm ==> x in head + pm + rest;
    head + pm + rest
  }

  /** `FarmerRegistrationSerializer.is_valid()`: the validated data, or every
      field's errors. */
  function ValidateRegistration(req: RegistrationRequest, fs: seq<Farmer>,
                                isEmail: string -> bool): (r: Result)
    ensures r.Valid? <==> Acceptable(req, fs, isEmail)
    ensures r.Valid? ==> r.data == TrimmedData(req)
    ensures r.Valid? ==> VerifyPmKisanId(r.data.pmKisanId) && |r.data.pmKisanId| <= PmKisanIdMaxLength
    ensures r.Valid? ==> !PmKisanTaken(fs, r.data.pmKisanId)
    ensures r.Valid? ==> |r.data.password| >= PasswordMinLength
    ensures r.Valid? ==> isEmail(r.data.email)
    ensures r.Valid? ==> |r.data.name| <= NameMaxLength && |r.data.village| <= VillageMaxLength
    ensures r.Valid? && r.data.phoneNumber.Some? ==> |r.data.phoneNumber.value| <= PhoneMaxLength
    ensures r.Valid? ==> req.password.Some? && r.data.password == Trim(req.password.value)
    ensures r.Valid? ==> req.username.Some? && r.data.username == Trim(req.username.value)
    ensures r.Valid? ==> req.email.Some? && r.data.email == Trim(req.email.value)
    ensures req.pmKisanId.Some? && !VerifyPmKisanId(Trim(req.pmKisanId.value)) ==> r.Invalid?
    ensures req.password.Some? && |Trim(req.password.value)| < PasswordMinLength ==> r.Invalid?
    ensures r.Invalid? ==> r.errors != []
  {
    var c := RunChecks(req, fs, isEmail);
    ChecksPassed(req, fs, isEmail);
    if !AllPassed(c) then Invalid(CollectErrors(c))
    else
      AcceptedData(req, fs, isEmail);
      Valid(Validated(c.name.value, c.pm.value, c.village.value, c.crops.value, OptValue(c.phone),
                      c.username.value, c.password.value, c.email.value))
  }

  /** Every check passes exactly when the request meets the field rules, and
      then the checked values are the trimmed fields. */
  lemma ChecksPassed(req: RegistrationRequest, fs: seq<Farmer>, isEmail: string -> bool)
    ensures var c := RunChecks(req, fs, isEmail);
      (AllPassed(c) <==> Acceptable(req, fs, isEmail)) &&
      (AllPassed(c) ==>
        Validated(c.name.value, c.pm.value, c.village.value, c.crops.value, OptValue(c.phone),
                  c.username.value, c.password.value, c.email.value) == TrimmedData(req))
  {
    var c := RunChecks(req, fs, isEmail);
    if AllPassed(c) {
      assert Acceptable(req, fs, isEmail);
      assert OptValue(c.phone) == (if req.phoneNumber.Some? then Some(TrimmedOf(req.phoneNumber)) else None);
    } else {
      assert !Acceptable(req, fs, isEmail);
    }
  }

  /** The trimmed fields of an acceptable request keep the field rules. */
  lemma AcceptedData(req: RegistrationRequest, fs: seq<Farmer>, isEmail: string -> bool)
    requires Acceptable(req, fs, isEmail)
    ensures var d := TrimmedData(req);
      && VerifyPmKisanId(d.pmKisanId) && |d.pmKisanId| <= PmKisanIdMaxLength && !PmKisanTaken(fs, d.pmKisanId)
      && |d.password| >= PasswordMinLength && isEmail(d.email)
      && |d.name| <= NameMaxLength && |d.village| <= VillageMaxLength
      && (d.phoneNumber.Some? ==> |d.phoneNumber.value| <= PhoneMaxLength)
  {
  }

  datatype Result = Valid(data: Validated) | Invalid(errors: seq<(Field, FieldError)>)

  predicate UsernameInUse(users: seq<User>, username: string) {
    exists i :: 0 <= i < |users| && users[i].username == username
  }

  datatype Registration =
    | Registered(user: User, farmer: Farmer, users: seq<User>, farmers: seq<Farmer>)
    | Rejected(errors: seq<(Field, FieldError)>)
    | UsernameTaken      // the serializer does not check the username; the user table's unique
                         // constraint refuses it in `create_user`, which the view does not catch,
                         // so the answer is a server error, not a list of field errors

  /** `is_valid()` then `create()`: username, password and email go to the new
      login user only (whose first name is the farmer's name); the remaining
      fields go to the farmer, which is marked PM-Kisan verified. */
  function Register(req: RegistrationRequest, users: seq<User>, fs: seq<Farmer>,
                    isEmail: string -> bool, newUserId: nat, newFarmerId: nat): (r: Registration)
    ensures r.Registered? ==> r.farmer.isPmKisanVerified && VerifyPmKisanId(r.farmer.pmKisanId)
    ensures r.Registered? ==> r.farmer.totalPoints == 0 && r.farmer.user == r.user.id
    ensures r.Registered? ==> r.user.firstName == r.farmer.name
    ensures r.Registered? ==> r.users == users + [r.user] && r.farmers == fs + [r.farmer]
    ensures r.Registered? ==> req.username.Some? && r.user.username == Trim(req.username.value)
    ensures r.Registered? ==> req.password.Some? && r.user.password == Trim(req.password.value)
    ensures r.Registered? ==> req.email.Some? && r.user.email == Trim(req.email.value)
    ensures req.pmKisanId.Some? && !VerifyPmKisanId(Trim(req.pmKisanId.value)) ==> r.Rejected?
    ensures r.Rejected? <==> !Acceptable(req, fs, isEmail)
    ensures r.UsernameTaken? <==> Acceptable(req, fs, isEmail) && UsernameInUse(users, TrimmedOf(req.username))
    ensures r.Registered? <==> Acceptable(req, fs, isEmail) && !UsernameInUse(users, TrimmedOf(req.username))
    ensures r.Registered? ==>
      r.user == User(newUserId, TrimmedOf(req.username), TrimmedOf(req.password), TrimmedOf(req.email),
                     TrimmedOf(req.name))
    ensures r.Registered? ==>
      r.farmer == Farmer(newFarmerId, newUserId, TrimmedOf(req.name), TrimmedOf(req.pmKisanId),
                         TrimmedOf(req.village), TrimmedOf(req.crops), true, TrimmedOf(req.phoneNumber), 0)
  {
    match ValidateRegistration(req, fs, isEmail)
    case Invalid(errs) => Rejected(errs)
    case Valid(d) =>
      if UsernameInUse(users, d.username) then UsernameTaken
      else
        var user := User(newUserId, d.username, d.password, d.email, d.name);
        var farmer := NewFarmer(newFarmerId, newUserId, d.name, d.pmKisanId, d.village, d.crops,
                                Some(true), d.phoneNumber, None);
        Registered(user, farmer, users + [user], fs + [farmer])
  }

  lemma PmKisanFormatCheck(req: RegistrationRequest, fs: seq<Farmer>, isEmail: string -> bool)
    requires req.pmKisanId.Some?
    requires var t := Trim(req.pmKisanId.value);
      t != "" && |t| <= PmKisanIdMaxLength && NullFree(t) && !PmKisanTaken(fs, t) && !VerifyPmKisanId(t)
    ensures RunChecks(req, fs, isEmail).pm == Errors([InvalidPmKisanFormat])
  {
  }

  lemma CollectPmKisanFormat(c: Checks)
    requires c.pm == Errors([InvalidPmKisanFormat])
    requires WellFormedCheck(c.name) && WellFormedCheck(c.pm) && WellFormedCheck(c.village)
    requires WellFormedCheck(c.crops) && WellFormedCheck(c.phone) && WellFormedCheck(c.username)
    requires WellFormedCheck(c.password) && WellFormedCheck(c.email)
    ensures (PmKisanId, InvalidPmKisanFormat) in CollectErrors(c)
  {
  }

  /** A rejected identifier is reported on its own field as
      `InvalidPmKisanFormat` (see `ErrorMessage`) when its other checks pass. */
  lemma RegisterReportsPmKisanFormat(req: RegistrationRequest, users: seq<User>, fs: seq<Farmer>,
                                     isEmail: string -> bool, u: nat, f: nat)
    requires req.pmKisanId.Some?
    requires var t := Trim(req.pmKisanId.value);
      t != "" && |t| <= PmKisanIdMaxLength && NullFree(t) && !PmKisanTaken(fs, t) && !VerifyPmKisanId(t)
    ensures Register(req, users, fs, isEmail, u, f).Rejected?
    ensures (PmKisanId, InvalidPmKisanFormat) in Register(req, users, fs, isEmail, u, f).errors
  {
    ValidateReportsPmKisanFormat(req, fs, isEmail);
    RegisterPassesRejection(req, users, fs, isEmail, u, f);
  }

  lemma ValidateReportsPmKisanFormat(req: RegistrationRequest, fs: seq<Farmer>, isEmail: string -> bool)
    requires req.pmKisanId.Some?
    requires var t := Trim(req.pmKisanId.value);
      t != "" && |t| <= PmKisanIdMaxLength && NullFree(t) && !PmKisanTaken(fs, t) && !VerifyPmKisanId(t)
    ensures ValidateRegistration(req, fs, isEmail).Invalid?
    ensures (PmKisanId, InvalidPmKisanFormat) in ValidateRegistration(req, fs, isEmail).errors
  {
    var c := RunChecks(req, fs, isEmail);
    PmKisanFormatCheck(req, fs, isEmail);
    CollectPmKisanFormat(c);
  }

  lemma RegisterPassesRejection(req: RegistrationRequest, users: seq<User>, fs: seq<Farmer>,
                                isEmail: string -> bool, u: nat, f: nat)
    requires ValidateRegistration(req, fs, isEmail).Invalid?
    ensures Register(req, users, fs, isEmail, u, f) == Rejected(ValidateRegistration(req, fs, isEmail).errors)
  {
  }

  /** Registration keeps the farmer table constraints. */
  lemma RegisterKeepsTable(req: RegistrationRequest, users: seq<User>, fs: seq<Farmer>,
                           isEmail: string -> bool, u: nat, f: nat)
    requires FarmerTableOk(fs)
    requires forall i :: 0 <= i < |fs| ==> fs[i].id != f && fs[i].user != u
    ensures var r := Register(req, users, fs, isEmail, u, f);
      r.Registered? ==> FarmerTableOk(r.farmers)
  {
    var r := Register(req, users, fs, isEmail, u, f);
    if r.Registered? {
      var v := ValidateRegistration(req, fs, isEmail);
      assert v.Valid?;
      var nf := r.farmer;
      assert nf.pmKisanId == v.data.pmKisanId && nf.id == f && nf.user == u;
      assert r.farmers == fs + [nf];
      AppendKeepsTable(fs, nf);
    }
  }

  /** Sending the same registration again, once it succeeded, is refused:
      its PM-Kisan identifier is now taken. */
  lemma RegisterTwiceRejected(req: RegistrationRequest, users: seq<User>, fs: seq<Farmer>,
                              isEmail: string -> bool, u: nat, f: nat, u2: nat, f2: nat)
    requires Register(req, users, fs, isEmail, u, f).Registered?
    ensures var r := Register(req, users, fs, isEmail, u, f);
      Register(req, r.users, r.farmers, isEmail, u2, f2).Rejected?
  {
    var r := Register(req, users, fs, isEmail, u, f);
    assert r.farmers[|fs|].pmKisanId == TrimmedOf(req.pmKisanId);
    assert PmKisanTaken(r.farmers, TrimmedOf(req.pmKisanId));
  }

  lemma AppendKeepsTable(fs: seq<Farmer>, nf: Farmer)
    requires FarmerTableOk(fs)
    requires forall i :: 0 <= i < |fs| ==> fs[i].id != nf.id && fs[i].user != nf.user
    requires !PmKisanTaken(fs, nf.pmKisanId) && |nf.pmKisanId| <= PmKisanIdMaxLength
    ensures FarmerTableOk(fs + [nf])
  {
    var t := fs + [nf];
    forall i, j | 0 <= i < j < |t|
      ensures t[i].id != t[j].id && t[i].user != t[j].user && t[i].pmKisanId != t[j].pmKisanId
    {
      assert t[i] == fs[i];
      if j == |fs| {
        assert t[j] == nf;
      } else {
        assert t[j] == fs[j];
      }
    }
  }

  // ---------------------------------------------------------------------
  // Points ledger: the farmers' point balances

  function SumPoints(fs: seq<Farmer>): int
    decreases |fs|
  {
    if |fs| == 0 then 0 else fs[0].totalPoints + SumPoints(fs[1..])
  }

  /** Number of farmers carrying the id. */
  function Holders(fs: seq<Farmer>, id: nat): (n: nat)
    ensures n <= |fs|
    ensures n == 0 <==> forall i :: 0 <= i < |fs| ==> fs[i].id != id
    decreases |fs|
  {
    if |fs| == 0 then 0
    else
      assert forall i :: 1 <= i < |fs| ==> fs[i] == fs[1..][i - 1];
      (if fs[0].id == id then 1 else 0) + Holders(fs[1..], id)
  }

  /** Adding to one farmer's points raises the sum over all farmers by the
      amount times the number of farmers carrying that id. */
  lemma {:induction false} AddPointsSum(fs: seq<Farmer>, id: nat, amount: int)
    ensures SumPoints(AddPoints(fs, id, amount)) == SumPoints(fs) + amount * Holders(fs, id)
    decreases |fs|
  {
    if |fs| > 0 {
      var r := AddPoints(fs, id, amount);
      var rest := AddPoints(fs[1..], id, amount);
      AddPointsSum(fs[1..], id, amount);
      AddPointsHead(fs, id, amount);
      var d := if fs[0].id == id then amount else 0;
      assert SumPoints(r) == SumPoints(fs) - fs[0].totalPoints + (fs[0].totalPoints + d) - SumPoints(fs[1..]) + SumPoints(rest);
      HoldersStep(fs, id, amount);
    }
  }

  lemma AddPointsHead(fs: seq<Farmer>, id: nat, amount: int)
    requires |fs| > 0
    ensures SumPoints(AddPoints(fs, id, amount)) ==
      fs[0].totalPoints + (if fs[0].id == id then amount else 0) + SumPoints(AddPoints(fs[1..], id, amount))
  {
  }

  lemma HoldersStep(fs: seq<Farmer>, id: nat, amount: int)
    requires |fs| > 0
    ensures amount * Holders(fs, id) == (if fs[0].id == id then amount else 0) + amount * Holders(fs[1..], id)
  {
  }

  /** With distinct farmer ids, an id held at all is held exactly once. */
  lemma {:induction false} UniqueHolder(fs: seq<Farmer>, id: nat)
    requires forall i, j :: 0 <= i < j < |fs| ==> fs[i].id != fs[j].id
    requires exists i :: 0 <= i < |fs| && fs[i].id == id
    ensures Holders(fs, id) == 1
    decreases |fs|
  {
    if fs[0].id == id {
      assert forall i :: 0 <= i < |fs[1..]| ==> fs[1..][i].id != id by {
        forall i | 0 <= i < |fs[1..]| ensures fs[1..][i].id != id {
          assert fs[1..][i] == fs[i + 1];
        }
      }
    } else {
      var k :| 0 <= k < |fs| && fs[k].id == id;
      assert fs[1..][k - 1].id == id;
      UniqueHolder(fs[1..], id);
    }
  }

  /** `amount` added to the points of the farmer with the given id. */
  function AddPoints(fs: seq<Farmer>, id: nat, amount: int): (r: seq<Farmer>)
    ensures |r| == |fs|
    ensures forall i :: 0 <= i < |fs| && fs[i].id != id ==> r[i] == fs[i]
    ensures forall i :: 0 <= i < |fs| && fs[i].id == id ==>
      r[i] == fs[i].(totalPoints := fs[i].totalPoints + amount)
    decreases |fs|
  {
    if |fs| == 0 then []
    else
      var f := fs[0];
      var rest := AddPoints(fs[1..], id, amount);
      assert forall i :: 1 <= i < |fs| ==> fs[i] == fs[1..][i - 1];
      [if f.id == id then f.(totalPoints := f.totalPoints + amount) else f] + rest
  }

  /** In a well-formed farmer table, adding to a registered farmer's points
      raises the sum over all farmers by exactly the amount. */
  lemma AddPointsToOne(fs: seq<Farmer>, id: nat, amount: int)
    requires FarmerTableOk(fs)
    requires exists i :: 0 <= i < |fs| && fs[i].id == id
    ensures SumPoints(AddPoints(fs, id, amount)) == SumPoints(fs) + amount
  {
    assert forall i, j :: 0 <= i < j < |fs| ==> fs[i].id != fs[j].id;
    UniqueHolder(fs, id);
    AddPointsSum(fs, id, amount);
    assert amount * Holders(fs, id) == amount;
  }

  /** Replacing one farmer's row changes the sum by the change in that
      farmer's points. */
  lemma {:induction false} SumPointsUpdate(fs: seq<Farmer>, i: nat, f: Farmer)
    requires i < |fs|
    ensures SumPoints(fs[i := f]) == SumPoints(fs) - fs[i].totalPoints + f.totalPoints
    decreases |fs|
  {
    if i > 0 {
      SumPointsUpdate(fs[1..], i - 1, f);
      assert fs[i := f][1..] == fs[1..][i - 1 := f];
    }
  }
}

=== FILE: gamification.dfy ===
/** Badges, leaderboards and rewards: the kind enums and column defaults of
    the five gamification tables, the seeding and awarding of the initial
    badges, leaderboard generation and listing, reward redemption, and the
    per-farmer statistics (rank lookup and activity level). */
module Gamification {
  import opened Common
  import opened Sorting
  import Farmers
  import Quests

  // ---------------------------------------------------------------------
  // Kind enums and their stored codes

  datatype BadgeType = Achiever | Expert | Pioneer | Helper | Learner

  function BadgeTypeCode(t: BadgeType): string {
    match t
    case Achiever => "achiever"
    case Expert => "expert"
    case Pioneer => "pioneer"
    case Helper => "helper"
    case Learner => "learner"
  }

  /** Reading a stored code back; any other string is not a badge kind. */
  function ParseBadgeType(code: string): (r: Option<BadgeType>)
    ensures r.Some? ==> BadgeTypeCode(r.value) == code
  {
    if code == "achiever" then Some(Achiever)
    else if code == "expert" then Some(Expert)
    else if code == "pioneer" then Some(Pioneer)
    else if code == "helper" then Some(Helper)
    else if code == "learner" then Some(Learner)
    else None
  }

  lemma BadgeTypeCodeRoundTrip(t: BadgeType)
    ensures ParseBadgeType(BadgeTypeCode(t)) == Some(t)
  {
  }

  datatype LeaderboardType = Weekly | Monthly | Seasonal | AllTime

  function LeaderboardTypeCode(t: LeaderboardType): string {
    match t
    case Weekly => "weekly"
    case Monthly => "monthly"
    case Seasonal => "seasonal"
    case AllTime => "all_time"
  }

  function ParseLeaderboardType(code: string): (r: Option<LeaderboardType>)
    ensures r.Some? ==> LeaderboardTypeCode(r.value) == code
  {
    if code == "weekly" then Some(Weekly)
    else if code == "monthly" then Some(Monthly)
    else if code == "seasonal" then Some(Seasonal)
    else if code == "all_time" then Some(AllTime)
    else None
  }

  lemma LeaderboardTypeCodeRoundTrip(t: LeaderboardType)
    ensures ParseLeaderboardType(LeaderboardTypeCode(t)) == Some(t)
  {
  }

  datatype RewardType = PointsReward | BadgeReward | Voucher | Certificate

  function RewardTypeCode(t: RewardType): string {
    match t
    case PointsReward => "points"
    case BadgeReward => "badge"
    case Voucher => "voucher"
    case Certificate => "certificate"
  }

  function ParseRewardType(code: string): (r: Option<RewardType>)
    ensures r.Some? ==> RewardTypeCode(r.value) == code
  {
    if code == "points" then Some(PointsReward)
    else if code == "badge" then Some(BadgeReward)
    else if code == "voucher" then Some(Voucher)
    else if code == "certificate" then Some(Certificate)
    else None
  }

  lemma RewardTypeCodeRoundTrip(t: RewardType)
    ensures ParseRewardType(RewardTypeCode(t)) == Some(t)
  {
  }

  // ---------------------------------------------------------------------
  // Rows of the gamification tables

  /** The trophy emoji, the default badge icon. */
  const DefaultBadgeIcon: string := "\U{1F3C6}"

  datatype Badge = Badge(
    id: nat,
    name: string,
    description: string,
    badgeType: BadgeType,
    icon: string,
    pointsRequired: int,
    isActive: bool)

  /** `Badge.objects.create(...)` with the column defaults: the trophy icon,
      no points required, active. */
  function NewBadge(id: nat, name: string, description: string, badgeType: BadgeType,
                    icon: Option<string>, pointsRequired: Option<int>, isActive: Option<bool>): (b: Badge)
    ensures icon.None? ==> b.icon == DefaultBadgeIcon
    ensures pointsRequired.None? ==> b.pointsRequired == 0
    ensures isActive.None? ==> b.isActive
    ensures b.id == id && b.name == name && b.badgeType == badgeType
  {
    Badge(id, name, description, badgeType, icon.GetOr(DefaultBadgeIcon),
          pointsRequired.GetOr(0), isActive.GetOr(true))
  }

  /** A badge held by a farmer. */
  datatype FarmerBadge = FarmerBadge(farmer: nat, badge: nat, earnedAt: int)

  /** The table constraint: a farmer holds each badge at most once. */
  predicate UniqueFarmerBadges(t: seq<FarmerBadge>) {
    forall i, j :: 0 <= i < j < |t| ==> t[i].farmer != t[j].farmer || t[i].badge != t[j].badge
  }

  predicate HoldsBadge(t: seq<FarmerBadge>, farmer: nat, badge: nat) {
    exists i :: 0 <= i < |t| && t[i].farmer == farmer && t[i].badge == badge
  }

  datatype Reward = Reward(
    id: nat,
    name: string,
    description: string,
    rewardType: RewardType,
    value: string,
    costPoints: int,
    isActive: bool)

  /** `Reward.objects.create(...)` with the column defaults: free and active. */
  function NewReward(id: nat, name: string, description: string, rewardType: RewardType,
                     value: string, costPoints: Option<int>, isActive: Option<bool>): (r: Reward)
    ensures costPoints.None? ==> r.costPoints == 0
    ensures isActive.None? ==> r.isActive
    ensures r.id == id && r.rewardType == rewardType && r.value == value
  {
    Reward(id, name, description, rewardType, value, costPoints.GetOr(0), isActive.GetOr(true))
  }

  /** A redeemed reward. */
  datatype FarmerReward = FarmerReward(farmer: nat, reward: nat, redeemedAt: int, isUsed: bool)

  /** `FarmerReward.objects.create(...)`: a new redemption is unused. */
  function NewFarmerReward(farmer: nat, reward: nat, now: int): (fr: FarmerReward)
    ensures !fr.isUsed
    ensures fr.farmer == farmer && fr.reward == reward && fr.redeemedAt == now
  {
    FarmerReward(farmer, reward, now, false)
  }

  /** A leaderboard row; `kind` is the stored type string, which the view
      takes from the request unchecked. */
  datatype LeaderboardRow = LeaderboardRow(
    farmer: nat,
    kind: string,
    points: int,
    rank: int,
    periodStart: int,
    periodEnd: int)

  /** The table constraint: one row per (farmer, kind, period start). */
  predicate UniqueLeaderboardRows(t: seq<LeaderboardRow>) {
    forall i, j :: 0 <= i < j < |t| ==>
      t[i].farmer != t[j].farmer || t[i].kind != t[j].kind || t[i].periodStart != t[j].periodStart
  }

  // ---------------------------------------------------------------------
  // Initial badges

  /** The values a badge is created with when no badge of its name exists. */
  datatype BadgeSeed = BadgeSeed(name: string, description: string, badgeType: BadgeType,
                                 icon: string, pointsRequired: int)

  /** The three seeded badges. Their icons are the characters the source
      file holds: an emoji's UTF-8 bytes decoded as Windows-1254 text
      (U+011F U+0178 ... in place of the emoji), not the emoji itself. */
  const InitialBadges: seq<BadgeSeed> := [
    BadgeSeed("Welcome Farmer", "Completed registration", Achiever,
              "\U{11F}\U{178}\U{152}\U{B1}", 0),
    BadgeSeed("First Quest", "Completed your first quest", Achiever,
              "\U{11F}\U{178}\U{AF}", 50),
    BadgeSeed("Crop Expert", "Expert in crop management", Expert,
              "\U{11F}\U{178}\U{152}\U{BE}", 200)
  ]

  /** The id the database gives the next badge: one past the largest id. */
  function NextBadgeId(badges: seq<Badge>): (id: nat)
    ensures forall i :: 0 <= i < |badges| ==> badges[i].id < id
    decreases |badges|
  {
    if |badges| == 0 then 1
    else
      var rest := NextBadgeId(badges[1..]);
      assert forall i :: 1 <= i < |badges| ==> badges[i] == badges[1..][i - 1];
      if badges[0].id + 1 > rest then badges[0].id + 1 else rest
  }

  /** The first badge of the given name (`Badge.objects.get(name=...)`). */
  function ResolveBadge(badges: seq<Badge>, name: string): (r: Option<nat>)
    ensures r.Some? ==> r.value < |badges| && badges[r.value].name == name
    ensures r.Some? ==> forall j :: 0 <= j < r.value ==> badges[j].name != name
    ensures r.None? <==> forall j :: 0 <= j < |badges| ==> badges[j].name != name
  {
    FindFirst(badges, (b: Badge) => b.name == name)
  }

  /** A name resolved in a table resolves to the same row once rows are
      appended. */
  lemma ResolveExtends(badges: seq<Badge>, more: seq<Badge>, name: string)
    requires ResolveBadge(badges, name).Some?
    ensures ResolveBadge(badges + more, name) == ResolveBadge(badges, name)
  {
    assert forall j :: 0 <= j < |badges| ==> (badges + more)[j] == badges[j];
  }

  /** `Badge.objects.get_or_create(name=..., defaults=...)`: the first badge
      of that name as stored, or a new badge made from the seed. */
  function GetOrCreateBadge(badges: seq<Badge>, seed: BadgeSeed): (r: (Badge, seq<Badge>))
    ensures r.0.name == seed.name
    ensures |badges| <= |r.1| <= |badges| + 1 && r.1[..|badges|] == badges
    ensures ResolveBadge(r.1, seed.name).Some? && r.1[ResolveBadge(r.1, seed.name).value] == r.0
    ensures ResolveBadge(badges, seed.name).Some? ==> r.1 == badges
    ensures ResolveBadge(badges, seed.name).None? ==>
      r.0.pointsRequired == seed.pointsRequired && r.0.badgeType == seed.badgeType &&
      r.0.icon == seed.icon && r.0.isActive && r.0.id == NextBadgeId(badges)
  {
    match ResolveBadge(badges, seed.name)
    case Some(k) => (badges[k], badges)
    case None =>
      var b := Badge(NextBadgeId(badges), seed.name, seed.description, seed.badgeType,
                     seed.icon, seed.pointsRequired, true);
      assert (badges + [b])[..|badges|] == badges;
      assert (badges + [b])[|badges|] == b;
      (b, badges + [b])
  }

  /** No two badges share a name: the table state in which the name lookup
      of `get_or_create` finds at most one row and so cannot fail. */
  predicate UniqueBadgeNames(badges: seq<Badge>) {
    forall i, j :: 0 <= i < j < |badges| ==> badges[i].name != badges[j].name
  }

  /** With unique names, the first badge of a name is the only one. */
  lemma ResolveUnique(badges: seq<Badge>, j: int)
    requires UniqueBadgeNames(badges) && 0 <= j < |badges|
    ensures ResolveBadge(badges, badges[j].name) == Some(j)
  {
  }

  /** A badge made by the lookup has a new name, so unique names stay unique. */
  lemma GetOrCreateKeepsNamesUnique(badges: seq<Badge>, seed: BadgeSeed)
    requires UniqueBadgeNames(badges)
    ensures UniqueBadgeNames(GetOrCreateBadge(badges, seed).1)
  {
    var r := GetOrCreateBadge(badges, seed).1;
    if |r| > |badges| {
      assert r == badges + [r[|badges|]];
      assert forall i :: 0 <= i < |badges| ==> r[i] == badges[i];
    }
  }

  /** `FarmerBadge.objects.get_or_create(farmer=..., badge=...)`. */
  function GetOrCreateFarmerBadge(t: seq<FarmerBadge>, farmer: nat, badge: nat, now: int): (r: seq<FarmerBadge>)
    ensures HoldsBadge(r, farmer, badge)
    ensures |t| <= |r| <= |t| + 1 && r[..|t|] == t
    ensures HoldsBadge(t, farmer, badge) ==> r == t
    ensures |r| == |t| + 1 ==> r[|t|] == FarmerBadge(farmer, badge, now)
    ensures UniqueFarmerBadges(t) ==> UniqueFarmerBadges(r)
  {
    if HoldsBadge(t, farmer, badge) then t
    else
      var r := t + [FarmerBadge(farmer, badge, now)];
      assert r[|t|].farmer == farmer && r[|t|].badge == badge;
      assert r[..|t|] == t;
      r
  }

  /** The outcome of seeding one badge: it is resolved by name, and the
      farmer is given it when their points reach its threshold. */
  function AwardSeed(seed: BadgeSeed, badges: seq<Badge>, fbs: seq<FarmerBadge>,
                     farmer: Farmers.Farmer, now: int): (r: (seq<Badge>, seq<FarmerBadge>))
    ensures |badges| <= |r.0| && r.0[..|badges|] == badges
    ensures |fbs| <= |r.1| && r.1[..|fbs|] == fbs
    ensures UniqueFarmerBadges(fbs) ==> UniqueFarmerBadges(r.1)
    ensures Settled(seed, r.0, r.1, farmer)
    ensures forall i :: |fbs| <= i < |r.1| ==> NewlyEarned(r.1[i], r.0, farmer)
  {
    var (b, badges1) := GetOrCreateBadge(badges, seed);
    if farmer.totalPoints >= b.pointsRequired then
      var fbs1 := GetOrCreateFarmerBadge(fbs, farmer.id, b.id, now);
      assert forall i :: |fbs| <= i < |fbs1| ==> fbs1[i] == FarmerBadge(farmer.id, b.id, now);
      (badges1, fbs1)
    else (badges1, fbs)
  }

  /** A seed is settled in the tables when a badge of its name exists and,
      if the farmer's points reach that badge's threshold, the farmer holds it. */
  predicate Settled(seed: BadgeSeed, badges: seq<Badge>, fbs: seq<FarmerBadge>, farmer: Farmers.Farmer) {
    && ResolveBadge(badges, seed.name).Some?
    && var b := badges[ResolveBadge(badges, seed.name).value];
       farmer.totalPoints >= b.pointsRequired ==> HoldsBadge(fbs, farmer.id, b.id)
  }

  /** A farmer-badge row made by the award: the farmer's own, and for a
      stored badge whose threshold the farmer's points reach. */
  predicate NewlyEarned(fb: FarmerBadge, badges: seq<Badge>, farmer: Farmers.Farmer) {
    fb.farmer == farmer.id &&
    exists k :: 0 <= k < |badges| && badges[k].id == fb.badge && badges[k].pointsRequired <= farmer.totalPoints
  }

  /** Seeding each badge in turn. */
  function AwardSeeds(seeds: seq<BadgeSeed>, badges: seq<Badge>, fbs: seq<FarmerBadge>,
                      farmer: Farmers.Farmer, now: int): (r: (seq<Badge>, seq<FarmerBadge>))
    ensures |badges| <= |r.0| && r.0[..|badges|] == badges
    ensures |fbs| <= |r.1| && r.1[..|fbs|] == fbs
    ensures UniqueFarmerBadges(fbs) ==> UniqueFarmerBadges(r.1)
    ensures forall i :: |fbs| <= i < |r.1| ==> NewlyEarned(r.1[i], r.0, farmer)
    decreases |seeds|
  {
    if |seeds| == 0 then (badges, fbs)
    else
      var step := AwardSeed(seeds[0], badges, fbs, farmer, now);
      var rest := AwardSeeds(seeds[1..], step.0, step.1, farmer, now);
      AwardChain(badges, fbs, step, rest, farmer);
      rest
  }

  /** Two seeding steps in a row keep the tables' prefixes, the uniqueness
      of awards and the reason for every new award. */
  lemma AwardChain(badges: seq<Badge>, fbs: seq<FarmerBadge>, mid: (seq<Badge>, seq<FarmerBadge>),
                   end: (seq<Badge>, seq<FarmerBadge>), farmer: Farmers.Farmer)
    requires |badges| <= |mid.0| && mid.0[..|badges|] == badges
    requires |fbs| <= |mid.1| && mid.1[..|fbs|] == fbs
    requires UniqueFarmerBadges(fbs) ==> UniqueFarmerBadges(mid.1)
    requires forall i :: |fbs| <= i < |mid.1| ==> NewlyEarned(mid.1[i], mid.0, farmer)
    requires |mid.0| <= |end.0| && end.0[..|mid.0|] == mid.0
    requires |mid.1| <= |end.1| && end.1[..|mid.1|] == mid.1
    requires UniqueFarmerBadges(mid.1) ==> UniqueFarmerBadges(end.1)
    requires forall i :: |mid.1| <= i < |end.1| ==> NewlyEarned(end.1[i], end.0, farmer)
    ensures |badges| <= |end.0| && end.0[..|badges|] == badges
    ensures |fbs| <= |end.1| && end.1[..|fbs|] == fbs
    ensures UniqueFarmerBadges(fbs) ==> UniqueFarmerBadges(end.1)
    ensures forall i :: |fbs| <= i < |end.1| ==> NewlyEarned(end.1[i], end.0, farmer)
  {
    PrefixTrans(badges, mid.0, end.0);
    PrefixTrans(fbs, mid.1, end.1);
    NewlyEarnedExtends(mid.1, mid.0, end.0, farmer, |fbs|);
    forall i | |fbs| <= i < |end.1| ensures NewlyEarned(end.1[i], end.0, farmer) {
      if i < |mid.1| {
        assert end.1[i] == mid.1[i];
      }
    }
  }

  lemma NewlyEarnedExtends(fbs: seq<FarmerBadge>, badges: seq<Badge>, more: seq<Badge>,
                           farmer: Farmers.Farmer, from: nat)
    requires |badges| <= |more| && more[..|badges|] == badges
    requires forall i :: from <= i < |fbs| ==> NewlyEarned(fbs[i], badges, farmer)
    ensures forall i :: from <= i < |fbs| ==> NewlyEarned(fbs[i], more, farmer)
  {
    forall i | from <= i < |fbs| ensures NewlyEarned(fbs[i], more, farmer) {
      assert NewlyEarned(fbs[i], badges, farmer);
      var k :| 0 <= k < |badges| && badges[k].id == fbs[i].badge && badges[k].pointsRequired <= farmer.totalPoints;
      assert more[k] == badges[k];
    }
  }

  /** `award_initial_badges`: the three seeded badges, in order. */
  function AwardInitialBadges(badges: seq<Badge>, fbs: seq<FarmerBadge>, farmer: Farmers.Farmer, now: int)
    : (r: (seq<Badge>, seq<FarmerBadge>))
    ensures |badges| <= |r.0| <= |badges| + |InitialBadges| && r.0[..|badges|] == badges
    ensures |fbs| <= |r.1| && r.1[..|fbs|] == fbs
    ensures UniqueFarmerBadges(fbs) ==> UniqueFarmerBadges(r.1)
    ensures forall i :: |fbs| <= i < |r.1| ==> NewlyEarned(r.1[i], r.0, farmer)
  {
    AwardSeedsGrowth(InitialBadges, badges, fbs, farmer, now);
    AwardSeeds(InitialBadges, badges, fbs, farmer, now)
  }

  lemma {:induction false} AwardSeedsGrowth(seeds: seq<BadgeSeed>, badges: seq<Badge>, fbs: seq<FarmerBadge>,
                                            farmer: Farmers.Farmer, now: int)
    ensures |AwardSeeds(seeds, badges, fbs, farmer, now).0| <= |badges| + |seeds|
    decreases |seeds|
  {
    if |seeds| > 0 {
      var step := AwardSeed(seeds[0], badges, fbs, farmer, now);
      AwardSeedsGrowth(seeds[1..], step.0, step.1, farmer, now);
    }
  }

  /** A settled seed stays settled when rows are appended to both tables. */
  lemma SettledExtends(seed: BadgeSeed, badges: seq<Badge>, fbs: seq<FarmerBadge>,
                       badges2: seq<Badge>, fbs2: seq<FarmerBadge>, farmer: Farmers.Farmer)
    requires Settled(seed, badges, fbs, farmer)
    requires |badges| <= |badges2| && badges2[..|badges|] == badges
    requires |fbs| <= |fbs2| && fbs2[..|fbs|] == fbs
    ensures Settled(seed, badges2, fbs2, farmer)
  {
    assert badges2 == badges + badges2[|badges|..];
    ResolveExtends(badges, badges2[|badges|..], seed.name);
    var b := badges[ResolveBadge(badges, seed.name).value];
    if farmer.totalPoints >= b.pointsRequired {
      var k :| 0 <= k < |fbs| && fbs[k].farmer == farmer.id && fbs[k].badge == b.id;
      assert fbs2[k] == fbs[k];
    }
  }

  /** After the award every seed is settled: its badge exists, and the
      farmer holds it if their points reach its threshold. */
  lemma {:induction false} AwardSettles(seeds: seq<BadgeSeed>, badges: seq<Badge>, fbs: seq<FarmerBadge>,
                                        farmer: Farmers.Farmer, now: int)
    ensures forall i :: 0 <= i < |seeds| ==>
      Settled(seeds[i], AwardSeeds(seeds, badges, fbs, farmer, now).0, AwardSeeds(seeds, badges, fbs, farmer, now).1, farmer)
    decreases |seeds|
  {
    if |seeds| > 0 {
      var step := AwardSeed(seeds[0], badges, fbs, farmer, now);
      var r := AwardSeeds(seeds, badges, fbs, farmer, now);
      AwardSettles(seeds[1..], step.0, step.1, farmer, now);
      SettledExtends(seeds[0], step.0, step.1, r.0, r.1, farmer);
      forall i | 1 <= i < |seeds| ensures Settled(seeds[i], r.0, r.1, farmer) {
        assert seeds[i] == seeds[1..][i - 1];
      }
    }
  }

  /** Seeding changes nothing when every seed is already settled. */
  lemma {:induction false} SettledAwardsNothing(seeds: seq<BadgeSeed>, badges: seq<Badge>, fbs: seq<FarmerBadge>,
                                                farmer: Farmers.Farmer, now: int)
    requires forall i :: 0 <= i < |seeds| ==> Settled(seeds[i], badges, fbs, farmer)
    ensures AwardSeeds(seeds, badges, fbs, farmer, now) == (badges, fbs)
    decreases |seeds|
  {
    if |seeds| > 0 {
      assert Settled(seeds[0], badges, fbs, farmer);
      assert AwardSeed(seeds[0], badges, fbs, farmer, now) == (badges, fbs);
      forall i | 0 <= i < |seeds[1..]| ensures Settled(seeds[1..][i], badges, fbs, farmer) {
        assert seeds[1..][i] == seeds[i + 1];
      }
      SettledAwardsNothing(seeds[1..], badges, fbs, farmer, now);
    }
  }

  /** Awarding the initial badges twice is the same as awarding them once:
      no badge and no farmer badge is created again. */
  lemma AwardIdempotent(badges: seq<Badge>, fbs: seq<FarmerBadge>, farmer: Farmers.Farmer, now: int, later: int)
    ensures var r := AwardInitialBadges(badges, fbs, farmer, now);
      AwardInitialBadges(r.0, r.1, farmer, later) == r
  {
    var r := AwardInitialBadges(badges, fbs, farmer, now);
    AwardSettles(InitialBadges, badges, fbs, farmer, now);
    SettledAwardsNothing(InitialBadges, r.0, r.1, farmer, later);
  }

  /** After the award the farmer holds each seeded badge whose stored
      threshold their points reach. */
  lemma AwardGivesReachedBadges(badges: seq<Badge>, fbs: seq<FarmerBadge>, farmer: Farmers.Farmer, now: int, i: nat)
    requires i < |InitialBadges|
    ensures var r := AwardInitialBadges(badges, fbs, farmer, now);
      ResolveBadge(r.0, InitialBadges[i].name).Some? &&
      var b := r.0[ResolveBadge(r.0, InitialBadges[i].name).value];
      farmer.totalPoints >= b.pointsRequired ==> HoldsBadge(r.1, farmer.id, b.id)
  {
    AwardSettles(InitialBadges, badges, fbs, farmer, now);
  }

  // ---------------------------------------------------------------------
  // Leaderboard generation

  /** Bounds of the random points each farmer is given (inclusive). */
  const MinDraw: int := 100
  const MaxDraw: int := 5000

  /** Length of a generated period: thirty days, in seconds. */
  const PeriodSeconds: int := 30 * 86400

  /** One (farmer, points) pair of the ranking. */
  datatype Entry = Entry(farmer: nat, points: int)

  /** The points draws a generation may use: one per farmer, in range. */
  predicate DrawsOk(fs: seq<Farmers.Farmer>, draws: seq<int>) {
    |draws| == |fs| && forall i :: 0 <= i < |draws| ==> MinDraw <= draws[i] <= MaxDraw
  }

  /** Each farmer's points overwritten by their draw. */
  function Redraw(fs: seq<Farmers.Farmer>, draws: seq<int>): (r: seq<Farmers.Farmer>)
    requires |draws| == |fs|
    ensures |r| == |fs|
    ensures forall i :: 0 <= i < |fs| ==> r[i] == fs[i].(totalPoints := draws[i])
  {
    seq(|fs|, i requires 0 <= i < |fs| => fs[i].(totalPoints := draws[i]))
  }

  /** The pairs the ranking is made from, in table order. */
  function DrawnEntries(fs: seq<Farmers.Farmer>, draws: seq<int>): (r: seq<Entry>)
    requires |draws| == |fs|
    ensures |r| == |fs|
    ensures forall i :: 0 <= i < |fs| ==> r[i] == Entry(fs[i].id, draws[i])
  {
    seq(|fs|, i requires 0 <= i < |fs| => Entry(fs[i].id, draws[i]))
  }

  function RowEntries(rows: seq<LeaderboardRow>): (r: seq<Entry>)
    ensures |r| == |rows|
    ensures forall i :: 0 <= i < |rows| ==> r[i] == Entry(rows[i].farmer, rows[i].points)
  {
    seq(|rows|, i requires 0 <= i < |rows| => Entry(rows[i].farmer, rows[i].points))
  }

  /** The rows a generation creates: the drawn pairs sorted by points,
      largest first, and numbered from 1, all for one thirty-day period
      ending now. */
  function RankedRows(fs: seq<Farmers.Farmer>, draws: seq<int>, kind: string, now: int): (r: seq<LeaderboardRow>)
    requires |draws| == |fs|
    ensures |r| == |fs|
    ensures forall i :: 0 <= i < |r| ==>
      r[i].rank == i + 1 && r[i].kind == kind && r[i].periodStart == now - PeriodSeconds && r[i].periodEnd == now
    ensures forall i, j :: 0 <= i < j < |r| ==> r[i].points >= r[j].points
    ensures multiset(RowEntries(r)) == multiset(DrawnEntries(fs, draws))
  {
    var sorted := SortDesc(DrawnEntries(fs, draws), (e: Entry) => e.points);
    var r := seq(|sorted|, i requires 0 <= i < |sorted| =>
      LeaderboardRow(sorted[i].farmer, kind, sorted[i].points, i + 1, now - PeriodSeconds, now));
    assert RowEntries(r) == sorted;
    r
  }

  /** No two entries name the same farmer. */
  predicate DistinctFarmerEntries(y: seq<Entry>) {
    forall i, j :: 0 <= i < j < |y| ==> y[i].farmer != y[j].farmer
  }

  /** One pair of positions of a rearrangement of distinct-farmer entries
      names two farmers. */
  lemma SameEntriesPair(x: seq<Entry>, y: seq<Entry>, i: nat, j: nat)
    requires multiset(x) == multiset(y) && DistinctFarmerEntries(y)
    requires i < j < |x|
    ensures x[i].farmer != x[j].farmer
  {
    if x[i].farmer == x[j].farmer {
      assert x[i] in multiset(y) && x[j] in multiset(y);
      var a :| 0 <= a < |y| && y[a] == x[i];
      var b :| 0 <= b < |y| && y[b] == x[j];
      assert a == b;
      CountTwo(x, i, j);
      DistinctCount(y, x[i]);
      assert false;
    }
  }

  /** A rearrangement of distinct-farmer entries has distinct farmers. */
  lemma SameEntriesDistinct(x: seq<Entry>, y: seq<Entry>)
    requires multiset(x) == multiset(y) && DistinctFarmerEntries(y)
    ensures DistinctFarmerEntries(x)
  {
    forall i, j | 0 <= i < j < |x| ensures x[i].farmer != x[j].farmer {
      SameEntriesPair(x, y, i, j);
    }
  }

  /** A generated ranking names every farmer once when farmer ids are distinct. */
  lemma RankedRowsDistinct(fs: seq<Farmers.Farmer>, draws: seq<int>, kind: string, now: int)
    requires |draws| == |fs|
    requires forall i, j :: 0 <= i < j < |fs| ==> fs[i].id != fs[j].id
    ensures var r := RankedRows(fs, draws, kind, now);
      forall i, j :: 0 <= i < j < |r| ==> r[i].farmer != r[j].farmer
  {
    var r := RankedRows(fs, draws, kind, now);
    var re, de := RowEntries(r), DrawnEntries(fs, draws);
    assert DistinctFarmerEntries(de);
    SameEntriesDistinct(re, de);
    forall i, j | 0 <= i < j < |r| ensures r[i].farmer != r[j].farmer {
      assert re[i].farmer == r[i].farmer && re[j].farmer == r[j].farmer;
    }
  }

  /** The rows of one kind, and the rows of every other kind. */
  function OfKind(t: seq<LeaderboardRow>, kind: string): (r: seq<LeaderboardRow>)
    ensures |r| <= |t|
  {
    Filter(t, (row: LeaderboardRow) => row.kind == kind)
  }

  function OtherKinds(t: seq<LeaderboardRow>, kind: string): (r: seq<LeaderboardRow>)
    ensures |r| <= |t|
  {
    Filter(t, (row: LeaderboardRow) => row.kind != kind)
  }

  /** The farmer table and the leaderboard table together. */
  datatype Board = Board(farmers: seq<Farmers.Farmer>, table: seq<LeaderboardRow>)

  /** `generate_leaderboard_data(kind)`: with no farmers nothing happens.
      Otherwise the rows of that kind are deleted, every farmer's points are
      overwritten by a random draw, and the ranked rows are stored. */
  function GenerateLeaderboard(fs: seq<Farmers.Farmer>, table: seq<LeaderboardRow>, kind: string,
                               draws: seq<int>, now: int): (b: Board)
    requires DrawsOk(fs, draws)
    ensures |fs| == 0 ==> b == Board(fs, table)
    ensures |fs| > 0 ==> b.farmers == Redraw(fs, draws)
    ensures |fs| > 0 ==> OfKind(b.table, kind) == RankedRows(fs, draws, kind, now)
    ensures forall k :: k != kind ==> OfKind(b.table, k) == OfKind(table, k)
  {
    if |fs| == 0 then Board(fs, table)
    else
      var rows := RankedRows(fs, draws, kind, now);
      var t := OtherKinds(table, kind) + rows;
      GeneratedOfKind(table, rows, kind);
      Board(Redraw(fs, draws), t)
  }

  lemma GeneratedOfKind(table: seq<LeaderboardRow>, rows: seq<LeaderboardRow>, kind: string)
    requires forall i :: 0 <= i < |rows| ==> rows[i].kind == kind
    ensures OfKind(OtherKinds(table, kind) + rows, kind) == rows
    ensures forall k :: k != kind ==> OfKind(OtherKinds(table, kind) + rows, k) == OfKind(table, k)
  {
    var other := OtherKinds(table, kind);
    var isKind := (row: LeaderboardRow) => row.kind == kind;
    FilterMembers(table, (row: LeaderboardRow) => row.kind != kind);
    FilterConcat(other, rows, isKind);
    FilterNone(other, isKind);
    FilterAll(rows, isKind);
    forall k | k != kind ensures OfKind(other + rows, k) == OfKind(table, k) {
      var isK := (row: LeaderboardRow) => row.kind == k;
      FilterConcat(other, rows, isK);
      FilterNone(rows, isK);
      FilterNarrow(table, (row: LeaderboardRow) => row.kind != kind, isK);
    }
  }

  // ---------------------------------------------------------------------
  // Leaderboard listing

  /** `order_by('rank')`: ascending rank, the largest-first order of the
      negated rank. */
  function RankOrder(rows: seq<LeaderboardRow>): (r: seq<LeaderboardRow>)
    ensures forall i, j :: 0 <= i < j < |r| ==> r[i].rank <= r[j].rank
    ensures multiset(r) == multiset(rows)
  {
    var r := SortDesc(rows, (row: LeaderboardRow) => -row.rank);
    assert forall i, j :: 0 <= i < j < |r| ==> -r[i].rank >= -r[j].rank;
    r
  }

  /** The first `limit` rows of one kind in ascending rank. */
  function Listing(table: seq<LeaderboardRow>, kind: string, limit: nat): (r: seq<LeaderboardRow>)
    ensures |r| <= limit
    ensures forall i, j :: 0 <= i < j < |r| ==> r[i].rank <= r[j].rank
  {
    Take(RankOrder(OfKind(table, kind)), limit)
  }

  /** Listed rows are stored rows of the requested kind, and the listing is
      empty only for limit zero or a kind with no rows. */
  lemma ListingRows(table: seq<LeaderboardRow>, kind: string, limit: nat)
    ensures var r := Listing(table, kind, limit);
      forall i :: 0 <= i < |r| ==> r[i].kind == kind && r[i] in table
    ensures Listing(table, kind, limit) == [] <==> limit == 0 || forall i :: 0 <= i < |table| ==> table[i].kind != kind
  {
    var isKind := (row: LeaderboardRow) => row.kind == kind;
    var of := OfKind(table, kind);
    FilterMembers(table, isKind);
    FilterEmpty(table, isKind);
    var sorted := RankOrder(of);
    forall i | 0 <= i < |sorted| ensures sorted[i].kind == kind && sorted[i] in table {
      assert sorted[i] in multiset(of);
      var k :| 0 <= k < |of| && of[k] == sorted[i];
    }
  }

  /** The `limit` query parameter: absent, an integer, or text `int()`
      rejects. */
  datatype LimitParam = NoLimit | Limit(n: int) | NotANumber

  const DefaultLimit: nat := 10

  /** The response of the leaderboard endpoint. A non-numeric or negative
      limit fails inside the handler (the conversion error and the negative
      slice are not caught). */
  datatype LeaderboardResponse =
    | ServerError
    | LeaderboardList(board: Board, kind: string, rows: seq<LeaderboardRow>)

  /** `leaderboard_view`: the requested kind (all-time by default) in
      ascending rank, at most `limit` rows (ten by default). When that
      listing is empty the leaderboard of the kind is generated and listed
      again. */
  function LeaderboardView(fs: seq<Farmers.Farmer>, table: seq<LeaderboardRow>, kind: Option<string>,
                           limit: LimitParam, draws: seq<int>, now: int): (v: LeaderboardResponse)
    requires DrawsOk(fs, draws)
    ensures v.ServerError? <==> limit.NotANumber? || (limit.Limit? && limit.n < 0)
    ensures v.LeaderboardList? ==> v.kind == kind.GetOr(LeaderboardTypeCode(AllTime))
    ensures v.LeaderboardList? && limit.NoLimit? ==> |v.rows| <= DefaultLimit
    ensures v.LeaderboardList? && limit.Limit? ==> |v.rows| <= limit.n
    ensures v.LeaderboardList? ==>
      forall i :: 0 <= i < |v.rows| ==> v.rows[i].kind == v.kind && v.rows[i] in v.board.table
    ensures v.LeaderboardList? ==> forall i, j :: 0 <= i < j < |v.rows| ==> v.rows[i].rank <= v.rows[j].rank
    ensures v.LeaderboardList? && Listing(table, v.kind, LimitOf(limit)) != [] ==>
      v.board == Board(fs, table) && v.rows == Listing(table, v.kind, LimitOf(limit))
  {
    if limit.NotANumber? || (limit.Limit? && limit.n < 0) then ServerError
    else
      var k := kind.GetOr(LeaderboardTypeCode(AllTime));
      var n := LimitOf(limit);
      var first := Listing(table, k, n);
      ListingRows(table, k, n);
      if first != [] then LeaderboardList(Board(fs, table), k, first)
      else
        var b := GenerateLeaderboard(fs, table, k, draws, now);
        ListingRows(b.table, k, n);
        LeaderboardList(b, k, Listing(b.table, k, n))
  }

  /** The row limit a request asks for; ten by default. */
  function LimitOf(limit: LimitParam): nat {
    match limit
    case Limit(n) => if n >= 0 then n else 0
    case _ => DefaultLimit
  }

  /** With no rows of the kind stored and at least one farmer, the view
      generates the kind and lists ranks 1, 2, ... up to the limit. */
  lemma FreshLeaderboardView(fs: seq<Farmers.Farmer>, table: seq<LeaderboardRow>, kind: Option<string>,
                             limit: LimitParam, draws: seq<int>, now: int)
    requires DrawsOk(fs, draws) && |fs| > 0
    requires limit.NoLimit? || (limit.Limit? && limit.n >= 0)
    requires forall i :: 0 <= i < |table| ==> table[i].kind != kind.GetOr(LeaderboardTypeCode(AllTime))
    ensures var v := LeaderboardView(fs, table, kind, limit, draws, now);
      v.LeaderboardList? && |v.rows| == Min(LimitOf(limit), |fs|) &&
      v.board.farmers == Redraw(fs, draws) &&
      forall i :: 0 <= i < |v.rows| ==> v.rows[i].rank == i + 1
  {
    var k := kind.GetOr(LeaderboardTypeCode(AllTime));
    var n := LimitOf(limit);
    ListingRows(table, k, n);
    var b := GenerateLeaderboard(fs, table, k, draws, now);
    RankedRowsInOrder(fs, draws, k, now);
    assert Listing(b.table, k, n) == Take(RankedRows(fs, draws, k, now), n);
  }

  /** Generated rows are already in ascending rank. */
  lemma RankedRowsInOrder(fs: seq<Farmers.Farmer>, draws: seq<int>, kind: string, now: int)
    requires |draws| == |fs|
    ensures RankOrder(RankedRows(fs, draws, kind, now)) == RankedRows(fs, draws, kind, now)
  {
    var rows := RankedRows(fs, draws, kind, now);
    assert SortedDesc(rows, (row: LeaderboardRow) => -row.rank);
    SortSorted(rows, (row: LeaderboardRow) => -row.rank);
  }

  /** A request with limit zero always finds the listing empty, so every
      such request re-draws all farmers' points. */
  lemma ZeroLimitRedraws(fs: seq<Farmers.Farmer>, table: seq<LeaderboardRow>, kind: Option<string>,
                         draws: seq<int>, now: int)
    requires DrawsOk(fs, draws) && |fs| > 0
    ensures var v := LeaderboardView(fs, table, kind, Limit(0), draws, now);
      v.LeaderboardList? && v.rows == [] && v.board.farmers == Redraw(fs, draws)
  {
  }

  /** `farmer_stats` rank: one plus the farmer's position among the all-time
      rows in ascending rank, or unranked. */
  datatype FarmerRank = Ranked(position: nat) | Unranked

  function FarmerIds(rows: seq<LeaderboardRow>): (ids: seq<nat>)
    ensures |ids| == |rows|
    ensures forall i :: 0 <= i < |rows| ==> ids[i] == rows[i].farmer
  {
    seq(|rows|, i requires 0 <= i < |rows| => rows[i].farmer)
  }

  function RankOf(table: seq<LeaderboardRow>, farmer: nat): (r: FarmerRank)
    ensures var ids := FarmerIds(RankOrder(OfKind(table, LeaderboardTypeCode(AllTime))));
      && (r.Unranked? <==> farmer !in ids)
      && (r.Ranked? ==> 1 <= r.position <= |ids| && ids[r.position - 1] == farmer &&
                        forall j :: 0 <= j < r.position - 1 ==> ids[j] != farmer)
  {
    var ids := FarmerIds(RankOrder(OfKind(table, LeaderboardTypeCode(AllTime))));
    match FindFirst(ids, (id: nat) => id == farmer)
    case None => Unranked
    case Some(k) => Ranked(k + 1)
  }

  // ---------------------------------------------------------------------
  // Rewards

  predicate RewardIdsUnique(rewards: seq<Reward>) {
    forall i, j :: 0 <= i < j < |rewards| ==> rewards[i].id != rewards[j].id
  }

  /** `available_rewards`: the active rewards, cheapest first. */
  function AvailableRewards(rewards: seq<Reward>): (r: seq<Reward>)
    ensures forall i, j :: 0 <= i < j < |r| ==> r[i].costPoints <= r[j].costPoints
    ensures multiset(r) == multiset(Filter(rewards, (w: Reward) => w.isActive))
  {
    var r := SortDesc(Filter(rewards, (w: Reward) => w.isActive), (w: Reward) => -w.costPoints);
    assert forall i, j :: 0 <= i < j < |r| ==> -r[i].costPoints >= -r[j].costPoints;
    r
  }

  /** The listed rewards are exactly the stored active ones. */
  lemma AvailableRewardsActive(rewards: seq<Reward>)
    ensures forall i :: 0 <= i < |AvailableRewards(rewards)| ==>
      AvailableRewards(rewards)[i].isActive && AvailableRewards(rewards)[i] in rewards
    ensures forall i :: 0 <= i < |rewards| && rewards[i].isActive ==> rewards[i] in AvailableRewards(rewards)
  {
    var active := (w: Reward) => w.isActive;
    var f := Filter(rewards, active);
    var r := AvailableRewards(rewards);
    FilterMembers(rewards, active);
    forall i | 0 <= i < |r| ensures r[i].isActive && r[i] in rewards {
      assert r[i] in multiset(f);
      var k :| 0 <= k < |f| && f[k] == r[i];
    }
    forall i | 0 <= i < |rewards| && rewards[i].isActive ensures rewards[i] in r {
      assert rewards[i] in multiset(f);
    }
  }

  datatype RedeemOutcome =
    | Redeemed(remaining: int, record: FarmerReward)
    | InsufficientPoints(required: int, available: int)
    | FarmerOrRewardNotFound

  datatype Redemption = Redemption(outcome: RedeemOutcome, farmers: seq<Farmers.Farmer>,
                                   redemptions: seq<FarmerReward>)

  predicate IsActiveReward(w: Reward, rewardId: nat) {
    w.id == rewardId && w.isActive
  }

  /** `redeem_reward`: the farmer and the active reward of the given ids are
      looked up; when the farmer's points cover the cost they are deducted
      and one redemption is recorded, otherwise nothing changes. */
  function RedeemReward(fs: seq<Farmers.Farmer>, rewards: seq<Reward>, frs: seq<FarmerReward>,
                        farmerId: nat, rewardId: nat, now: int): (r: Redemption)
    ensures r.outcome.FarmerOrRewardNotFound? <==>
      (forall i :: 0 <= i < |fs| ==> fs[i].id != farmerId) ||
      (forall j :: 0 <= j < |rewards| ==> !IsActiveReward(rewards[j], rewardId))
    ensures !r.outcome.Redeemed? ==> r.farmers == fs && r.redemptions == frs
    ensures r.outcome.InsufficientPoints? ==> r.outcome.available < r.outcome.required
    ensures r.outcome.Redeemed? ==>
      exists i, j :: 0 <= i < |fs| && 0 <= j < |rewards| &&
        fs[i].id == farmerId && IsActiveReward(rewards[j], rewardId) &&
        fs[i].totalPoints >= rewards[j].costPoints &&
        r.outcome.remaining == fs[i].totalPoints - rewards[j].costPoints &&
        r.farmers == fs[i := fs[i].(totalPoints := r.outcome.remaining)]
    ensures r.outcome.Redeemed? ==> r.outcome.remaining >= 0
    ensures r.outcome.Redeemed? ==>
      r.outcome.record == NewFarmerReward(farmerId, rewardId, now) && r.redemptions == frs + [r.outcome.record]
  {
    match FindFirst(fs, (f: Farmers.Farmer) => f.id == farmerId)
    case None => Redemption(FarmerOrRewardNotFound, fs, frs)
    case Some(i) =>
      match FindFirst(rewards, (w: Reward) => IsActiveReward(w, rewardId))
      case None => Redemption(FarmerOrRewardNotFound, fs, frs)
      case Some(j) =>
        var f, w := fs[i], rewards[j];
        if f.totalPoints >= w.costPoints then
          var remaining := f.totalPoints - w.costPoints;
          var record := NewFarmerReward(farmerId, rewardId, now);
          Redemption(Redeemed(remaining, record), fs[i := f.(totalPoints := remaining)], frs + [record])
        else
          Redemption(InsufficientPoints(w.costPoints, f.totalPoints), fs, frs)
  }

  /** For a registered farmer and an active reward (ids being unique), the
      redemption succeeds exactly when the farmer's points cover the cost;
      a refusal reports the cost and the points held. */
  lemma RedeemSucceedsIffAffordable(fs: seq<Farmers.Farmer>, rewards: seq<Reward>, frs: seq<FarmerReward>,
                                    farmerId: nat, rewardId: nat, now: int, i: nat, j: nat)
    requires Farmers.FarmerTableOk(fs) && RewardIdsUnique(rewards)
    requires i < |fs| && fs[i].id == farmerId
    requires j < |rewards| && IsActiveReward(rewards[j], rewardId)
    ensures var r := RedeemReward(fs, rewards, frs, farmerId, rewardId, now);
      && (r.outcome.Redeemed? <==> fs[i].totalPoints >= rewards[j].costPoints)
      && (r.outcome.InsufficientPoints? <==> fs[i].totalPoints < rewards[j].costPoints)
      && (r.outcome.InsufficientPoints? ==>
            r.outcome.required == rewards[j].costPoints && r.outcome.available == fs[i].totalPoints)
  {
    assert forall a, b :: 0 <= a < b < |fs| ==> fs[a].id != fs[b].id;
    var fi := FindFirst(fs, (f: Farmers.Farmer) => f.id == farmerId);
    var wj := FindFirst(rewards, (w: Reward) => IsActiveReward(w, rewardId));
    assert fi == Some(i);
    assert wj == Some(j);
  }

  /** A successful redemption lowers the points held by all farmers together
      by exactly the reward's cost and records one redemption. */
  lemma RedeemConservesPoints(fs: seq<Farmers.Farmer>, rewards: seq<Reward>, frs: seq<FarmerReward>,
                              farmerId: nat, rewardId: nat, now: int, j: nat)
    requires RewardIdsUnique(rewards)
    requires j < |rewards| && IsActiveReward(rewards[j], rewardId)
    ensures var r := RedeemReward(fs, rewards, frs, farmerId, rewardId, now);
      r.outcome.Redeemed? ==>
        Farmers.SumPoints(r.farmers) == Farmers.SumPoints(fs) - rewards[j].costPoints &&
        |r.redemptions| == |frs| + 1
  {
    var r := RedeemReward(fs, rewards, frs, farmerId, rewardId, now);
    if r.outcome.Redeemed? {
      var i, k :| 0 <= i < |fs| && 0 <= k < |rewards| &&
        fs[i].id == farmerId && IsActiveReward(rewards[k], rewardId) &&
        fs[i].totalPoints >= rewards[k].costPoints &&
        r.outcome.remaining == fs[i].totalPoints - rewards[k].costPoints &&
        r.farmers == fs[i := fs[i].(totalPoints := r.outcome.remaining)];
      assert k == j;
      Farmers.SumPointsUpdate(fs, i, fs[i].(totalPoints := r.outcome.remaining));
    }
  }

  // ---------------------------------------------------------------------
  // Farmer statistics

  datatype ActivityLevel = New | Beginner | Moderate | Active | VeryActive

  function ActivityLabel(l: ActivityLevel): string {
    match l
    case VeryActive => "Very Active"
    case Active => "Active"
    case Moderate => "Moderate"
    case Beginner => "Beginner"
    case New => "New"
  }

  /** `calculate_activity_level`: the first threshold, from the top, that
      the points reach. */
  function ActivityLevelOf(points: int): ActivityLevel {
    if points >= 2000 then VeryActive
    else if points >= 1000 then Active
    else if points >= 500 then Moderate
    else if points >= 100 then Beginner
    else New
  }

  /** The levels in increasing order. */
  function LevelIndex(l: ActivityLevel): nat {
    match l
    case New => 0
    case Beginner => 1
    case Moderate => 2
    case Active => 3
    case VeryActive => 4
  }

  const ActivityThresholds: seq<int> := [100, 500, 1000, 2000]

  /** Reference reading of the classifier: a farmer's level is the number
      of thresholds their points reach. */
  lemma ActivityCountsThresholds(points: int)
    ensures LevelIndex(ActivityLevelOf(points)) == Count(ActivityThresholds, (t: int) => t <= points)
  {
    var p := (t: int) => t <= points;
    var s := ActivityThresholds;
    assert s[1..] == [500, 1000, 2000];
    assert s[1..][1..] == [1000, 2000];
    assert s[1..][1..][1..] == [2000];
    assert s[1..][1..][1..][1..] == [];
    assert Count(s[1..][1..][1..], p) == (if 2000 <= points then 1 else 0) + Count([], p);
  }

  /** More points never mean a lower level. */
  lemma ActivityMonotone(p: int, q: int)
    requires p <= q
    ensures LevelIndex(ActivityLevelOf(p)) <= LevelIndex(ActivityLevelOf(q))
  {
    ActivityCountsThresholds(p);
    ActivityCountsThresholds(q);
    CountMonotone(ActivityThresholds, (t: int) => t <= p, (t: int) => t <= q);
  }

  /** Distinct levels have distinct labels. */
  lemma ActivityLabelsDistinct(a: ActivityLevel, b: ActivityLevel)
    ensures ActivityLabel(a) == ActivityLabel(b) ==> a == b
  {
  }

  datatype StatsResponse =
    | StatsFarmerNotFound
    | Stats(totalPoints: int, rank: FarmerRank, badgesEarned: nat, rewardsRedeemed: nat,
            questsCompleted: nat, activity: ActivityLevel)

  /** `farmer_stats`: the farmer's points, all-time rank, counts of badges,
      redemptions and completed quests, and activity level. */
  function FarmerStats(fs: seq<Farmers.Farmer>, table: seq<LeaderboardRow>, fbs: seq<FarmerBadge>,
                       frs: seq<FarmerReward>, fqs: seq<Quests.FarmerQuest>, farmerId: nat): (s: StatsResponse)
    ensures s.StatsFarmerNotFound? <==> forall i :: 0 <= i < |fs| ==> fs[i].id != farmerId
    ensures s.Stats? ==>
      (exists i :: 0 <= i < |fs| && fs[i].id == farmerId &&
                   s.totalPoints == fs[i].totalPoints && s.activity == ActivityLevelOf(fs[i].totalPoints))
    ensures s.Stats? ==> s.rank == RankOf(table, farmerId)
    ensures s.Stats? ==> s.badgesEarned <= |fbs| && s.rewardsRedeemed <= |frs| && s.questsCompleted <= |fqs|
    ensures s.Stats? ==> s.badgesEarned == |set i | 0 <= i < |fbs| && fbs[i].farmer == farmerId|
    ensures s.Stats? ==> s.rewardsRedeemed == |set i | 0 <= i < |frs| && frs[i].farmer == farmerId|
    ensures s.Stats? ==>
      s.questsCompleted == |set i | 0 <= i < |fqs| && fqs[i].farmer == farmerId && fqs[i].status == Quests.Completed|
    ensures s.Stats? ==> (s.badgesEarned == 0 <==> forall i :: 0 <= i < |fbs| ==> fbs[i].farmer != farmerId)
    ensures s.Stats? ==> (s.rewardsRedeemed == 0 <==> forall i :: 0 <= i < |frs| ==> frs[i].farmer != farmerId)
    ensures s.Stats? ==> (s.questsCompleted == 0 <==>
      forall i :: 0 <= i < |fqs| ==> fqs[i].farmer != farmerId || fqs[i].status != Quests.Completed)
  {
    match FindFirst(fs, (f: Farmers.Farmer) => f.id == farmerId)
    case None => StatsFarmerNotFound
    case Some(k) =>
      var f := fs[k];
      OwnedCounts(fbs, frs, fqs, farmerId);
      Stats(f.totalPoints, RankOf(table, farmerId),
            Count(fbs, (fb: FarmerBadge) => fb.farmer == farmerId),
            Count(frs, (fr: FarmerReward) => fr.farmer == farmerId),
            Count(fqs, (fq: Quests.FarmerQuest) => fq.farmer == farmerId && fq.status == Quests.Completed),
            ActivityLevelOf(f.totalPoints))
  }

  /** The three counts of the statistics are numbers of table rows. */
  lemma OwnedCounts(fbs: seq<FarmerBadge>, frs: seq<FarmerReward>, fqs: seq<Quests.FarmerQuest>, farmerId: nat)
    ensures Count(fbs, (fb: FarmerBadge) => fb.farmer == farmerId) ==
      |set i | 0 <= i < |fbs| && fbs[i].farmer == farmerId|
    ensures Count(frs, (fr: FarmerReward) => fr.farmer == farmerId) ==
      |set i | 0 <= i < |frs| && frs[i].farmer == farmerId|
    ensures Count(fqs, (fq: Quests.FarmerQuest) => fq.farmer == farmerId && fq.status == Quests.Completed) ==
      |set i | 0 <= i < |fqs| && fqs[i].farmer == farmerId && fqs[i].status == Quests.Completed|
  {
    BadgeCount(fbs, farmerId);
    RewardCount(frs, farmerId);
    CompletedCount(fqs, farmerId);
  }

  lemma BadgeCount(fbs: seq<FarmerBadge>, farmerId: nat)
    ensures Count(fbs, (fb: FarmerBadge) => fb.farmer == farmerId) ==
      |set i | 0 <= i < |fbs| && fbs[i].farmer == farmerId|
  {
    var p := (fb: FarmerBadge) => fb.farmer == farmerId;
    CountPositions(fbs, p);
    assert Positions(fbs, p) == set i | 0 <= i < |fbs| && fbs[i].farmer == farmerId;
  }

  lemma RewardCount(frs: seq<FarmerReward>, farmerId: nat)
    ensures Count(frs, (fr: FarmerReward) => fr.farmer == farmerId) ==
      |set i | 0 <= i < |frs| && frs[i].farmer == farmerId|
  {
    var p := (fr: FarmerReward) => fr.farmer == farmerId;
    CountPositions(frs, p);
    assert Positions(frs, p) == set i | 0 <= i < |frs| && frs[i].farmer == farmerId;
  }

  lemma CompletedCount(fqs: seq<Quests.FarmerQuest>, farmerId: nat)
    ensures Count(fqs, (fq: Quests.FarmerQuest) => fq.farmer == farmerId && fq.status == Quests.Completed) ==
      |set i | 0 <= i < |fqs| && fqs[i].farmer == farmerId && fqs[i].status == Quests.Completed|
  {
    var p := (fq: Quests.FarmerQuest) => fq.farmer == farmerId && fq.status == Quests.Completed;
    CountPositions(fqs, p);
    assert Positions(fqs, p) == set i | 0 <= i < |fqs| && fqs[i].farmer == farmerId && fqs[i].status == Quests.Completed;
  }

  // ---------------------------------------------------------------------
  // Farmer badges

  datatype BadgesResponse =
    | BadgesFarmerNotFound
    | BadgeList(badges: seq<Badge>, farmerBadges: seq<FarmerBadge>, rows: seq<FarmerBadge>, total: nat)

  /** `farmer_badges`: the farmer's badges; a farmer holding none is first
      given the initial badges. */
  function FarmerBadges(fs: seq<Farmers.Farmer>, badges: seq<Badge>, fbs: seq<FarmerBadge>,
                        farmerId: nat, now: int): (v: BadgesResponse)
    ensures v.BadgesFarmerNotFound? <==> forall i :: 0 <= i < |fs| ==> fs[i].id != farmerId
    ensures v.BadgeList? ==> v.total == |v.rows| && v.rows == Filter(v.farmerBadges, (fb: FarmerBadge) => fb.farmer == farmerId)
    ensures v.BadgeList? && (exists i :: 0 <= i < |fbs| && fbs[i].farmer == farmerId) ==>
      v.badges == badges && v.farmerBadges == fbs
    ensures v.BadgeList? ==> |badges| <= |v.badges| && v.badges[..|badges|] == badges
    ensures v.BadgeList? ==> |fbs| <= |v.farmerBadges| && v.farmerBadges[..|fbs|] == fbs
    ensures v.BadgeList? && UniqueFarmerBadges(fbs) ==> UniqueFarmerBadges(v.farmerBadges)
  {
    match FindFirst(fs, (f: Farmers.Farmer) => f.id == farmerId)
    case None => BadgesFarmerNotFound
    case Some(k) =>
      var owned := (fb: FarmerBadge) => fb.farmer == farmerId;
      FilterEmpty(fbs, owned);
      if Filter(fbs, owned) != [] then
        BadgeList(badges, fbs, Filter(fbs, owned), |Filter(fbs, owned)|)
      else
        var r := AwardInitialBadges(badges, fbs, fs[k], now);
        BadgeList(r.0, r.1, Filter(r.1, owned), |Filter(r.1, owned)|)
  }

  /** The listed badges are exactly the farmer's rows of the farmer-badge
      table, and a farmer with none beforehand is given every initial badge
      whose stored threshold their points reach. */
  lemma FarmerBadgesRows(fs: seq<Farmers.Farmer>, badges: seq<Badge>, fbs: seq<FarmerBadge>,
                         farmerId: nat, now: int)
    ensures var v := FarmerBadges(fs, badges, fbs, farmerId, now);
      v.BadgeList? ==>
        && (forall i :: 0 <= i < |v.rows| ==> v.rows[i].farmer == farmerId && v.rows[i] in v.farmerBadges)
        && (forall i :: 0 <= i < |v.farmerBadges| && v.farmerBadges[i].farmer == farmerId ==>
              v.farmerBadges[i] in v.rows)
    ensures var v := FarmerBadges(fs, badges, fbs, farmerId, now);
      v.BadgeList? && (forall i :: 0 <= i < |fbs| ==> fbs[i].farmer != farmerId) ==>
        forall s :: 0 <= s < |InitialBadges| ==>
          exists i :: 0 <= i < |fs| && fs[i].id == farmerId && Settled(InitialBadges[s], v.badges, v.farmerBadges, fs[i])
  {
    var v := FarmerBadges(fs, badges, fbs, farmerId, now);
    if v.BadgeList? {
      FilterMembers(v.farmerBadges, (fb: FarmerBadge) => fb.farmer == farmerId);
      if forall i :: 0 <= i < |fbs| ==> fbs[i].farmer != farmerId {
        var k := FindFirst(fs, (f: Farmers.Farmer) => f.id == farmerId).value;
        FilterEmpty(fbs, (fb: FarmerBadge) => fb.farmer == farmerId);
        AwardSettles(InitialBadges, badges, fbs, fs[k], now);
      }
    }
  }
}

=== FILE: leaderboard_page.dfy ===
/** The leaderboard page of the web client: rank icons and rank badges, the
    three-place podium, the "You" marker and the comparison of the user's
    points with the average. */
module LeaderboardPage {
  import opened Common
  import opened Text
  import opened AuthContext

  datatype LeaderboardEntry = LeaderboardEntry(
    rank: int,
    farmerId: string,
    name: string,
    village: string,
    totalPoints: int,
    level: int,
    badgesCount: int,
    questsCompleted: int,
    streakDays: int)

  // ---------------------------------------------------------------------
  // Rank icon and rank badge

  datatype RankIcon = Crown | SilverMedal | BronzeMedal | RankNumber(text: string)

  /** `getRankIcon`: a crown for the first, medals for the second and third,
      otherwise the rank as "#n". */
  function RankIconOf(rank: int): (r: RankIcon)
    ensures r == Crown <==> rank == 1
    ensures r.RankNumber? <==> rank != 1 && rank != 2 && rank != 3
    ensures r.RankNumber? ==> r.text == "#" + IntText(rank)
  {
    if rank == 1 then Crown
    else if rank == 2 then SilverMedal
    else if rank == 3 then BronzeMedal
    else RankNumber("#" + IntText(rank))
  }

  datatype Variant = Default | Secondary | Outline

  const ChampionText: string := "\U{1F947} Champion"
  const TopThreeText: string := "\U{1F3C6} Top 3"
  const TopTenText: string := "\U{2B50} Top 10"

  /** `getRankBadge`: Champion for the first, Top 3 up to the third, Top 10
      up to the tenth, otherwise the rank as "#n". */
  function RankBadge(rank: int): (b: (Variant, string))
    ensures b.1 == ChampionText <==> rank == 1
    ensures b.1 == TopThreeText <==> rank != 1 && rank <= 3
    ensures b.1 == TopTenText <==> 3 < rank <= 10
    ensures rank > 10 ==> b == (Outline, "#" + IntText(rank))
  {
    if rank == 1 then (Default, ChampionText)
    else if rank <= 3 then (Secondary, TopThreeText)
    else if rank <= 10 then (Outline, TopTenText)
    else
      assert ("#" + IntText(rank))[0] == '#';
      assert ChampionText[0] != '#' && TopThreeText[0] != '#' && TopTenText[0] != '#';
      (Outline, "#" + IntText(rank))
  }

  /** The standing a badge gives: 3 for Champion down to 0 for a plain
      rank. */
  function Tier(b: (Variant, string)): nat {
    if b.1 == ChampionText then 3
    else if b.1 == TopThreeText then 2
    else if b.1 == TopTenText then 1
    else 0
  }

  /** From rank 1 on, a better rank never has a lesser badge. */
  lemma RankBadgeMonotone(r1: int, r2: int)
    requires 1 <= r1 <= r2
    ensures Tier(RankBadge(r1)) >= Tier(RankBadge(r2))
  {
    var b2 := RankBadge(r2);
    if r2 > 10 {
      assert b2.1[0] == '#';
      assert ChampionText[0] != '#' && TopThreeText[0] != '#' && TopTenText[0] != '#';
    }
  }

  /** For real ranks the icon and the badge agree: a crown exactly for the
      Champion, a medal exactly for the other Top 3 places. */
  lemma RankIconMatchesBadge(rank: int)
    requires rank >= 1
    ensures RankIconOf(rank) == Crown <==> RankBadge(rank).1 == ChampionText
    ensures (RankIconOf(rank) == SilverMedal || RankIconOf(rank) == BronzeMedal) <==> RankBadge(rank).1 == TopThreeText
  {
  }

  /** The "#n" text of a plain rank reads back as the rank. */
  lemma RankNumberReadsBack(rank: int)
    requires rank > 3
    ensures var t := RankIconOf(rank).text;
      t[0] == '#' && DigitsValue(t[1..]) == rank
  {
    IntTextRoundTrip(rank);
    assert RankIconOf(rank).text[1..] == IntText(rank);
  }

  // ---------------------------------------------------------------------
  // The podium

  /** The leaderboard positions the three podium places show, left to
      right: second, first, third. */
  const PodiumPositions: seq<nat> := [1, 0, 2]

  /** The podium as written: place `i` of the first three entries shows the
      entry at `PodiumPositions[i]`. `None` is a rendering failure: a place
      reads a position the leaderboard does not have. */
  function PodiumAsWritten(entries: seq<LeaderboardEntry>): (r: Option<seq<LeaderboardEntry>>)
    ensures r.Some? <==> |entries| != 1
    ensures r.Some? ==> |r.value| == Min(3, |entries|)
    ensures r.Some? ==> forall i :: 0 <= i < |r.value| ==>
      PodiumPositions[i] < |entries| && r.value[i] == entries[PodiumPositions[i]]
  {
    var k := Min(3, |entries|);
    assert PodiumPositions[0] == 1 && PodiumPositions[1] == 0 && PodiumPositions[2] == 2;
    if forall i :: 0 <= i < k ==> PodiumPositions[i] < |entries| then
      Some(seq(k, i requires 0 <= i < k => entries[PodiumPositions[i]]))
    else None
  }

  /** With exactly one entry the first place reads the second entry, which
      does not exist. */
  lemma PodiumAsWrittenFailsOnOne(e: LeaderboardEntry)
    ensures PodiumAsWritten([e]).None?
  {
    assert PodiumPositions[0] == 1;
  }

  /** The podium as intended: the places whose positions exist. */
  function Podium(entries: seq<LeaderboardEntry>): (r: seq<LeaderboardEntry>)
    ensures multiset(r) == multiset(entries[..Min(3, |entries|)])
    ensures |entries| >= 2 ==> r[1] == entries[0]
    ensures |entries| == 1 ==> r == [entries[0]]
  {
    var n := |entries|;
    if n == 0 then []
    else if n == 1 then
      assert entries[..1] == [entries[0]];
      [entries[0]]
    else if n == 2 then
      assert entries[..2] == [entries[0]] + [entries[1]];
      assert [entries[1], entries[0]] == [entries[1]] + [entries[0]];
      [entries[1], entries[0]]
    else
      assert entries[..3] == [entries[0]] + [entries[1]] + [entries[2]];
      assert [entries[1], entries[0], entries[2]] == [entries[1]] + [entries[0]] + [entries[2]];
      [entries[1], entries[0], entries[2]]
  }

  /** Wherever the page as written renders, it renders the intended podium;
      with three or more entries that is second, first, third. */
  lemma PodiumAgrees(entries: seq<LeaderboardEntry>)
    requires |entries| != 1
    ensures PodiumAsWritten(entries) == Some(Podium(entries))
    ensures |entries| >= 3 ==> Podium(entries) == [entries[1], entries[0], entries[2]]
  {
    assert PodiumPositions[0] == 1 && PodiumPositions[1] == 0 && PodiumPositions[2] == 2;
    var w := PodiumAsWritten(entries).value;
    var p := Podium(entries);
    assert |w| == |p|;
    forall i | 0 <= i < |w| ensures w[i] == p[i] {
    }
    assert w == p;
  }

  // ---------------------------------------------------------------------
  // The "You" marker

  /** A row is the user's when its farmer id is the signed-in user's id. */
  predicate IsCurrentUser(e: LeaderboardEntry, user: Option<UserRecord>) {
    user.Some? && e.farmerId == user.value.id
  }

  function MarkedBy(user: Option<UserRecord>): LeaderboardEntry -> bool {
    (e: LeaderboardEntry) => IsCurrentUser(e, user)
  }

  predicate DistinctFarmers(entries: seq<LeaderboardEntry>) {
    forall i, j :: 0 <= i < j < |entries| ==> entries[i].farmerId != entries[j].farmerId
  }

  /** On a leaderboard of distinct farmers at most one row says "You", and
      none without a signed-in user. */
  lemma {:induction false} AtMostOneYou(entries: seq<LeaderboardEntry>, user: Option<UserRecord>)
    requires DistinctFarmers(entries)
    ensures Count(entries, MarkedBy(user)) <= 1
    ensures user.None? ==> Count(entries, MarkedBy(user)) == 0
    decreases |entries|
  {
    if |entries| > 0 {
      var rest := entries[1..];
      assert DistinctFarmers(rest) by {
        forall i, j | 0 <= i < j < |rest| ensures rest[i].farmerId != rest[j].farmerId {
          assert rest[i] == entries[i + 1] && rest[j] == entries[j + 1];
        }
      }
      AtMostOneYou(rest, user);
      if IsCurrentUser(entries[0], user) {
        forall i | 0 <= i < |rest| ensures !IsCurrentUser(rest[i], user) {
          assert rest[i] == entries[i + 1];
        }
        assert Count(rest, MarkedBy(user)) == 0;
      }
    }
  }

  // ---------------------------------------------------------------------
  // Points against the average

  /** The user's points as shown: missing points read as 0. */
  function UserPoints(user: Option<UserRecord>): (p: int)
    ensures user.None? ==> p == 0
    ensures user.Some? && user.value.totalPoints.Some? ==> p == user.value.totalPoints.value
    ensures user.Some? && user.value.totalPoints.None? ==> p == 0
  {
    if user.Some? && user.value.totalPoints.Some? then user.value.totalPoints.value else 0
  }

  /** The "vs average" value as written: the difference of the user's
      points and the average, with a '+' put in front when the average is
      above the user's points. */
  function VsAverageAsWritten(average: int, points: int): (r: string)
    ensures |r| >= 1
  {
    (if average > points then "+" else "") + IntText(points - average)
  }

  /** Below the average the text carries both signs, "+-"; above it, no
      '+' at all. */
  lemma VsAverageAsWrittenSigns(average: int, points: int)
    ensures average > points ==> VsAverageAsWritten(average, points)[..2] == "+-"
    ensures average < points ==> VsAverageAsWritten(average, points)[0] != '+'
  {
  }

  /** The value as intended: '+' in front exactly when the user is above the
      average. */
  function VsAverage(average: int, points: int): (r: string)
    ensures |r| > 0
    ensures r[0] == '+' <==> points > average
    ensures r[0] == '-' <==> points < average
    ensures r == "0" <==> points == average
  {
    var d := IntText(points - average);
    if points > average then
      assert d[0] != '-';
      "+" + d
    else d
  }

  /** The intended value reads back as the user's points minus the
      average. */
  lemma VsAverageReadsBack(average: int, points: int)
    ensures var r := VsAverage(average, points);
      var digits := if r[0] == '+' || r[0] == '-' then r[1..] else r;
      (if r[0] == '-' then 0 - DigitsValue(digits) as int else DigitsValue(digits) as int) == points - average
  {
    IntTextRoundTrip(points - average);
    if points > average {
      assert VsAverage(average, points)[1..] == IntText(points - average);
    }
  }
}

=== FILE: predictions.dfy ===
/** Crop predictions: the dummy predictions made for a farmer's first three
    crops (one per prediction template), the farmer's listing that makes
    them when none is valid, and the summary of a listing. */
module Predictions {
  import opened Common
  import opened Text
  import opened Sorting
  import Farmers

  datatype PredictionType = CropYield | Rainfall | MarketPrice | PestRisk | SoilHealth

  function PredictionTypeCode(t: PredictionType): string {
    match t
    case CropYield => "crop_yield"
    case Rainfall => "rainfall"
    case MarketPrice => "market_price"
    case PestRisk => "pest_risk"
    case SoilHealth => "soil_health"
  }

  function ParsePredictionType(code: string): (r: Option<PredictionType>)
    ensures r.Some? ==> PredictionTypeCode(r.value) == code
  {
    if code == "crop_yield" then Some(CropYield)
    else if code == "rainfall" then Some(Rainfall)
    else if code == "market_price" then Some(MarketPrice)
    else if code == "pest_risk" then Some(PestRisk)
    else if code == "soil_health" then Some(SoilHealth)
    else None
  }

  lemma PredictionTypeCodeRoundTrip(t: PredictionType)
    ensures ParsePredictionType(PredictionTypeCode(t)) == Some(t)
  {
  }

  /** A stored prediction; times are abstract instants in seconds. The
      floating-point confidence score is not part of this model. */
  datatype Prediction = Prediction(
    farmer: nat,
    kind: PredictionType,
    cropName: string,
    value: string,
    sustainabilityScore: int,
    season: string,
    createdAt: int,
    validUntil: int)

  /** A template: the kind, the values one is picked from, and the
      inclusive range of the sustainability score. */
  datatype Template = Template(kind: PredictionType, values: seq<string>, minScore: int, maxScore: int)

  /** The rupee sign. */
  const Rupee: char := '\U{20B9}'

  const Templates: seq<Template> := [
    Template(CropYield, ["+15%", "+22%", "+8%", "-5%", "+18%"], 70, 95),
    Template(Rainfall, ["120mm expected", "85mm expected", "150mm expected", "95mm expected"], 60, 80),
    Template(MarketPrice, [[Rupee] + "2,500/quintal", [Rupee] + "1,850/quintal",
                           [Rupee] + "3,200/quintal", [Rupee] + "2,100/quintal"], 50, 75),
    Template(PestRisk, ["Low Risk", "Medium Risk", "High Risk", "Very Low Risk"], 65, 90)
  ]

  const TemplateCount: nat := 4
  const CropLimit: nat := 3
  const GeneratedSeason: string := "Kharif 2024"

  /** Validity of a generated prediction: thirty days, in seconds. */
  const ValiditySeconds: int := 30 * 86400

  /** The crops predictions are made for: the comma-separated crop text
      split, trimmed and without empty items, first three only. */
  function PredictionCrops(crops: string): (r: seq<string>)
    ensures |r| == Min(CropLimit, |ParseList(crops)|)
    ensures forall i :: 0 <= i < |r| ==> r[i] == ParseList(crops)[i] && CleanItem(r[i])
  {
    Take(ParseList(crops), CropLimit)
  }

  /** What one `create` takes from outside: the index of the value picked,
      the score, and the clock reading `at` that stamps the row. */
  datatype Draw = Draw(valueIndex: nat, score: int, at: int)

  /** The draws a generation may use: one per prediction, each picking an
      existing value and a score in the template's range; the clock never
      runs backwards and reads no earlier than the request's time `now`
      (a coarse clock may read the same instant twice). */
  predicate DrawsFit(draws: seq<Draw>, cropCount: nat, now: int) {
    && |draws| == TemplateCount * cropCount
    && (forall k :: 0 <= k < |draws| ==>
         draws[k].valueIndex < |Templates[k % TemplateCount].values| &&
         Templates[k % TemplateCount].minScore <= draws[k].score <= Templates[k % TemplateCount].maxScore)
    && (forall k :: 0 <= k < |draws| ==> now <= draws[k].at)
    && (forall i, j :: 0 <= i < j < |draws| ==> draws[i].at <= draws[j].at)
  }

  /** `generate_dummy_predictions`: for each used crop in order, one
      prediction per template in template order, each stamped with its own
      clock reading. */
  function GeneratePredictions(farmer: Farmers.Farmer, draws: seq<Draw>, now: int): (r: seq<Prediction>)
    requires DrawsFit(draws, |PredictionCrops(farmer.crops)|, now)
    ensures |r| == TemplateCount * |PredictionCrops(farmer.crops)|
    ensures forall k :: 0 <= k < |r| ==>
      && r[k].farmer == farmer.id
      && r[k].cropName == PredictionCrops(farmer.crops)[k / TemplateCount]
      && r[k].kind == Templates[k % TemplateCount].kind
      && r[k].value in Templates[k % TemplateCount].values
      && Templates[k % TemplateCount].minScore <= r[k].sustainabilityScore <= Templates[k % TemplateCount].maxScore
      && r[k].createdAt == draws[k].at && r[k].validUntil == draws[k].at + ValiditySeconds
    ensures forall i, j :: 0 <= i < j < |r| ==> r[i].createdAt <= r[j].createdAt
    ensures forall k :: 0 <= k < |r| ==> r[k].validUntil > now
  {
    var crops := PredictionCrops(farmer.crops);
    seq(TemplateCount * |crops|, k requires 0 <= k < TemplateCount * |crops| =>
      var t := Templates[k % TemplateCount];
      Prediction(farmer.id, t.kind, crops[k / TemplateCount], t.values[draws[k].valueIndex],
                 draws[k].score, GeneratedSeason, draws[k].at, draws[k].at + ValiditySeconds))
  }

  /** Each used crop gets exactly the four template kinds, in order, and
      at most twelve predictions are made. */
  lemma GeneratedPerCrop(farmer: Farmers.Farmer, draws: seq<Draw>, now: int, c: nat, t: nat)
    requires DrawsFit(draws, |PredictionCrops(farmer.crops)|, now)
    requires c < |PredictionCrops(farmer.crops)| && t < TemplateCount
    ensures var r := GeneratePredictions(farmer, draws, now);
      TemplateCount * c + t < |r| &&
      r[TemplateCount * c + t].cropName == PredictionCrops(farmer.crops)[c] &&
      r[TemplateCount * c + t].kind == Templates[t].kind
    ensures |GeneratePredictions(farmer, draws, now)| <= 12
  {
    var r := GeneratePredictions(farmer, draws, now);
    var k := TemplateCount * c + t;
    PositionOf(c, t);
    assert k < |r|;
    assert r[k].cropName == PredictionCrops(farmer.crops)[k / TemplateCount];
    assert r[k].kind == Templates[k % TemplateCount].kind;
  }

  /** Position `4c + t` is template `t` of crop `c`. */
  lemma PositionOf(c: nat, t: nat)
    requires t < TemplateCount
    ensures (TemplateCount * c + t) / TemplateCount == c && (TemplateCount * c + t) % TemplateCount == t
  {
  }

  /** Whatever the draws, the sizes agree with the parsed crops: nothing for
      a farmer without crops, four per crop up to three crops. */
  lemma GeneratedCount(farmer: Farmers.Farmer, draws: seq<Draw>, now: int)
    requires DrawsFit(draws, |PredictionCrops(farmer.crops)|, now)
    ensures var n := |ParseList(farmer.crops)|;
      |GeneratePredictions(farmer, draws, now)| == (if n >= CropLimit then 12 else 4 * n)
    ensures GeneratePredictions(farmer, draws, now) == [] <==> ParseList(farmer.crops) == []
  {
  }

  /** A farmer's current predictions: those still valid, newest first. */
  function CurrentPredictions(table: seq<Prediction>, farmer: nat, now: int): (r: seq<Prediction>)
    ensures forall i :: 0 <= i < |r| ==> r[i].farmer == farmer && r[i].validUntil > now
    ensures forall i, j :: 0 <= i < j < |r| ==> r[i].createdAt >= r[j].createdAt
    ensures multiset(r) == multiset(Filter(table, (p: Prediction) => p.farmer == farmer && p.validUntil > now))
  {
    var current := (p: Prediction) => p.farmer == farmer && p.validUntil > now;
    FilterMembers(table, current);
    var r := SortDesc(Filter(table, current), (p: Prediction) => p.createdAt);
    assert forall i :: 0 <= i < |r| ==> r[i] in multiset(Filter(table, current));
    r
  }

  /** The summary of a listing. Averages are floating point and not part of
      this model; the count and the newest time are. */
  datatype Summary = EmptySummary | Summary(totalPredictions: nat, lastUpdated: int)

  /** `generate_prediction_summary`. */
  function PredictionSummary(ps: seq<Prediction>): (s: Summary)
    ensures s.EmptySummary? <==> ps == []
    ensures s.Summary? ==> s.totalPredictions == |ps| && s.lastUpdated == ps[0].createdAt
  {
    if ps == [] then EmptySummary else Summary(|ps|, ps[0].createdAt)
  }

  /** A summary of a newest-first listing reports its newest time. */
  lemma SummaryNewest(table: seq<Prediction>, farmer: nat, now: int)
    ensures var ps := CurrentPredictions(table, farmer, now);
      var s := PredictionSummary(ps);
      s.Summary? ==> forall i :: 0 <= i < |ps| ==> ps[i].createdAt <= s.lastUpdated
  {
    var ps := CurrentPredictions(table, farmer, now);
    forall i | 0 < i < |ps| ensures ps[i].createdAt <= ps[0].createdAt {
    }
  }

  datatype PredictionsResponse =
    | PredictionsFarmerNotFound
    | PredictionList(table: seq<Prediction>, predictions: seq<Prediction>, summary: Summary)

  /** `farmer_predictions`: the farmer's current predictions; when none is
      current, dummy ones are generated first. */
  function FarmerPredictions(fs: seq<Farmers.Farmer>, table: seq<Prediction>, farmerId: nat,
                             draws: seq<Draw>, now: int): (v: PredictionsResponse)
    requires forall i :: 0 <= i < |fs| ==> DrawsFit(draws, |PredictionCrops(fs[i].crops)|, now) || fs[i].id != farmerId
    ensures v.PredictionsFarmerNotFound? <==> forall i :: 0 <= i < |fs| ==> fs[i].id != farmerId
    ensures v.PredictionList? ==> v.summary == PredictionSummary(v.predictions)
    ensures v.PredictionList? ==> v.predictions == CurrentPredictions(v.table, farmerId, now)
    ensures v.PredictionList? ==> |table| <= |v.table| && v.table[..|table|] == table
    ensures v.PredictionList? && CurrentPredictions(table, farmerId, now) != [] ==> v.table == table
  {
    match FindFirst(fs, (f: Farmers.Farmer) => f.id == farmerId)
    case None => PredictionsFarmerNotFound
    case Some(k) =>
      var current := CurrentPredictions(table, farmerId, now);
      if current != [] then PredictionList(table, current, PredictionSummary(current))
      else
        var t := table + GeneratePredictions(fs[k], draws, now);
        assert t[..|table|] == table;
        var listed := CurrentPredictions(t, farmerId, now);
        PredictionList(t, listed, PredictionSummary(listed))
  }

  /** A farmer with crops and no current prediction gets a non-empty
      listing: the freshly generated predictions are current. */
  lemma FreshPredictionsListed(fs: seq<Farmers.Farmer>, table: seq<Prediction>, farmerId: nat,
                               draws: seq<Draw>, now: int, i: nat)
    requires forall j :: 0 <= j < |fs| ==> DrawsFit(draws, |PredictionCrops(fs[j].crops)|, now) || fs[j].id != farmerId
    requires i < |fs| && fs[i].id == farmerId && ParseList(fs[i].crops) != []
    requires forall j :: 0 <= j < i ==> fs[j].id != farmerId
    ensures var v := FarmerPredictions(fs, table, farmerId, draws, now);
      v.PredictionList? && v.summary.Summary?
  {
    if CurrentPredictions(table, farmerId, now) == [] {
      var gen := GeneratePredictions(fs[i], draws, now);
      GeneratedListing(fs, table, farmerId, draws, now, i);
      assert |gen| > 0;
      assert (table + gen)[|table|] == gen[0];
      CurrentNonEmpty(table + gen, farmerId, now, |table|);
    }
  }

  /** With no current prediction, the view lists the table with the
      farmer's generated predictions appended. */
  lemma GeneratedListing(fs: seq<Farmers.Farmer>, table: seq<Prediction>, farmerId: nat,
                         draws: seq<Draw>, now: int, i: nat)
    requires forall j :: 0 <= j < |fs| ==> DrawsFit(draws, |PredictionCrops(fs[j].crops)|, now) || fs[j].id != farmerId
    requires i < |fs| && fs[i].id == farmerId
    requires forall j :: 0 <= j < i ==> fs[j].id != farmerId
    requires CurrentPredictions(table, farmerId, now) == []
    ensures var t := table + GeneratePredictions(fs[i], draws, now);
      var listed := CurrentPredictions(t, farmerId, now);
      FarmerPredictions(fs, table, farmerId, draws, now) == PredictionList(t, listed, PredictionSummary(listed))
  {
    assert FindFirst(fs, (f: Farmers.Farmer) => f.id == farmerId) == Some(i);
  }

  /** A stored prediction of the farmer that is still valid is listed. */
  lemma CurrentNonEmpty(t: seq<Prediction>, farmer: nat, now: int, k: nat)
    requires k < |t| && t[k].farmer == farmer && t[k].validUntil > now
    ensures CurrentPredictions(t, farmer, now) != []
  {
    var current := (p: Prediction) => p.farmer == farmer && p.validUntil > now;
    FilterEmpty(t, current);
    assert Filter(t, current) != [];
    assert Filter(t, current)[0] in multiset(Filter(t, current));
  }

  /** Appending current rows of the farmer to a table without any: the
      listing is those rows, newest first. */
  lemma ListingOfAppended(table: seq<Prediction>, gen: seq<Prediction>, farmer: nat, now: int)
    requires CurrentPredictions(table, farmer, now) == []
    requires forall k :: 0 <= k < |gen| ==> gen[k].farmer == farmer && gen[k].validUntil > now
    ensures CurrentPredictions(table + gen, farmer, now) == SortDesc(gen, (p: Prediction) => p.createdAt)
  {
    var current := (p: Prediction) => p.farmer == farmer && p.validUntil > now;
    assert Filter(table, current) == [] by {
      assert multiset(Filter(table, current)) == multiset{};
    }
    FilterConcat(table, gen, current);
    FilterAll(gen, current);
    assert Filter(table + gen, current) == gen;
  }

  /** When each row is stamped later than the one before, the listing that
      follows a generation is the generated rows in reverse: the last
      crop's pest-risk prediction first. */
  lemma FreshListingReversed(fs: seq<Farmers.Farmer>, table: seq<Prediction>, farmerId: nat,
                             draws: seq<Draw>, now: int, i: nat)
    requires forall j :: 0 <= j < |fs| ==> DrawsFit(draws, |PredictionCrops(fs[j].crops)|, now) || fs[j].id != farmerId
    requires i < |fs| && fs[i].id == farmerId
    requires forall j :: 0 <= j < i ==> fs[j].id != farmerId
    requires CurrentPredictions(table, farmerId, now) == []
    requires forall j, k :: 0 <= j < k < |draws| ==> draws[j].at < draws[k].at
    ensures var v := FarmerPredictions(fs, table, farmerId, draws, now);
      v.PredictionList? && v.predictions == Reverse(GeneratePredictions(fs[i], draws, now))
  {
    var gen := GeneratePredictions(fs[i], draws, now);
    GeneratedListing(fs, table, farmerId, draws, now, i);
    ListingOfAppended(table, gen, farmerId, now);
    assert forall j, k :: 0 <= j < k < |gen| ==> gen[j].createdAt < gen[k].createdAt by {
      forall j, k | 0 <= j < k < |gen| ensures gen[j].createdAt < gen[k].createdAt {
        assert gen[j].createdAt == draws[j].at && gen[k].createdAt == draws[k].at;
      }
    }
    SortAscendingReverses(gen, (p: Prediction) => p.createdAt);
  }
}

=== FILE: predictions_page.dfy ===
/** The predictions page of the web client: the trend of a prediction's
    value, the colour of its confidence, the grade of its sustainability
    score and the icon of a weather condition. */
module PredictionsPage {
  import opened Text
  import Predictions

  // ---------------------------------------------------------------------
  // Trend of a value

  datatype Trend = Up | Down | Flat

  /** `getPredictionTrend`: rising when the value holds a '+', which is
      checked first, falling when it holds a '-', level otherwise. */
  function TrendOf(value: string): (t: Trend)
    ensures t == Up <==> '+' in value
    ensures t == Down <==> '+' !in value && '-' in value
    ensures t == Flat <==> '+' !in value && '-' !in value
  {
    ContainsChar(value, '+');
    ContainsChar(value, '-');
    if Contains(value, "+") then Up
    else if Contains(value, "-") then Down
    else Flat
  }

  /** A value with both signs counts as rising. */
  lemma PlusWins(a: string, b: string)
    ensures TrendOf(a + "+" + b + "-") == Up
  {
    assert (a + "+" + b + "-")[|a|] == '+';
  }

  /** A sign, if any, only as the first character. */
  predicate SignOnlyInFront(value: string) {
    value != "" && forall i :: 1 <= i < |value| ==> value[i] != '+' && value[i] != '-'
  }

  /** For such a value the trend is the sign in front. */
  lemma TrendOfFrontSign(value: string)
    requires SignOnlyInFront(value)
    ensures TrendOf(value) == Up <==> value[0] == '+'
    ensures TrendOf(value) == Down <==> value[0] == '-'
  {
    if '+' in value {
      var i :| 0 <= i < |value| && value[i] == '+';
    }
    if '-' in value {
      var i :| 0 <= i < |value| && value[i] == '-';
    }
  }

  lemma GeneratedSignsInFront(t: nat, v: nat)
    requires t < |Predictions.Templates| && v < |Predictions.Templates[t].values|
    ensures SignOnlyInFront(Predictions.Templates[t].values[v])
    ensures t != 0 ==> '+' !in Predictions.Templates[t].values[v] && '-' !in Predictions.Templates[t].values[v]
  {
    if t == 0 { YieldSigns(v); }
    else if t == 1 { RainfallSigns(v); }
    else if t == 2 { PriceSigns(v); }
    else { PestRiskSigns(v); }
  }

  lemma YieldSigns(v: nat)
    requires v < |Predictions.Templates[0].values|
    ensures SignOnlyInFront(Predictions.Templates[0].values[v])
  {
    assert Predictions.Templates[0].values == ["+15%", "+22%", "+8%", "-5%", "+18%"];
  }

  lemma RainfallSigns(v: nat)
    requires v < |Predictions.Templates[1].values|
    ensures SignOnlyInFront(Predictions.Templates[1].values[v])
    ensures '+' !in Predictions.Templates[1].values[v] && '-' !in Predictions.Templates[1].values[v]
  {
    assert Predictions.Templates[1].values == ["120mm expected", "85mm expected", "150mm expected", "95mm expected"];
  }

  lemma PriceSigns(v: nat)
    requires v < |Predictions.Templates[2].values|
    ensures SignOnlyInFront(Predictions.Templates[2].values[v])
    ensures '+' !in Predictions.Templates[2].values[v] && '-' !in Predictions.Templates[2].values[v]
  {
    var r := Predictions.Rupee;
    assert Predictions.Templates[2].values ==
      [[r] + "2,500/quintal", [r] + "1,850/quintal", [r] + "3,200/quintal", [r] + "2,100/quintal"];
  }

  lemma PestRiskSigns(v: nat)
    requires v < |Predictions.Templates[3].values|
    ensures SignOnlyInFront(Predictions.Templates[3].values[v])
    ensures '+' !in Predictions.Templates[3].values[v] && '-' !in Predictions.Templates[3].values[v]
  {
    assert Predictions.Templates[3].values == ["Low Risk", "Medium Risk", "High Risk", "Very Low Risk"];
  }

  /** On the values the server generates the trend is the sign in front:
      rising for "+n%", falling for "-5%", level for the rainfall, price
      and pest-risk texts. */
  lemma TrendOfGeneratedValues(t: nat, v: nat)
    requires t < |Predictions.Templates| && v < |Predictions.Templates[t].values|
    ensures var value := Predictions.Templates[t].values[v];
      && (TrendOf(value) == Up <==> value[0] == '+')
      && (TrendOf(value) == Down <==> value[0] == '-')
      && (Predictions.Templates[t].kind != Predictions.CropYield ==> TrendOf(value) == Flat)
  {
    GeneratedSignsInFront(t, v);
    TrendOfFrontSign(Predictions.Templates[t].values[v]);
    assert Predictions.Templates[t].kind != Predictions.CropYield ==> t != 0;
  }

  // ---------------------------------------------------------------------
  // Confidence colour and sustainability grade

  datatype Colour = Emerald | Orange | Red

  /** `getConfidenceColor`: at least 80 is emerald, at least 60 orange,
      anything lower red. */
  function ConfidenceColour(score: real): (c: Colour)
    ensures c == Emerald <==> score >= 80.0
    ensures c == Orange <==> 60.0 <= score < 80.0
    ensures c == Red <==> score < 60.0
  {
    if score >= 80.0 then Emerald
    else if score >= 60.0 then Orange
    else Red
  }

  datatype Grade = Poor | Fair | Good | Excellent

  function GradeRank(g: Grade): nat {
    match g
    case Poor => 0
    case Fair => 1
    case Good => 2
    case Excellent => 3
  }

  function GradeText(g: Grade): string {
    match g
    case Poor => "Poor"
    case Fair => "Fair"
    case Good => "Good"
    case Excellent => "Excellent"
  }

  /** `getSustainabilityBadge`: Excellent from 80, Good from 70, Fair from
      60, Poor below. */
  function SustainabilityGrade(score: real): (g: Grade)
    ensures g == Excellent <==> score >= 80.0
    ensures g == Good <==> 70.0 <= score < 80.0
    ensures g == Fair <==> 60.0 <= score < 70.0
    ensures g == Poor <==> score < 60.0
  {
    if score >= 80.0 then Excellent
    else if score >= 70.0 then Good
    else if score >= 60.0 then Fair
    else Poor
  }

  /** A higher score never gets a lower grade, nor a worse colour. */
  lemma GradeMonotone(a: real, b: real)
    requires a <= b
    ensures GradeRank(SustainabilityGrade(a)) <= GradeRank(SustainabilityGrade(b))
    ensures ConfidenceColour(a) == Emerald ==> ConfidenceColour(b) == Emerald
    ensures ConfidenceColour(b) == Red ==> ConfidenceColour(a) == Red
  {
  }

  /** Every sustainability score the server draws for a crop-yield
      prediction (70 to 95) grades at least Good. */
  lemma GeneratedYieldScoresAtLeastGood(score: int)
    requires Predictions.Templates[0].minScore <= score <= Predictions.Templates[0].maxScore
    ensures GradeRank(SustainabilityGrade(score as real)) >= GradeRank(Good)
  {
  }

  // ---------------------------------------------------------------------
  // Weather icon

  datatype WeatherIcon = Sun | Cloud | Droplets

  /** `getWeatherIcon`: by the lower-cased condition, sunny is the sun,
      rainy droplets, and every other condition, including cloudy and
      partly cloudy, a cloud. */
  function WeatherIconOf(condition: string): (i: WeatherIcon)
    ensures i == Sun <==> Lower(condition) == "sunny"
    ensures i == Droplets <==> Lower(condition) == "rainy"
  {
    var c := Lower(condition);
    if c == "sunny" then Sun
    else if c == "cloudy" || c == "partly cloudy" then Cloud
    else if c == "rainy" then Droplets
    else Cloud
  }

  /** The icon does not depend on letter case. */
  lemma WeatherIconIgnoresCase(condition: string)
    ensures WeatherIconOf(Upper(condition)) == WeatherIconOf(condition)
    ensures WeatherIconOf(Lower(condition)) == WeatherIconOf(condition)
  {
    LowerNormalises(condition);
    LowerOfUpper(condition);
  }

  lemma WeatherIconExamples()
    ensures WeatherIconOf("Sunny") == Sun && WeatherIconOf("RAINY") == Droplets
    ensures WeatherIconOf("Partly Cloudy") == Cloud && WeatherIconOf("Snow") == Cloud
  {
    assert Lower("Sunny") == "sunny";
    assert Lower("RAINY") == "rainy";
  }
}

=== FILE: profile_page.dfy ===
/** The profile page of the web client: the edit form, its save and cancel,
    the initials in the avatar and the progress bar towards the next level. */
module ProfilePage {
  import opened Common
  import opened Text
  import opened AuthContext

  // ---------------------------------------------------------------------
  // The edit form

  /** The editable fields; the crops are one comma-separated text. */
  datatype EditForm = EditForm(name: string, email: string, phone: string, village: string, crops: string)

  const CropSeparator: string := ", "

  /** The form filled from the signed-in user, or empty without one. */
  function FormOf(user: Option<UserRecord>): (f: EditForm)
    ensures user.None? ==> f == EditForm("", "", "", "", "")
    ensures user.Some? ==>
      f.name == user.value.name && f.email == user.value.email &&
      f.phone == user.value.phone && f.village == user.value.village
    ensures user.Some? && user.value.crops == [] ==> f.crops == ""
  {
    match user
    case None => EditForm("", "", "", "", "")
    case Some(u) => EditForm(u.name, u.email, u.phone, u.village, Join(u.crops, CropSeparator))
  }

  /** `handleEditToggle`: entering edit mode keeps the form; leaving it
      (cancel) resets the form from the user. */
  function EditToggle(editing: bool, form: EditForm, user: Option<UserRecord>): (r: (bool, EditForm))
    ensures r.0 == !editing
    ensures editing ==> r.1 == FormOf(user)
    ensures !editing ==> r.1 == form
  {
    (!editing, if editing then FormOf(user) else form)
  }

  /** `handleSaveProfile`: without a user nothing happens; otherwise the
      user keeps every field but the five the form edits, the crops are the
      parsed crop text, and edit mode ends. The result is what is passed to
      `updateUser`. */
  function SaveProfile(user: Option<UserRecord>, form: EditForm, editing: bool): (r: (Option<UserRecord>, bool))
    ensures user.None? ==> r == (None, editing)
    ensures user.Some? ==> r.0.Some? && !r.1
    ensures user.Some? ==> var u := user.value; var v := r.0.value;
      && v.id == u.id && v.username == u.username && v.pmKisanId == u.pmKisanId
      && v.totalPoints == u.totalPoints && v.level == u.level && v.isStaff == u.isStaff
      && v.name == form.name && v.email == form.email && v.phone == form.phone && v.village == form.village
      && (forall i :: 0 <= i < |v.crops| ==> CleanItem(v.crops[i]))
  {
    match user
    case None => (None, editing)
    case Some(u) =>
      (Some(u.(name := form.name, email := form.email, phone := form.phone, village := form.village,
               crops := ParseList(form.crops))), false)
  }

  /** A saved crop is a trimmed, non-empty piece of the crop text between
      commas, and every such piece is saved. */
  lemma SavedCrops(u: UserRecord, form: EditForm, editing: bool, parts: seq<string>, x: string)
    requires |parts| >= 1 && Join(parts, ",") == form.crops && Avoids(parts, ',')
    ensures var v := SaveProfile(Some(u), form, editing).0.value;
      x in v.crops <==> x != "" && exists j :: 0 <= j < |parts| && Trim(parts[j]) == x
  {
    SplitJoin(parts, ',');
    assert ParseList(form.crops) == TrimNonEmpty(parts);
    TrimNonEmptyMembers(parts, x);
  }

  /** Saving the form as it was filled leaves the user unchanged, when each
      crop is non-empty, trimmed and free of commas. */
  lemma SaveUneditedIsIdentity(u: UserRecord, editing: bool)
    requires forall i :: 0 <= i < |u.crops| ==> CleanItem(u.crops[i])
    ensures SaveProfile(Some(u), FormOf(Some(u)), editing).0 == Some(u)
  {
    ParseJoinRoundTrip(u.crops);
  }

  /** Cancelling an edit and then saving changes nothing (for clean crops). */
  lemma CancelThenSave(u: UserRecord, form: EditForm)
    requires forall i :: 0 <= i < |u.crops| ==> CleanItem(u.crops[i])
    ensures var (editing, f) := EditToggle(true, form, Some(u));
      !editing && SaveProfile(Some(u), f, editing).0 == Some(u)
  {
    SaveUneditedIsIdentity(u, false);
  }

  /** A crop with a comma does not survive the round trip: a single crop
      "a,b" is saved as the two crops "a" and "b". */
  lemma CommaCropIsSplit(u: UserRecord, a: string, b: string)
    requires CleanItem(a) && CleanItem(b) && u.crops == [a + "," + b]
    ensures SaveProfile(Some(u), FormOf(Some(u)), true).0.value.crops == [a, b]
  {
    var parts := [a, b];
    assert FormOf(Some(u)).crops == Join(parts, ",");
    SplitJoin(parts, ',');
    TrimNonEmptyCons(a, [b]);
    TrimNonEmptyCons(b, []);
    assert TrimNonEmpty(parts) == parts;
  }

  // ---------------------------------------------------------------------
  // Initials

  /** The first character of each non-empty piece, in order; an empty piece
      (two spaces in a row) contributes nothing. */
  function Firsts(parts: seq<string>): (r: string)
    ensures |r| <= |parts|
  {
    if parts == [] then ""
    else (if parts[0] == "" then "" else [parts[0][0]]) + Firsts(parts[1..])
  }

  /** `getInitials`: split on single spaces, take first characters, join
      and upper-case. */
  function Initials(name: string): (r: string)
    ensures |r| <= |Split(name, ' ')|
  {
    Upper(Firsts(Split(name, ' ')))
  }

  lemma {:induction false} FirstsOfWords(ws: seq<string>)
    requires forall i :: 0 <= i < |ws| ==> ws[i] != ""
    ensures |Firsts(ws)| == |ws|
    ensures forall i :: 0 <= i < |ws| ==> Firsts(ws)[i] == ws[i][0]
  {
    if ws != [] {
      FirstsOfWords(ws[1..]);
    }
  }

  /** For a name of non-empty words separated by single spaces, the
      initials are the upper-cased first letters of the words, one each. */
  lemma InitialsOfWords(ws: seq<string>)
    requires |ws| >= 1
    requires forall i :: 0 <= i < |ws| ==> ws[i] != "" && ' ' !in ws[i]
    ensures |Initials(Join(ws, " "))| == |ws|
    ensures forall i :: 0 <= i < |ws| ==> Initials(Join(ws, " "))[i] == UpperChar(ws[i][0])
  {
    SplitJoin(ws, ' ');
    FirstsOfWords(ws);
  }

  // ---------------------------------------------------------------------
  // Level progress

  const PointsPerLevel: int := 500

  /** `getLevelProgress`: the share, in percent, of the points of the
      current level earned so far, clamped to 0..100. Level `l` spans the
      points from (l-1)*500 to l*500. */
  function LevelProgress(level: int, points: int): (r: real)
    ensures 0.0 <= r <= 100.0
  {
    var current := (level - 1) * PointsPerLevel;
    var next := level * PointsPerLevel;
    var progress := ((points - current) as real / (next - current) as real) * 100.0;
    if progress < 0.0 then 0.0 else if progress > 100.0 then 100.0 else progress
  }

  /** The progress is 0 up to the start of the level, 100 from its end on,
      and grows by one percent every five points in between. */
  lemma LevelProgressPieces(level: int, points: int)
    ensures points <= (level - 1) * PointsPerLevel ==> LevelProgress(level, points) == 0.0
    ensures points >= level * PointsPerLevel ==> LevelProgress(level, points) == 100.0
    ensures (level - 1) * PointsPerLevel <= points <= level * PointsPerLevel ==>
      LevelProgress(level, points) == (points - (level - 1) * PointsPerLevel) as real / 5.0
  {
    var d := points - (level - 1) * PointsPerLevel;
    assert level * PointsPerLevel - (level - 1) * PointsPerLevel == 500;
    assert (d as real / 500.0) * 100.0 == d as real / 5.0;
  }

  /** More points never mean less progress. */
  lemma LevelProgressMonotone(level: int, p: int, q: int)
    requires p <= q
    ensures LevelProgress(level, p) <= LevelProgress(level, q)
  {
    LevelProgressPieces(level, p);
    LevelProgressPieces(level, q);
  }
}

=== FILE: quest_details.dfy ===
/** The quest details page of the web client: the rewriting of a quest's
    video address into an embeddable one, the classification of an upload
    by MIME type, and the order of requests when a proof is submitted. The
    URL parser and the server's answers are parameters. */
module QuestDetails {
  import opened Common
  import opened Text

  // ---------------------------------------------------------------------
  // Video addresses

  /** The parts of a parsed URL the page reads; `v` is the `v` query
      parameter, `None` when absent. */
  datatype Url = Url(hostname: string, pathname: string, v: Option<string>)

  const EmbedPrefix: string := "https://www.youtube.com/embed"

  /** `videoEmbedSrc`: no address gives the empty string; a YouTube watch
      address with a non-empty `v` and a short youtu.be address become embed
      addresses; every other address, including one that does not parse
      (`parse` returns `None`), is kept. */
  function VideoEmbedSrc(videoUrl: Option<string>, parse: string -> Option<Url>): (r: string)
    ensures videoUrl.None? || videoUrl == Some("") ==> r == ""
    ensures videoUrl.Some? && videoUrl.value != "" ==>
      r == videoUrl.value || StartsWith(r, EmbedPrefix)
    ensures videoUrl.Some? && videoUrl.value != "" && parse(videoUrl.value).None? ==> r == videoUrl.value
    ensures videoUrl.Some? && videoUrl.value != "" && parse(videoUrl.value).Some? ==>
      var u := parse(videoUrl.value).value;
      && (Contains(u.hostname, "youtube.com") && u.v.Some? && u.v.value != "" ==> r == EmbedPrefix + "/" + u.v.value)
      && (!(Contains(u.hostname, "youtube.com") && u.v.Some? && u.v.value != "") && u.hostname == "youtu.be" ==>
            r == EmbedPrefix + u.pathname)
      && (!(Contains(u.hostname, "youtube.com") && u.v.Some? && u.v.value != "") && u.hostname != "youtu.be" ==>
            r == videoUrl.value)
  {
    if videoUrl.None? || videoUrl.value == "" then ""
    else
      match parse(videoUrl.value)
      case None => videoUrl.value
      case Some(u) =>
        assert (EmbedPrefix + "/" + u.v.GetOr(""))[..|EmbedPrefix|] == EmbedPrefix;
        assert (EmbedPrefix + u.pathname)[..|EmbedPrefix|] == EmbedPrefix;
        if Contains(u.hostname, "youtube.com") && u.v.Some? && u.v.value != "" then EmbedPrefix + "/" + u.v.value
        else if u.hostname == "youtu.be" then EmbedPrefix + u.pathname
        else videoUrl.value
  }

  /** A YouTube address without a `v` parameter is kept as it is. */
  lemma WatchWithoutVKept(videoUrl: string, parse: string -> Option<Url>)
    requires videoUrl != "" && parse(videoUrl).Some?
    requires Contains(parse(videoUrl).value.hostname, "youtube.com") && parse(videoUrl).value.v.None?
    ensures VideoEmbedSrc(Some(videoUrl), parse) == videoUrl
  {
    ContainsIff(parse(videoUrl).value.hostname, "youtube.com");
  }

  /** Rewriting is idempotent: an embed address made from a `v` parameter
      is kept, for a parser that reads it back as a www.youtube.com address
      without a `v` parameter. */
  lemma EmbedIsKept(videoUrl: string, parse: string -> Option<Url>)
    requires videoUrl != "" && parse(videoUrl).Some?
    requires var e := VideoEmbedSrc(Some(videoUrl), parse);
      e != videoUrl ==> parse(e) == Some(Url("www.youtube.com", e[|"https://www.youtube.com"|..], None))
    ensures var e := VideoEmbedSrc(Some(videoUrl), parse);
      VideoEmbedSrc(Some(e), parse) == e
  {
    var e := VideoEmbedSrc(Some(videoUrl), parse);
    if e != videoUrl {
      assert e != "" by { assert StartsWith(e, EmbedPrefix); }
      assert "www.youtube.com" != "youtu.be";
    }
  }

  // ---------------------------------------------------------------------
  // Media type of an upload

  datatype MediaType = Video | Image | Unknown

  function MediaTypeCode(m: MediaType): string {
    match m
    case Video => "video"
    case Image => "image"
    case Unknown => "unknown"
  }

  /** The media type sent with an upload, from the file's MIME type. */
  function MediaTypeOf(mime: string): (m: MediaType)
    ensures m == Video <==> StartsWith(mime, "video")
    ensures m == Image <==> !StartsWith(mime, "video") && StartsWith(mime, "image")
    ensures m == Unknown <==> !StartsWith(mime, "video") && !StartsWith(mime, "image")
  {
    if StartsWith(mime, "video") then Video
    else if StartsWith(mime, "image") then Image
    else Unknown
  }

  /** Common MIME types: "video/mp4" is a video and "image/jpeg" an image. */
  lemma MediaTypeExamples()
    ensures MediaTypeOf("video/mp4") == Video
    ensures MediaTypeOf("image/jpeg") == Image
    ensures MediaTypeOf("application/pdf") == Unknown
  {
    assert "video/mp4"[..5] == "video";
    assert "image/jpeg"[..5] == "image";
    assert "application/pdf"[..5] == "appli";
  }

  // ---------------------------------------------------------------------
  // Submitting a proof

  datatype Status = Available | InProgress | Completed

  datatype QuestItem = QuestItem(id: int, questId: int, title: string, status: Status, videoUrl: Option<string>)

  datatype FileInfo = FileInfo(name: string, mime: string)

  /** The requests the page sends. */
  datatype Request =
    | StartRequest(userId: string, questId: int)
    | UploadRequest(userId: string, questId: int, file: FileInfo, mediaType: MediaType, notes: Option<string>)

  /** The answer to the upload: `Threw` when the request or its JSON fails. */
  datatype UploadAnswer = Threw | Answered(ok: bool, status: Option<string>, message: Option<string>)

  /** What the user is told. */
  datatype Notice = NoNotice | QuestNotFound | SubmittedOk | SubmitFailed(message: string)

  /** The outcome: requests in order, the quest afterwards, the notice, and
      whether the form (file and notes) was cleared. */
  datatype Submitted = Submitted(requests: seq<Request>, quest: Option<QuestItem>, notice: Notice, cleared: bool)

  const SubmissionFailedText: string := "Submission failed"

  /** `submitProof`: nothing happens without a user, a quest and a file.
      A quest not in progress is started first (`startOk` is whether the
      server agreed); a failed start ends with "not found" and no upload. */
  function SubmitProof(userId: Option<string>, quest: Option<QuestItem>, file: Option<FileInfo>, notes: string,
                       startOk: bool, answer: UploadAnswer): (r: Submitted)
    ensures userId.None? || userId == Some("") || quest.None? || file.None? ==> r == Submitted([], quest, NoNotice, false)
    ensures r.requests != [] && quest.value.status != InProgress ==>
      r.requests[0] == StartRequest(userId.value, quest.value.questId)
    ensures r.requests != [] && quest.value.status == InProgress ==>
      forall i :: 0 <= i < |r.requests| ==> !r.requests[i].StartRequest?
    ensures r.requests != [] && quest.value.status != InProgress && !startOk ==>
      r.requests == [StartRequest(userId.value, quest.value.questId)] && r.notice == QuestNotFound
    ensures forall i :: 0 <= i < |r.requests| && r.requests[i].UploadRequest? ==>
      i == |r.requests| - 1 && r.requests[i].mediaType == MediaTypeOf(file.value.mime) &&
      r.requests[i].file == file.value && (r.requests[i].notes.Some? <==> notes != "")
    ensures r.cleared <==> r.notice == SubmittedOk
  {
    if userId.None? || userId.value == "" || quest.None? || file.None? then Submitted([], quest, NoNotice, false)
    else
      var q := quest.value;
      var starts := if q.status != InProgress then [StartRequest(userId.value, q.questId)] else [];
      if q.status != InProgress && !startOk then Submitted(starts, quest, QuestNotFound, false)
      else
        var q' := q.(status := InProgress);
        var upload := UploadRequest(userId.value, q.questId, file.value, MediaTypeOf(file.value.mime),
                                    if notes != "" then Some(notes) else None);
        var notice := match answer
          case Threw => SubmitFailed(SubmissionFailedText)
          case Answered(ok, status, message) =>
            if ok && status == Some("success") then SubmittedOk
            else SubmitFailed(if message.Some? && message.value != "" then message.value else SubmissionFailedText);
        Submitted(starts + [upload], Some(q'), notice, notice == SubmittedOk)
  }

  /** An upload is sent only for a quest in progress or after a successful
      start, and it is always the last request. */
  lemma UploadNeedsStart(userId: Option<string>, quest: Option<QuestItem>, file: Option<FileInfo>, notes: string,
                         startOk: bool, answer: UploadAnswer)
    ensures var r := SubmitProof(userId, quest, file, notes, startOk, answer);
      (exists i :: 0 <= i < |r.requests| && r.requests[i].UploadRequest?) ==>
        quest.Some? && (quest.value.status == InProgress || startOk) &&
        r.quest == Some(quest.value.(status := InProgress))
  {
  }
}

=== FILE: quests.dfy ===
/** Quests and the per-farmer quest records: the status and kind enums,
    column defaults, the (farmer, quest) uniqueness constraint, starting a
    quest, and the personalised assignment done when a farmer first asks
    for their quests. */
module Quests {
  import opened Common
  import opened Text
  import Farmers

  datatype QuestStatus = Available | InProgress | Completed | Expired

  /** The stored code of each status. */
  function StatusCode(s: QuestStatus): string {
    match s
    case Available => "available"
    case InProgress => "in_progress"
    case Completed => "completed"
    case Expired => "expired"
  }

  /** Reading a stored code back; any other string is not a status. */
  function ParseStatus(code: string): (r: Option<QuestStatus>)
    ensures r.Some? ==> StatusCode(r.value) == code
  {
    if code == "available" then Some(Available)
    else if code == "in_progress" then Some(InProgress)
    else if code == "completed" then Some(Completed)
    else if code == "expired" then Some(Expired)
    else None
  }

  lemma StatusCodeRoundTrip(s: QuestStatus)
    ensures ParseStatus(StatusCode(s)) == Some(s)
  {
  }

  datatype QuestType = CropOptimization | WaterManagement | SoilHealth | PestControl | MarketAnalysis

  function QuestTypeCode(k: QuestType): string {
    match k
    case CropOptimization => "crop_optimization"
    case WaterManagement => "water_management"
    case SoilHealth => "soil_health"
    case PestControl => "pest_control"
    case MarketAnalysis => "market_analysis"
  }

  function ParseQuestType(code: string): (r: Option<QuestType>)
    ensures r.Some? ==> QuestTypeCode(r.value) == code
  {
    if code == "crop_optimization" then Some(CropOptimization)
    else if code == "water_management" then Some(WaterManagement)
    else if code == "soil_health" then Some(SoilHealth)
    else if code == "pest_control" then Some(PestControl)
    else if code == "market_analysis" then Some(MarketAnalysis)
    else None
  }

  lemma QuestTypeCodeRoundTrip(k: QuestType)
    ensures ParseQuestType(QuestTypeCode(k)) == Some(k)
  {
  }

  const DefaultRewardPoints: int := 0
  const DefaultDifficulty: int := 1
  const DefaultDurationDays: int := 7

  /** A quest; `targetCrop` is "" for a general quest. */
  datatype Quest = Quest(
    id: nat,
    title: string,
    description: string,
    questType: QuestType,
    rewardPoints: int,
    targetCrop: string,
    difficultyLevel: int,
    durationDays: int,
    isActive: bool)

  /** `Quest.objects.create(...)` with the column defaults: no reward,
      difficulty 1, seven days, general (no target crop) and active. */
  function NewQuest(id: nat, title: string, description: string, questType: QuestType,
                    rewardPoints: Option<int>, targetCrop: Option<string>,
                    difficulty: Option<int>, durationDays: Option<int>,
                    isActive: Option<bool>): (q: Quest)
    ensures rewardPoints.None? ==> q.rewardPoints == 0
    ensures difficulty.None? ==> q.difficultyLevel == 1
    ensures durationDays.None? ==> q.durationDays == 7
    ensures targetCrop.None? ==> q.targetCrop == ""
    ensures isActive.None? ==> q.isActive
    ensures q.id == id && q.questType == questType
  {
    Quest(id, title, description, questType, rewardPoints.GetOr(DefaultRewardPoints),
          targetCrop.GetOr(""), difficulty.GetOr(DefaultDifficulty),
          durationDays.GetOr(DefaultDurationDays), isActive.GetOr(true))
  }

  /** One farmer's record of one quest; times are abstract instants. */
  datatype FarmerQuest = FarmerQuest(
    farmer: nat,
    quest: nat,
    status: QuestStatus,
    assignedAt: int,
    startedAt: Option<int>,
    completedAt: Option<int>,
    progress: int)

  /** A record as created: available, no progress, neither started nor completed. */
  function NewFarmerQuest(farmer: nat, quest: nat, now: int): (fq: FarmerQuest)
    ensures fq.status == Available && fq.progress == 0
    ensures fq.startedAt.None? && fq.completedAt.None?
    ensures fq.farmer == farmer && fq.quest == quest && fq.assignedAt == now
  {
    FarmerQuest(farmer, quest, Available, now, None, None, 0)
  }

  /** The table constraint: at most one record per (farmer, quest) pair. */
  predicate UniquePairs(t: seq<FarmerQuest>) {
    forall i, j :: 0 <= i < j < |t| ==> t[i].farmer != t[j].farmer || t[i].quest != t[j].quest
  }

  predicate HasPair(t: seq<FarmerQuest>, farmer: nat, quest: nat) {
    exists i :: 0 <= i < |t| && t[i].farmer == farmer && t[i].quest == quest
  }

  // ---------------------------------------------------------------------
  // Starting a quest

  datatype StartOutcome = Started | NotAvailable

  function StartMessage(o: StartOutcome): string {
    match o
    case Started => "Quest started successfully"
    case NotAvailable => "Quest not available"
  }

  datatype StartResult = StartResult(outcome: StartOutcome, table: seq<FarmerQuest>)

  predicate Startable(fq: FarmerQuest, farmer: nat, quest: nat) {
    fq.farmer == farmer && fq.quest == quest && fq.status == Available
  }

  /** Looks up the available record of the pair; if there is one it becomes
      in progress, started now; otherwise nothing changes. */
  function StartQuest(t: seq<FarmerQuest>, farmer: nat, quest: nat, now: int): (r: StartResult)
    ensures r.outcome == Started <==> exists i :: 0 <= i < |t| && Startable(t[i], farmer, quest)
    ensures r.outcome == NotAvailable ==> r.table == t
    ensures |r.table| == |t|
    ensures forall i :: 0 <= i < |t| && r.table[i] != t[i] ==>
      Startable(t[i], farmer, quest) && r.table[i] == t[i].(status := InProgress, startedAt := Some(now))
    ensures r.outcome == Started ==>
      exists i :: 0 <= i < |t| && Startable(t[i], farmer, quest) &&
                  r.table[i].status == InProgress && r.table[i].startedAt == Some(now)
    ensures UniquePairs(t) ==> UniquePairs(r.table)
  {
    match FindFirst(t, (fq: FarmerQuest) => Startable(fq, farmer, quest))
    case None => StartResult(NotAvailable, t)
    case Some(k) =>
      StartResult(Started, t[k := t[k].(status := InProgress, startedAt := Some(now))])
  }

  /** Starting is not repeatable: once the pair's record is in progress a
      second start of the same pair reports "Quest not available" and changes
      nothing (with one record per pair). */
  lemma StartTwice(t: seq<FarmerQuest>, farmer: nat, quest: nat, now: int, later: int)
    requires UniquePairs(t)
    requires StartQuest(t, farmer, quest, now).outcome == Started
    ensures var t1 := StartQuest(t, farmer, quest, now).table;
      StartQuest(t1, farmer, quest, later) == StartResult(NotAvailable, t1)
  {
    var t1 := StartQuest(t, farmer, quest, now).table;
    var i :| 0 <= i < |t| && Startable(t[i], farmer, quest) && t1[i].status == InProgress;
    assert forall j :: 0 <= j < |t1| && j != i ==> t1[j] == t[j];
  }

  // ---------------------------------------------------------------------
  // Personalised assignment

  predicate NoUpper(s: string) {
    forall i :: 0 <= i < |s| ==> !IsUpper(s[i])
  }

  /** The farmer's crops as matched against quests: the crop text lowered,
      split on ',' and each piece stripped; empty pieces are kept. */
  function MatchingCrops(crops: string): (r: seq<string>)
    ensures |r| >= 1
    ensures forall i :: 0 <= i < |r| ==> Stripped(r[i]) && ',' !in r[i] && NoUpper(r[i])
  {
    var parts := Split(Lower(crops), ',');
    LowerNormalises(crops);
    var r := seq(|parts|, i requires 0 <= i < |parts| => Trim(parts[i]));
    TrimmedPiecesNoUpper(Lower(crops), r);
    r
  }

  lemma TrimmedPiecesNoUpper(s: string, r: seq<string>)
    requires NoUpper(s)
    requires |r| == |Split(s, ',')| && forall i :: 0 <= i < |r| ==> r[i] == Trim(Split(s, ',')[i])
    ensures forall i :: 0 <= i < |r| ==> NoUpper(r[i])
  {
    var parts := Split(s, ',');
    forall i, k | 0 <= i < |r| && 0 <= k < |r[i]| ensures !IsUpper(r[i][k]) {
      assert r[i][k] in parts[i];
      InJoin(parts, [','], i, r[i][k]);
    }
  }

  /** The non-empty matching crops are exactly the items of the crop list
      parser applied to the lowered text. */
  lemma MatchingCropsParsed(crops: string, x: string)
    ensures x in MatchingCrops(crops) && x != "" <==> x in ParseList(Lower(crops))
  {
    var parts := Split(Lower(crops), ',');
    var r := MatchingCrops(crops);
    TrimNonEmptyMembers(parts, x);
    if x in r && x != "" {
      var j :| 0 <= j < |r| && r[j] == x;
      assert Trim(parts[j]) == x;
    }
    if x in ParseList(Lower(crops)) {
      var j :| 0 <= j < |parts| && Trim(parts[j]) == x;
      assert r[j] == x;
    }
  }

  /** The suitability test as the lookup states it: the target crop is
      compared, unchanged, with the lowered farmer crops. */
  predicate IsSuitableAsWritten(q: Quest, crops: string) {
    q.isActive && (q.targetCrop in MatchingCrops(crops) || q.targetCrop == "")
  }

  /** An active quest suits a farmer when it is general or its target crop,
      compared without regard to case, is one of the farmer's crops. */
  predicate IsSuitable(q: Quest, crops: string) {
    q.isActive && (Lower(q.targetCrop) in MatchingCrops(crops) || q.targetCrop == "")
  }

  /** A target crop with an upper-case letter never matches as written. */
  lemma AsWrittenIgnoresCapitalised(q: Quest, crops: string, k: nat)
    requires k < |q.targetCrop| && IsUpper(q.targetCrop[k])
    ensures !IsSuitableAsWritten(q, crops)
  {
  }

  const RiceQuest: Quest := Quest(1, "Grow rice", "", CropOptimization, 50, "Rice", 1, 7, true)

  /** A "Rice" quest and a farmer growing "Rice, Wheat": the lookup as
      written does not assign the quest, the case-insensitive one does. */
  lemma RiceQuestCounterexample()
    ensures !IsSuitableAsWritten(RiceQuest, "Rice, Wheat")
  {
    assert IsUpper(RiceQuest.targetCrop[0]);
    AsWrittenIgnoresCapitalised(RiceQuest, "Rice, Wheat", 0);
  }

  lemma RiceQuestCorrected()
    ensures IsSuitable(RiceQuest, "Rice, Wheat")
  {
    assert "Rice, Wheat" == "Rice" + [','] + " Wheat";
    FirstCropMatched("Rice", " Wheat");
  }

  /** The first crop of the text, lowered, is one of the matching crops. */
  lemma FirstCropMatched(x: string, rest: string)
    requires Stripped(x) && ',' !in x
    ensures Lower(x) in MatchingCrops(x + [','] + rest)
  {
    LowerConcat(x, [','] + rest);
    LowerConcat([','], rest);
    assert Lower([',']) == [','];
    var lx := Lower(x);
    assert ',' !in lx by {
      forall k | 0 <= k < |lx| ensures lx[k] != ',' {
        assert x[k] != ',';
      }
    }
    assert Stripped(lx);
    assert x + [','] + rest == x + ([','] + rest);
    assert Lower(x + [','] + rest) == lx + [','] + Lower(rest);
    SplitConcat(lx, ',', Lower(rest));
    assert MatchingCrops(x + [','] + rest)[0] == Trim(lx);
  }

  /** Suitability does not depend on the case of either side, and an active
      quest suits exactly when it is general or its lowered target crop is a
      parsed item of the lowered crop text. */
  lemma SuitableCaseInsensitive(q: Quest, crops: string)
    ensures IsSuitable(q, crops) == IsSuitable(q.(targetCrop := Lower(q.targetCrop)), crops)
    ensures IsSuitable(q, crops) == IsSuitable(q, Lower(crops))
    ensures IsSuitable(q, crops) <==>
      q.isActive && (q.targetCrop == "" || Lower(q.targetCrop) in ParseList(Lower(crops)))
  {
    LowerNormalises(q.targetCrop);
    LowerNormalises(crops);
    MatchingCropsParsed(crops, Lower(q.targetCrop));
  }

  /** How the lookup compares a quest's target crop with the farmer's
      lowered crops: `AsWritten` is the lookup of the view (the target crop
      unchanged), `CaseInsensitive` the lookup as evidently intended. */
  datatype CropMatch = AsWritten | CaseInsensitive

  predicate Suits(m: CropMatch, q: Quest, crops: string) {
    match m
    case AsWritten => IsSuitableAsWritten(q, crops)
    case CaseInsensitive => IsSuitable(q, crops)
  }

  const AssignLimit: nat := 5

  /** Suitability as a predicate value, for filtering and counting. */
  function SuitsFor(m: CropMatch, crops: string): Quest -> bool {
    (q: Quest) => Suits(m, q, crops)
  }

  function IsActive(q: Quest): bool {
    q.isActive
  }

  predicate AnySuits(quests: seq<Quest>, crops: string, m: CropMatch) {
    exists j :: 0 <= j < |quests| && Suits(m, quests[j], crops)
  }

  /** The rule the view chooses by: suitability when any quest suits,
      otherwise being active. */
  function ChoiceRule(quests: seq<Quest>, crops: string, m: CropMatch): Quest -> bool {
    if AnySuits(quests, crops, m) then SuitsFor(m, crops) else IsActive
  }

  /** The quests to assign: the first five suitable ones in table order, or,
      when none is suitable, the first five active ones. */
  function ChooseQuests(quests: seq<Quest>, crops: string, m: CropMatch): (r: seq<Quest>)
    ensures |r| <= AssignLimit
    ensures forall i :: 0 <= i < |r| ==> r[i] in quests && r[i].isActive
    ensures AnySuits(quests, crops, m) ==>
      (forall i :: 0 <= i < |r| ==> Suits(m, r[i], crops)) &&
      |r| == Min(AssignLimit, Count(quests, SuitsFor(m, crops)))
    ensures !AnySuits(quests, crops, m) ==> |r| == Min(AssignLimit, Count(quests, IsActive))
    ensures r == [] <==> forall j :: 0 <= j < |quests| ==> !quests[j].isActive
  {
    var suits := SuitsFor(m, crops);
    FilterMembers(quests, suits);
    FilterMembers(quests, IsActive);
    FilterEmpty(quests, suits);
    FilterEmpty(quests, IsActive);
    FilterCount(quests, suits);
    FilterCount(quests, IsActive);
    var suitable := Take(Filter(quests, suits), AssignLimit);
    if suitable != [] then suitable
    else Take(Filter(quests, IsActive), AssignLimit)
  }

  /** The chosen quests are exactly the table's quests passing the rule,
      in table order, cut at five. */
  lemma ChosenFilter(quests: seq<Quest>, crops: string, m: CropMatch)
    ensures ChooseQuests(quests, crops, m) == Take(Filter(quests, ChoiceRule(quests, crops, m)), AssignLimit)
  {
    FilterEmpty(quests, SuitsFor(m, crops));
  }

  /** Every quest passing the rule with fewer than five passing quests
      before it in the table is chosen, at the place given by their number. */
  lemma ChosenAtRank(quests: seq<Quest>, crops: string, m: CropMatch, j: int)
    requires 0 <= j < |quests| && ChoiceRule(quests, crops, m)(quests[j])
    requires Count(quests[..j], ChoiceRule(quests, crops, m)) < AssignLimit
    ensures var k := Count(quests[..j], ChoiceRule(quests, crops, m));
      k < |ChooseQuests(quests, crops, m)| && ChooseQuests(quests, crops, m)[k] == quests[j]
  {
    ChosenFilter(quests, crops, m);
    FilterAt(quests, ChoiceRule(quests, crops, m), j);
  }

  /** Every chosen quest passes the rule and has exactly its place's number
      of passing quests before it in the table. */
  lemma ChosenHasRank(quests: seq<Quest>, crops: string, m: CropMatch, k: int)
    requires 0 <= k < |ChooseQuests(quests, crops, m)|
    ensures exists j ::
      && 0 <= j < |quests| && ChoiceRule(quests, crops, m)(quests[j])
      && Count(quests[..j], ChoiceRule(quests, crops, m)) == k
      && ChooseQuests(quests, crops, m)[k] == quests[j]
  {
    ChosenFilter(quests, crops, m);
    FilterFrom(quests, ChoiceRule(quests, crops, m), k);
  }

  const GeneralQuest: Quest := Quest(2, "Keep a farm diary", "", CropOptimization, 20, "", 1, 7, true)

  /** The "Rice" quest next to a general one, for a farmer growing "Rice,
      Wheat": the view as written assigns only the general quest, the
      case-insensitive lookup assigns both. */
  lemma RiceQuestChoices()
    ensures ChooseQuests([RiceQuest, GeneralQuest], "Rice, Wheat", AsWritten) == [GeneralQuest]
    ensures ChooseQuests([RiceQuest, GeneralQuest], "Rice, Wheat", CaseInsensitive) == [RiceQuest, GeneralQuest]
  {
    RiceQuestCounterexample();
    RiceQuestCorrected();
    ChoiceOfTwo(RiceQuest, GeneralQuest, "Rice, Wheat", AsWritten);
    ChoiceOfTwo(RiceQuest, GeneralQuest, "Rice, Wheat", CaseInsensitive);
  }

  /** Of a quest and a general quest, both active, the general one is always
      chosen, and the other exactly when it suits. */
  lemma ChoiceOfTwo(q: Quest, g: Quest, crops: string, m: CropMatch)
    requires q.isActive && g.isActive && g.targetCrop == ""
    ensures ChooseQuests([q, g], crops, m) == (if Suits(m, q, crops) then [q, g] else [g])
  {
    var qs := [q, g];
    assert Suits(m, g, crops);
    var p := (x: Quest) => Suits(m, x, crops);
    assert qs[1..] == [g] && qs[1..][1..] == [];
    assert Filter(qs[1..], p) == [g];
    assert Filter(qs, p) == (if p(q) then [q] else []) + Filter(qs[1..], p);
  }

  /** `get_or_create` of the pair: an existing record is kept as it is;
      otherwise a new available record is appended. */
  function GetOrCreate(t: seq<FarmerQuest>, farmer: nat, quest: nat, now: int): (r: seq<FarmerQuest>)
    ensures HasPair(r, farmer, quest)
    ensures |t| <= |r| <= |t| + 1 && r[..|t|] == t
    ensures |r| == |t| + 1 ==> r[|t|] == NewFarmerQuest(farmer, quest, now)
    ensures UniquePairs(t) ==> UniquePairs(r)
  {
    if HasPair(t, farmer, quest) then t
    else
      var r := t + [NewFarmerQuest(farmer, quest, now)];
      assert r[|t|].farmer == farmer && r[|t|].quest == quest;
      r
  }

  function QuestIds(qs: seq<Quest>): (ids: seq<nat>)
    ensures |ids| == |qs| && forall i :: 0 <= i < |qs| ==> ids[i] == qs[i].id
  {
    seq(|qs|, i requires 0 <= i < |qs| => qs[i].id)
  }

  /** A record the assignment loop may add: a new record of the farmer for
      one of the chosen quests. */
  predicate Fresh(fq: FarmerQuest, farmer: nat, ids: seq<nat>, now: int) {
    fq == NewFarmerQuest(farmer, fq.quest, now) && fq.quest in ids
  }

  /** Every chosen quest has a record of the farmer. */
  predicate Covers(t: seq<FarmerQuest>, farmer: nat, qs: seq<Quest>) {
    forall i :: 0 <= i < |qs| ==> HasPair(t, farmer, qs[i].id)
  }

  /** The assignment loop: one `get_or_create` per chosen quest. Existing
      records stay in place and only fresh records are appended. */
  function AssignAll(t: seq<FarmerQuest>, farmer: nat, qs: seq<Quest>, now: int): (r: seq<FarmerQuest>)
    ensures |t| <= |r| <= |t| + |qs| && r[..|t|] == t
    ensures forall i :: |t| <= i < |r| ==> Fresh(r[i], farmer, QuestIds(qs), now)
    decreases |qs|
  {
    if |qs| == 0 then t
    else
      var t1 := GetOrCreate(t, farmer, qs[0].id, now);
      var r := AssignAll(t1, farmer, qs[1..], now);
      assert r[..|t1|] == t1;
      assert QuestIds(qs[1..]) == QuestIds(qs)[1..];
      assert QuestIds(qs)[0] == qs[0].id;
      r
  }

  /** After the loop every chosen quest has a record of the farmer. */
  lemma {:induction false} AssignAllCovers(t: seq<FarmerQuest>, farmer: nat, qs: seq<Quest>, now: int)
    ensures Covers(AssignAll(t, farmer, qs, now), farmer, qs)
    decreases |qs|
  {
    if |qs| > 0 {
      var t1 := GetOrCreate(t, farmer, qs[0].id, now);
      var r := AssignAll(t1, farmer, qs[1..], now);
      AssignAllCovers(t1, farmer, qs[1..], now);
      var w :| 0 <= w < |t1| && t1[w].farmer == farmer && t1[w].quest == qs[0].id;
      assert r[..|t1|] == t1;
      assert r[w] == t1[w];
      forall i | 1 <= i < |qs| ensures HasPair(r, farmer, qs[i].id) {
        assert qs[i] == qs[1..][i - 1];
      }
    }
  }

  /** The loop never creates a second record for a (farmer, quest) pair. */
  lemma {:induction false} AssignAllUnique(t: seq<FarmerQuest>, farmer: nat, qs: seq<Quest>, now: int)
    ensures UniquePairs(t) ==> UniquePairs(AssignAll(t, farmer, qs, now))
    decreases |qs|
  {
    if |qs| > 0 {
      AssignAllUnique(GetOrCreate(t, farmer, qs[0].id, now), farmer, qs[1..], now);
    }
  }

  /** When every chosen quest already has a record, assignment adds nothing. */
  lemma {:induction false} AssignAllKeeps(t: seq<FarmerQuest>, farmer: nat, qs: seq<Quest>, now: int)
    requires Covers(t, farmer, qs)
    ensures AssignAll(t, farmer, qs, now) == t
    decreases |qs|
  {
    if |qs| > 0 {
      assert forall i :: 0 <= i < |qs[1..]| ==> qs[1..][i] == qs[i + 1];
      AssignAllKeeps(t, farmer, qs[1..], now);
    }
  }

  /** Assigning the same quests again creates no record at all. */
  lemma AssignAllIdempotent(t: seq<FarmerQuest>, farmer: nat, qs: seq<Quest>, now: int, later: int)
    ensures var r := AssignAll(t, farmer, qs, now);
      AssignAll(r, farmer, qs, later) == r
  {
    AssignAllCovers(t, farmer, qs, now);
    AssignAllKeeps(AssignAll(t, farmer, qs, now), farmer, qs, later);
  }

  /** `x` is the id of an active quest of the table. */
  predicate ActiveQuestId(quests: seq<Quest>, x: nat) {
    exists j :: 0 <= j < |quests| && quests[j].isActive && quests[j].id == x
  }

  lemma ChosenRecord(x: nat, chosen: seq<Quest>, quests: seq<Quest>)
    requires x in QuestIds(chosen)
    requires forall i :: 0 <= i < |chosen| ==> chosen[i] in quests && chosen[i].isActive
    ensures ActiveQuestId(quests, x)
  {
    var k :| 0 <= k < |chosen| && QuestIds(chosen)[k] == x;
    var j :| 0 <= j < |quests| && quests[j] == chosen[k];
    assert quests[j].id == x;
  }

  lemma ChosenRecords(r: seq<FarmerQuest>, n: nat, chosen: seq<Quest>, quests: seq<Quest>)
    requires forall i :: n <= i < |r| ==> r[i].quest in QuestIds(chosen)
    requires forall i :: 0 <= i < |chosen| ==> chosen[i] in quests && chosen[i].isActive
    ensures forall i :: n <= i < |r| ==> ActiveQuestId(quests, r[i].quest)
  {
    forall i | n <= i < |r| ensures ActiveQuestId(quests, r[i].quest) {
      ChosenRecord(r[i].quest, chosen, quests);
    }
  }

  /** At most five new records, all of them the farmer's, available, for
      active quests of the table; existing records are untouched and the
      pair constraint is kept. */
  function AssignPersonalizedQuests(t: seq<FarmerQuest>, farmer: Farmers.Farmer,
                                    quests: seq<Quest>, now: int, m: CropMatch): (r: seq<FarmerQuest>)
    ensures |t| <= |r| <= |t| + AssignLimit && r[..|t|] == t
    ensures forall i :: |t| <= i < |r| ==> r[i] == NewFarmerQuest(farmer.id, r[i].quest, now)
    ensures forall i :: |t| <= i < |r| ==> ActiveQuestId(quests, r[i].quest)
    ensures UniquePairs(t) ==> UniquePairs(r)
  {
    var chosen := ChooseQuests(quests, farmer.crops, m);
    var r := AssignAll(t, farmer.id, chosen, now);
    AssignAllUnique(t, farmer.id, chosen, now);
    ChosenRecords(r, |t|, chosen, quests);
    r
  }

  /** With any active quest in the table, assignment leaves the farmer at
      least one record. */
  lemma AssignedRecordExists(t: seq<FarmerQuest>, farmer: Farmers.Farmer, quests: seq<Quest>, now: int,
                             m: CropMatch)
    ensures (exists j :: 0 <= j < |quests| && quests[j].isActive) ==>
      var r := AssignPersonalizedQuests(t, farmer, quests, now, m);
      exists i :: 0 <= i < |r| && r[i].farmer == farmer.id
  {
    if exists j :: 0 <= j < |quests| && quests[j].isActive {
      var chosen := ChooseQuests(quests, farmer.crops, m);
      var r := AssignAll(t, farmer.id, chosen, now);
      assert r == AssignPersonalizedQuests(t, farmer, quests, now, m);
      AssignAllCovers(t, farmer.id, chosen, now);
      assert HasPair(r, farmer.id, chosen[0].id);
      var w :| 0 <= w < |r| && r[w].farmer == farmer.id && r[w].quest == chosen[0].id;
    }
  }

  // ---------------------------------------------------------------------
  // Listing a farmer's quests

  datatype QuestsView =
    | FarmerNotFound                      // 404 "Farmer not found"
    | QuestList(table: seq<FarmerQuest>, rows: seq<FarmerQuest>)

  predicate OwnedBy(fq: FarmerQuest, farmer: nat) {
    fq.farmer == farmer
  }

  /** A farmer's records; a farmer without any first gets a personalised set. */
  function FarmerQuestsView(farmers: seq<Farmers.Farmer>, t: seq<FarmerQuest>, quests: seq<Quest>,
                            farmerId: nat, now: int, m: CropMatch): (v: QuestsView)
    ensures v.FarmerNotFound? <==> forall i :: 0 <= i < |farmers| ==> farmers[i].id != farmerId
    ensures v.QuestList? ==> forall i :: 0 <= i < |v.rows| ==> v.rows[i].farmer == farmerId && v.rows[i] in v.table
    ensures v.QuestList? ==> forall i :: 0 <= i < |v.table| && v.table[i].farmer == farmerId ==> v.table[i] in v.rows
    ensures v.QuestList? ==> |v.table| >= |t| && v.table[..|t|] == t
    ensures v.QuestList? && (exists i :: 0 <= i < |t| && t[i].farmer == farmerId) ==> v.table == t
    ensures v.QuestList? && (exists j :: 0 <= j < |quests| && quests[j].isActive) ==> v.rows != []
    ensures UniquePairs(t) && v.QuestList? ==> UniquePairs(v.table)
  {
    match FindFirst(farmers, (f: Farmers.Farmer) => f.id == farmerId)
    case None => FarmerNotFound
    case Some(k) =>
      var owned := (fq: FarmerQuest) => OwnedBy(fq, farmerId);
      FilterMembers(t, owned);
      FilterEmpty(t, owned);
      if Filter(t, owned) != [] then QuestList(t, Filter(t, owned))
      else
        var t1 := AssignPersonalizedQuests(t, farmers[k], quests, now, m);
        AssignedRecordExists(t, farmers[k], quests, now, m);
        FilterMembers(t1, owned);
        FilterEmpty(t1, owned);
        QuestList(t1, Filter(t1, owned))
  }
}

=== FILE: quests_page.dfy ===
/** The quests page of the web client: the status filter and search box,
    the client-side start of a quest, and the five-star difficulty row. */
module QuestsPage {
  import opened Common
  import opened Text

  datatype QuestStatus = Available | InProgress | Completed

  function StatusCode(s: QuestStatus): string {
    match s
    case Available => "available"
    case InProgress => "in_progress"
    case Completed => "completed"
  }

  /** A farmer's quest as the page holds it. */
  datatype ClientQuest = ClientQuest(
    id: int,
    title: string,
    description: string,
    rewardPoints: int,
    difficulty: int,
    targetCrop: string,
    durationDays: int,
    status: QuestStatus,
    progress: Option<int>,
    deadline: Option<string>)

  /** The filter value that shows every status. */
  const AllFilter: string := "all"

  /** A quest is shown when the filter is "all" or its status, and the
      lower-cased search term occurs in its lower-cased title or target crop. */
  predicate Shown(q: ClientQuest, filter: string, term: string) {
    && (filter == AllFilter || StatusCode(q.status) == filter)
    && (Contains(Lower(q.title), Lower(term)) || Contains(Lower(q.targetCrop), Lower(term)))
  }

  function ShownBy(filter: string, term: string): ClientQuest -> bool {
    (q: ClientQuest) => Shown(q, filter, term)
  }

  /** `filteredQuests`: the shown quests in their order. */
  function FilteredQuests(qs: seq<ClientQuest>, filter: string, term: string): (r: seq<ClientQuest>)
    ensures |r| <= |qs|
  {
    Filter(qs, ShownBy(filter, term))
  }

  /** A quest is listed exactly when it is shown. */
  lemma FilteredQuestsIff(qs: seq<ClientQuest>, filter: string, term: string)
    ensures forall i :: 0 <= i < |FilteredQuests(qs, filter, term)| ==>
      Shown(FilteredQuests(qs, filter, term)[i], filter, term) && FilteredQuests(qs, filter, term)[i] in qs
    ensures forall i :: 0 <= i < |qs| && Shown(qs[i], filter, term) ==> qs[i] in FilteredQuests(qs, filter, term)
  {
    FilterMembers(qs, ShownBy(filter, term));
  }

  /** With the filter "all" and an empty search every quest is listed, in
      the original order. */
  lemma AllAndEmptyShowsAll(qs: seq<ClientQuest>)
    ensures FilteredQuests(qs, AllFilter, "") == qs
  {
    forall i | 0 <= i < |qs| ensures Shown(qs[i], AllFilter, "") {
      ContainsSelfAndEmpty(Lower(qs[i].title));
      assert Lower("") == "";
    }
    FilterAll(qs, ShownBy(AllFilter, ""));
  }

  /** The quest a start makes out of `q`. */
  function Started(q: ClientQuest): ClientQuest {
    q.(status := InProgress, progress := Some(0))
  }

  /** `startQuest`: every quest with the id becomes in progress with
      progress 0, whatever its status was; the others stay as they are. */
  function StartQuest(qs: seq<ClientQuest>, id: int): (r: seq<ClientQuest>)
    ensures |r| == |qs|
    ensures forall i :: 0 <= i < |qs| ==> r[i].id == qs[i].id && r[i].title == qs[i].title
    ensures forall i :: 0 <= i < |qs| && qs[i].id != id ==> r[i] == qs[i]
    ensures forall i :: 0 <= i < |qs| && qs[i].id == id ==> r[i].status == InProgress && r[i].progress == Some(0)
  {
    seq(|qs|, i requires 0 <= i < |qs| => if qs[i].id == id then Started(qs[i]) else qs[i])
  }

  /** Starting a quest twice is starting it once. */
  lemma StartQuestIdempotent(qs: seq<ClientQuest>, id: int)
    ensures StartQuest(StartQuest(qs, id), id) == StartQuest(qs, id)
  {
  }

  /** A started quest is listed under the "in_progress" filter with an empty
      search, even one that was completed: the start does not look at the
      prior status. */
  lemma StartedIsInProgress(qs: seq<ClientQuest>, id: int, i: nat)
    requires i < |qs| && qs[i].id == id
    ensures StartQuest(qs, id)[i] in FilteredQuests(StartQuest(qs, id), "in_progress", "")
  {
    var r := StartQuest(qs, id);
    ContainsSelfAndEmpty(Lower(r[i].title));
    assert Lower("") == "";
    assert Shown(r[i], "in_progress", "");
    FilteredQuestsIff(r, "in_progress", "");
  }

  /** Only an available quest has a start button. */
  predicate HasStartButton(q: ClientQuest) {
    q.status == Available
  }

  // ---------------------------------------------------------------------
  // Difficulty stars

  const StarCount: nat := 5

  predicate IsFilled(b: bool) { b }

  /** Stars `i` to 4; star `j` is filled when `j < level`. */
  function StarRow(level: int, i: nat): (r: seq<bool>)
    requires i <= StarCount
    ensures |r| == StarCount - i
    ensures forall j :: 0 <= j < |r| ==> (r[j] <==> i + j < level)
    decreases StarCount - i
  {
    if i == StarCount then [] else [i < level] + StarRow(level, i + 1)
  }

  /** `getDifficultyStars`: always five stars. */
  function DifficultyStars(level: int): (r: seq<bool>)
    ensures |r| == StarCount
    ensures forall j :: 0 <= j < |r| ==> (r[j] <==> j < level)
  {
    StarRow(level, 0)
  }

  function Clamp(x: int, lo: int, hi: int): int {
    if x < lo then lo else if x > hi then hi else x
  }

  /** Of stars `i` to 4, as many are filled as `level - i` clamped to the
      number of those stars. */
  lemma {:induction false} StarRowFilled(level: int, i: nat)
    requires i <= StarCount
    ensures Count(StarRow(level, i), IsFilled) == Clamp(level - i, 0, StarCount - i)
    decreases StarCount - i
  {
    if i < StarCount {
      StarRowFilled(level, i + 1);
      assert StarRow(level, i)[1..] == StarRow(level, i + 1);
    }
  }

  /** The number of filled stars is the level clamped to 0..5. */
  lemma DifficultyStarsFilled(level: int)
    ensures Count(DifficultyStars(level), IsFilled) == Clamp(level, 0, StarCount)
  {
    StarRowFilled(level, 0);
  }
}

=== FILE: rewards_page.dfy ===
/** The rewards page of the web client: the affordability test and the
    client-side redemption, which updates the point statistics and the
    redemption history without asking the server. */
module RewardsPage {
  import opened Common

  datatype Category = Tools | Seeds | Education | Technology | Vouchers
  datatype Availability = Available | Limited | OutOfStock
  datatype DeliveryStatus = Pending | Shipped | Delivered

  datatype ClientReward = ClientReward(
    id: string,
    name: string,
    category: Category,
    pointsCost: int,
    availability: Availability,
    stockRemaining: Option<int>,
    redemptionLimit: int)

  /** A redemption in the history; `redeemedAt` is an abstract time. */
  datatype Redemption = Redemption(id: string, reward: ClientReward, redeemedAt: int, status: DeliveryStatus)

  datatype RewardStats = RewardStats(totalPoints: int, pointsSpent: int, pointsAvailable: int, totalRedeemed: int)

  /** The page state: the catalogue, the history (newest first) and the
      statistics, absent until loaded. */
  datatype Page = Page(rewards: seq<ClientReward>, history: seq<Redemption>, stats: Option<RewardStats>)

  /** The points available, zero when the statistics are absent. */
  function AvailablePoints(stats: Option<RewardStats>): int {
    if stats.Some? then stats.value.pointsAvailable else 0
  }

  /** `canAfford`. */
  predicate CanAfford(stats: Option<RewardStats>, cost: int) {
    AvailablePoints(stats) >= cost
  }

  /** `redeemReward`: the first reward with the id, when affordable, is put
      at the front of the history as pending and its cost moves from the
      available to the spent points; otherwise nothing changes. Stock,
      availability and the redemption limit are not consulted. `newId` and
      `now` stand for the clock. */
  function RedeemReward(p: Page, rewardId: string, newId: string, now: int): (q: Page)
    ensures q.rewards == p.rewards
    ensures (forall i :: 0 <= i < |p.rewards| ==> p.rewards[i].id != rewardId) ==> q == p
    ensures q != p ==>
      exists i :: (0 <= i < |p.rewards| && p.rewards[i].id == rewardId &&
        CanAfford(p.stats, p.rewards[i].pointsCost) &&
        q.history == [Redemption(newId, p.rewards[i], now, Pending)] + p.history)
  {
    match FindFirst(p.rewards, (r: ClientReward) => r.id == rewardId)
    case None => p
    case Some(k) =>
      var reward := p.rewards[k];
      if !CanAfford(p.stats, reward.pointsCost) then p
      else
        var stats := match p.stats
          case None => None
          case Some(s) => Some(s.(pointsSpent := s.pointsSpent + reward.pointsCost,
                                  pointsAvailable := s.pointsAvailable - reward.pointsCost,
                                  totalRedeemed := s.totalRedeemed + 1));
        Page(p.rewards, [Redemption(newId, reward, now, Pending)] + p.history, stats)
  }

  /** An unaffordable reward is not redeemed. */
  lemma UnaffordableIsNoOp(p: Page, rewardId: string, newId: string, now: int, k: nat)
    requires k < |p.rewards| && p.rewards[k].id == rewardId
    requires forall j :: 0 <= j < k ==> p.rewards[j].id != rewardId
    requires !CanAfford(p.stats, p.rewards[k].pointsCost)
    ensures RedeemReward(p, rewardId, newId, now) == p
  {
    assert FindFirst(p.rewards, (r: ClientReward) => r.id == rewardId) == Some(k);
  }

  /** A redemption of an affordable reward with loaded statistics moves
      exactly its cost from available to spent, counts one more redemption,
      keeps the total, keeps the available points non-negative and puts one
      pending entry in front of the unchanged history. */
  lemma RedeemUpdatesStats(p: Page, rewardId: string, newId: string, now: int, k: nat)
    requires k < |p.rewards| && p.rewards[k].id == rewardId
    requires forall j :: 0 <= j < k ==> p.rewards[j].id != rewardId
    requires p.stats.Some? && CanAfford(p.stats, p.rewards[k].pointsCost)
    ensures var q := RedeemReward(p, rewardId, newId, now);
      var s := p.stats.value;
      var cost := p.rewards[k].pointsCost;
      && q.stats.Some?
      && q.stats.value.pointsSpent == s.pointsSpent + cost
      && q.stats.value.pointsAvailable == s.pointsAvailable - cost
      && q.stats.value.pointsSpent + q.stats.value.pointsAvailable == s.pointsSpent + s.pointsAvailable
      && q.stats.value.pointsAvailable >= 0
      && q.stats.value.totalRedeemed == s.totalRedeemed + 1
      && q.stats.value.totalPoints == s.totalPoints
      && |q.history| == |p.history| + 1
      && q.history[0].status == Pending && q.history[0].reward == p.rewards[k]
      && q.history[1..] == p.history
  {
    assert FindFirst(p.rewards, (r: ClientReward) => r.id == rewardId) == Some(k);
  }

  /** The redemption does not look at stock: an affordable reward that is
      out of stock is redeemed all the same. */
  lemma RedeemIgnoresStock(p: Page, rewardId: string, newId: string, now: int, k: nat)
    requires k < |p.rewards| && p.rewards[k].id == rewardId
    requires forall j :: 0 <= j < k ==> p.rewards[j].id != rewardId
    requires CanAfford(p.stats, p.rewards[k].pointsCost)
    ensures |RedeemReward(p, rewardId, newId, now).history| == |p.history| + 1
  {
    assert FindFirst(p.rewards, (r: ClientReward) => r.id == rewardId) == Some(k);
  }

  /** The redeem button: enabled when affordable and not out of stock; its
      label says which condition fails first. */
  predicate ButtonEnabled(stats: Option<RewardStats>, r: ClientReward) {
    CanAfford(stats, r.pointsCost) && r.availability != OutOfStock
  }

  function ButtonLabel(stats: Option<RewardStats>, r: ClientReward): (caption: string)
    ensures ButtonEnabled(stats, r) <==> caption == "Redeem Now"
    ensures !CanAfford(stats, r.pointsCost) <==> caption == "Insufficient Points"
  {
    if !CanAfford(stats, r.pointsCost) then "Insufficient Points"
    else if r.availability == OutOfStock then "Out of Stock"
    else "Redeem Now"
  }

  /** Every click of an enabled button redeems. */
  lemma EnabledButtonRedeems(p: Page, newId: string, now: int, k: nat)
    requires k < |p.rewards| && ButtonEnabled(p.stats, p.rewards[k])
    requires forall j :: 0 <= j < k ==> p.rewards[j].id != p.rewards[k].id
    ensures RedeemReward(p, p.rewards[k].id, newId, now) != p
  {
    RedeemIgnoresStock(p, p.rewards[k].id, newId, now, k);
  }
}

=== FILE: signals.dfy ===
/** The review hooks on proof submissions: before a submission is saved its
    stored status is remembered; after the save, a transition into
    `approved` completes the farmer's quest record and awards the quest's
    points, once. */
module Signals {
  import opened Common
  import Farmers
  import opened Quests

  datatype SubmissionStatus = Pending | Approved | Rejected

  /** A proof submission. `pk` is absent until the row is first stored; the
      quest is the quest record itself, as the model instance carries it. */
  datatype Submission = Submission(pk: Option<nat>, farmer: nat, quest: Quest, status: SubmissionStatus)

  /** The tables the hooks read and write. */
  datatype Db = Db(submissions: seq<Submission>, farmerQuests: seq<FarmerQuest>, farmers: seq<Farmers.Farmer>)

  /** Stored submissions have distinct primary keys. */
  predicate StoredOk(s: seq<Submission>) {
    && (forall i :: 0 <= i < |s| ==> s[i].pk.Some?)
    && (forall i, j :: 0 <= i < j < |s| ==> s[i].pk != s[j].pk)
  }

  /** A primary key Python treats as true: present and not 0. */
  predicate KeySet(pk: Option<nat>) {
    pk.Some? && pk.value != 0
  }

  /** The pre-save hook: the status stored under the instance's primary key;
      nothing for an instance whose key is unset (absent or 0, both false in
      the hook's test) or whose row is gone. */
  function RememberOldStatus(stored: seq<Submission>, inst: Submission): (prior: Option<SubmissionStatus>)
    ensures !KeySet(inst.pk) ==> prior.None?
    ensures prior.Some? ==>
      exists i :: 0 <= i < |stored| && stored[i].pk == inst.pk && stored[i].status == prior.value
    ensures KeySet(inst.pk) && prior.None? ==> forall i :: 0 <= i < |stored| ==> stored[i].pk != inst.pk
  {
    if !KeySet(inst.pk) then None
    else
      match FindFirst(stored, (s: Submission) => s.pk == inst.pk)
      case None => None
      case Some(k) => Some(stored[k].status)
  }

  /** The award condition: the saved status is approved and the remembered
      one is not. */
  predicate Awards(inst: Submission, prior: Option<SubmissionStatus>) {
    inst.status == Approved && prior != Some(Approved)
  }

  /** The completed form of a quest record. */
  function Complete(fq: FarmerQuest, now: int): (c: FarmerQuest)
    ensures c.status == Completed && c.progress == 100 && c.completedAt == Some(now)
    ensures c.farmer == fq.farmer && c.quest == fq.quest && c.startedAt == fq.startedAt
  {
    fq.(status := Completed, completedAt := Some(now), progress := 100)
  }

  /** The effect of the post-save hook. */
  datatype Effect = Effect(farmerQuests: seq<FarmerQuest>, farmers: seq<Farmers.Farmer>)

  /** The post-save hook. Without an award nothing changes. With one, the
      (farmer, quest) record, if any, is completed, and the farmer gains the
      quest's reward points whether or not such a record exists. */
  function HandleSubmissionReview(inst: Submission, prior: Option<SubmissionStatus>,
                                  fqs: seq<FarmerQuest>, fs: seq<Farmers.Farmer>, now: int): (e: Effect)
    ensures !Awards(inst, prior) ==> e == Effect(fqs, fs)
    ensures |e.farmerQuests| == |fqs| && |e.farmers| == |fs|
    ensures forall i :: 0 <= i < |fqs| && e.farmerQuests[i] != fqs[i] ==>
      fqs[i].farmer == inst.farmer && fqs[i].quest == inst.quest.id && e.farmerQuests[i] == Complete(fqs[i], now)
    ensures Awards(inst, prior) && HasPair(fqs, inst.farmer, inst.quest.id) ==>
      exists i :: 0 <= i < |fqs| && fqs[i].farmer == inst.farmer && fqs[i].quest == inst.quest.id &&
                  e.farmerQuests[i] == Complete(fqs[i], now)
    ensures Awards(inst, prior) ==> e.farmers == Farmers.AddPoints(fs, inst.farmer, inst.quest.rewardPoints)
    ensures UniquePairs(fqs) ==> UniquePairs(e.farmerQuests)
  {
    if !Awards(inst, prior) then Effect(fqs, fs)
    else
      var fqs' :=
        match FindFirst(fqs, (fq: FarmerQuest) => fq.farmer == inst.farmer && fq.quest == inst.quest.id)
        case None => fqs
        case Some(k) => fqs[k := Complete(fqs[k], now)];
      Effect(fqs', Farmers.AddPoints(fs, inst.farmer, inst.quest.rewardPoints))
  }

  /** `save()` of a submission with both hooks: the prior status is read, the
      row is written (a new instance takes the primary key `newPk`), then
      the post-save hook runs. Returns the tables and the saved instance.
      `newPk` is the next value of the auto-increment key: at least 1 and
      not stored yet. */
  function Save(db: Db, inst: Submission, newPk: nat, now: int): (r: (Db, Submission))
    requires FreshKey(db.submissions, newPk)
    ensures r.1.pk.Some? && (inst.pk.Some? ==> r.1 == inst)
    ensures inst.pk.None? ==> r.1.pk == Some(newPk)
    ensures r.1.farmer == inst.farmer && r.1.quest == inst.quest && r.1.status == inst.status
    ensures StoredOk(db.submissions) ==> StoredOk(r.0.submissions)
    ensures inst.pk.None? ==> r.0.submissions == db.submissions + [r.1]
    ensures KeySet(r.1.pk) ==> RememberOldStatus(r.0.submissions, r.1) == Some(inst.status)
    ensures !Awards(inst, RememberOldStatus(db.submissions, inst)) ==>
      r.0.farmerQuests == db.farmerQuests && r.0.farmers == db.farmers
    ensures Awards(inst, RememberOldStatus(db.submissions, inst)) ==>
      r.0.farmers == Farmers.AddPoints(db.farmers, inst.farmer, inst.quest.rewardPoints)
  {
    var saved := if inst.pk.None? then inst.(pk := Some(newPk)) else inst;
    var prior := RememberOldStatus(db.submissions, inst);
    var e := HandleSubmissionReview(saved, prior, db.farmerQuests, db.farmers, now);
    RememberAfterSave(db.submissions, saved);
    (Db(Upsert(db.submissions, saved), e.farmerQuests, e.farmers), saved)
  }

  /** The auto-increment key handed to a new row: at least 1 and unused. */
  predicate FreshKey(s: seq<Submission>, pk: nat) {
    pk >= 1 && forall i :: 0 <= i < |s| ==> s[i].pk != Some(pk)
  }

  /** Writing a row: the stored row with the same primary key is replaced,
      or the row is appended. */
  function Upsert(s: seq<Submission>, row: Submission): (r: seq<Submission>)
    requires row.pk.Some?
    ensures StoredOk(s) ==> StoredOk(r)
    ensures exists i :: 0 <= i < |r| && r[i] == row && forall j :: 0 <= j < i ==> r[j].pk != row.pk
    ensures |s| <= |r| <= |s| + 1
    ensures (forall i :: 0 <= i < |s| ==> s[i].pk != row.pk) ==> r == s + [row]
  {
    match FindFirst(s, (x: Submission) => x.pk == row.pk)
    case None =>
      assert (s + [row])[|s|] == row;
      s + [row]
    case Some(k) =>
      assert forall i :: 0 <= i < |s| ==> s[k := row][i].pk == s[i].pk;
      s[k := row]
  }

  /** After a save the stored status under the saved key is the saved one. */
  lemma RememberAfterSave(s: seq<Submission>, row: Submission)
    requires row.pk.Some?
    ensures KeySet(row.pk) ==> RememberOldStatus(Upsert(s, row), row) == Some(row.status)
  {
    var r := Upsert(s, row);
    var i :| 0 <= i < |r| && r[i] == row && forall j :: 0 <= j < i ==> r[j].pk != row.pk;
    assert r[i].pk == row.pk;
  }

  /** Saving an approved submission again awards nothing and completes
      nothing: the award is paid once per transition into approved. */
  lemma ReSaveAwardsNothing(db: Db, inst: Submission, pk1: nat, pk2: nat, now: int, later: int)
    requires inst.status == Approved && inst.pk != Some(0)
    requires FreshKey(db.submissions, pk1) && FreshKey(Save(db, inst, pk1, now).0.submissions, pk2)
    ensures var (db1, saved) := Save(db, inst, pk1, now);
      var (db2, _) := Save(db1, saved, pk2, later);
      db2.farmerQuests == db1.farmerQuests && db2.farmers == db1.farmers
  {
    var (db1, saved) := Save(db, inst, pk1, now);
    RememberAfterSave(db.submissions, saved);
  }

  /** A save whose status is not approved changes no quest record and no
      points, whatever the stored status was. */
  lemma NonApprovalChangesNothing(db: Db, inst: Submission, pk: nat, now: int)
    requires inst.status != Approved && FreshKey(db.submissions, pk)
    ensures var (db1, _) := Save(db, inst, pk, now);
      db1.farmerQuests == db.farmerQuests && db1.farmers == db.farmers
  {
  }

  /** An approval of a registered farmer's submission raises the points held
      by all farmers together by exactly the quest's reward. */
  lemma ApprovalAddsReward(db: Db, inst: Submission, pk: nat, now: int)
    requires FreshKey(db.submissions, pk)
    requires Farmers.FarmerTableOk(db.farmers)
    requires exists i :: 0 <= i < |db.farmers| && db.farmers[i].id == inst.farmer
    requires Awards(inst, RememberOldStatus(db.submissions, inst))
    ensures Farmers.SumPoints(Save(db, inst, pk, now).0.farmers) == Farmers.SumPoints(db.farmers) + inst.quest.rewardPoints
  {
    SaveAwardsPoints(db, inst, pk, now);
    Farmers.AddPointsToOne(db.farmers, inst.farmer, inst.quest.rewardPoints);
  }

  lemma SaveAwardsPoints(db: Db, inst: Submission, pk: nat, now: int)
    requires FreshKey(db.submissions, pk)
    requires Awards(inst, RememberOldStatus(db.submissions, inst))
    ensures Save(db, inst, pk, now).0.farmers == Farmers.AddPoints(db.farmers, inst.farmer, inst.quest.rewardPoints)
  {
  }

  /** A key of 0 is false in the pre-save test, so an approved submission
      stored under it is paid again on every save. */
  lemma ZeroKeyPaysAgain(db: Db, inst: Submission, pk: nat, now: int)
    requires inst.status == Approved && inst.pk == Some(0) && FreshKey(db.submissions, pk)
    ensures var (db1, saved) := Save(db, inst, pk, now);
      saved == inst && Save(db1, saved, pk, now).0.farmers ==
        Farmers.AddPoints(db1.farmers, inst.farmer, inst.quest.rewardPoints)
  {
    var (db1, saved) := Save(db, inst, pk, now);
    assert FreshKey(db1.submissions, pk) by {
      assert db1.submissions == Upsert(db.submissions, inst);
      forall i | 0 <= i < |db1.submissions| ensures db1.submissions[i].pk != Some(pk) {
        UpsertKeys(db.submissions, inst, i);
      }
    }
  }

  /** Every key after a write is the written row's or one stored before. */
  lemma UpsertKeys(s: seq<Submission>, row: Submission, i: nat)
    requires row.pk.Some? && i < |Upsert(s, row)|
    ensures Upsert(s, row)[i].pk == row.pk || exists j :: 0 <= j < |s| && s[j].pk == Upsert(s, row)[i].pk
  {
    var r := Upsert(s, row);
    match FindFirst(s, (x: Submission) => x.pk == row.pk)
    case None =>
      if i < |s| {
        assert r[i] == s[i];
      }
    case Some(k) =>
      if i != k {
        assert r[i] == s[i];
      }
  }
}

=== FILE: sorting.dfy ===
/** Stable insertion sort on a sequence by an integer key, largest key first:
    Python's `list.sort(key=..., reverse=True)` and Django's `order_by`
    on one column (ascending order is the descending order of the negated key). */
module Sorting {

  predicate SortedDesc<T>(s: seq<T>, key: T -> int) {
    forall i, j :: 0 <= i < j < |s| ==> key(s[i]) >= key(s[j])
  }

  /** Puts `x` in front of the first element whose key does not exceed its own. */
  function Insert<T>(x: T, s: seq<T>, key: T -> int): (r: seq<T>)
    requires SortedDesc(s, key)
    ensures SortedDesc(r, key)
    ensures multiset(r) == multiset(s) + multiset{x}
    ensures |r| == |s| + 1
    decreases |s|
  {
    if |s| == 0 || key(s[0]) <= key(x) then [x] + s
    else
      var rest := Insert(x, s[1..], key);
      assert s == [s[0]] + s[1..];
      InsertHeadBound(x, s, rest, key);
      [s[0]] + rest
  }

  lemma InsertHeadBound<T>(x: T, s: seq<T>, rest: seq<T>, key: T -> int)
    requires |s| > 0 && key(s[0]) > key(x)
    requires SortedDesc(s, key) && SortedDesc(rest, key)
    requires multiset(rest) == multiset(s[1..]) + multiset{x}
    ensures SortedDesc([s[0]] + rest, key)
  {
    var r := [s[0]] + rest;
    forall j | 1 <= j < |r| ensures key(r[0]) >= key(r[j]) {
      var y := r[j];
      assert y == rest[j - 1];
      assert y in multiset(rest);
      if y != x {
        assert y in multiset(s[1..]);
        var k :| 0 <= k < |s[1..]| && s[1..][k] == y;
        assert s[k + 1] == y;
      }
    }
  }

  /** The sorted sequence is a permutation of the input with keys non-increasing. */
  function SortDesc<T>(s: seq<T>, key: T -> int): (r: seq<T>)
    ensures SortedDesc(r, key)
    ensures multiset(r) == multiset(s)
    ensures |r| == |s|
    decreases |s|
  {
    if |s| == 0 then []
    else
      assert s == [s[0]] + s[1..];
      Insert(s[0], SortDesc(s[1..], key), key)
  }

  /** Sorting a sequence already in order changes nothing. */
  lemma {:induction false} SortSorted<T>(s: seq<T>, key: T -> int)
    requires SortedDesc(s, key)
    ensures SortDesc(s, key) == s
    decreases |s|
  {
    if |s| > 0 {
      assert SortedDesc(s[1..], key);
      SortSorted(s[1..], key);
      assert s == [s[0]] + s[1..];
    }
  }

  lemma InsertHead<T>(x: T, s: seq<T>, key: T -> int)
    requires SortedDesc(s, key) && |s| > 0
    ensures Insert(x, s, key)[0] == (if key(s[0]) <= key(x) then x else s[0])
  {
  }

  /** The first element after sorting has the largest key. */
  lemma SortHeadMax<T>(s: seq<T>, key: T -> int)
    requires |s| > 0
    ensures forall j :: 0 <= j < |s| ==> key(s[j]) <= key(SortDesc(s, key)[0])
  {
    var r := SortDesc(s, key);
    forall j | 0 <= j < |s| ensures key(s[j]) <= key(r[0]) {
      assert s[j] in multiset(r);
      var k :| 0 <= k < |r| && r[k] == s[j];
    }
  }

  /** `s[i]` has a key larger than every element before it. */
  predicate FirstOfKey<T>(s: seq<T>, key: T -> int, i: int) {
    0 <= i < |s| && forall j :: 0 <= j < i ==> key(s[j]) < key(s[i])
  }

  /** The first element after sorting is the earliest element of the input
      with the largest key: the sort is stable. */
  lemma {:induction false} SortHeadFirst<T>(s: seq<T>, key: T -> int)
    requires |s| > 0
    ensures exists i :: FirstOfKey(s, key, i) && s[i] == SortDesc(s, key)[0]
    decreases |s|
  {
    if |s| == 1 {
      assert FirstOfKey(s, key, 0);
    } else {
      SortHeadFirst(s[1..], key);
      var i :| FirstOfKey(s[1..], key, i) && s[1..][i] == SortDesc(s[1..], key)[0];
      SortHeadFirstStep(s, key, i);
    }
  }

  lemma SortHeadFirstStep<T>(s: seq<T>, key: T -> int, i: int)
    requires |s| > 1
    requires FirstOfKey(s[1..], key, i) && s[1..][i] == SortDesc(s[1..], key)[0]
    ensures exists k :: FirstOfKey(s, key, k) && s[k] == SortDesc(s, key)[0]
  {
    var t := SortDesc(s[1..], key);
    var r := SortDesc(s, key);
    assert r == Insert(s[0], t, key);
    InsertHead(s[0], t, key);
    if key(t[0]) > key(s[0]) {
      assert s[i + 1] == r[0];
      forall j | 0 <= j < i + 1 ensures key(s[j]) < key(s[i + 1]) {
        if j > 0 {
          assert s[j] == s[1..][j - 1];
        }
      }
      assert FirstOfKey(s, key, i + 1);
    } else {
      assert FirstOfKey(s, key, 0);
    }
  }

  /** The sequence back to front. */
  function Reverse<T>(s: seq<T>): (r: seq<T>)
    ensures |r| == |s|
    ensures forall i :: 0 <= i < |s| ==> r[i] == s[|s| - 1 - i]
    decreases |s|
  {
    if |s| == 0 then [] else Reverse(s[1..]) + [s[0]]
  }

  /** An element with a smaller key than all others is inserted last. */
  lemma {:induction false} InsertLast<T>(x: T, s: seq<T>, key: T -> int)
    requires SortedDesc(s, key)
    requires forall i :: 0 <= i < |s| ==> key(s[i]) > key(x)
    ensures Insert(x, s, key) == s + [x]
    decreases |s|
  {
    if |s| > 0 {
      assert SortedDesc(s[1..], key);
      InsertLast(x, s[1..], key);
      assert s == [s[0]] + s[1..];
    }
  }

  /** Keys strictly increasing along the input: sorting largest first
      reverses the input. */
  lemma {:induction false} SortAscendingReverses<T>(s: seq<T>, key: T -> int)
    requires forall i, j :: 0 <= i < j < |s| ==> key(s[i]) < key(s[j])
    ensures SortDesc(s, key) == Reverse(s)
    decreases |s|
  {
    if |s| > 0 {
      var t := s[1..];
      assert forall i, j :: 0 <= i < j < |t| ==> key(t[i]) < key(t[j]) by {
        forall i, j | 0 <= i < j < |t| ensures key(t[i]) < key(t[j]) {
          assert t[i] == s[i + 1] && t[j] == s[j + 1];
        }
      }
      SortAscendingReverses(t, key);
      var rt := Reverse(t);
      assert forall i :: 0 <= i < |rt| ==> key(rt[i]) > key(s[0]) by {
        forall i | 0 <= i < |rt| ensures key(rt[i]) > key(s[0]) {
          var k := |t| - 1 - i;
          assert rt[i] == t[k];
          assert t[k] == s[k + 1];
          assert key(s[0]) < key(s[k + 1]);
        }
      }
      InsertLast(s[0], rt, key);
      assert SortDesc(s, key) == Insert(s[0], SortDesc(t, key), key);
      assert Reverse(s) == rt + [s[0]];
    }
  }
}

=== FILE: text.dfy ===
/** String helpers shared by the backend (Python `str.strip`, `str.split`,
    `str.lower`, `in`) and the frontend (`String.trim`, `split`, `join`,
    `toLowerCase`, `includes`).  Letter case is the ASCII one, and whitespace
    is the six ASCII characters both languages strip; Python's additional
    separators U+001C..U+001F, Unicode case mapping and non-ASCII whitespace
    are not modelled. */
module Text {

  /** ASCII whitespace: space, tab, line feed, vertical tab, form feed, carriage return. */
  predicate IsSpace(c: char) {
    c == ' ' || c == '\t' || c == '\n' || c == '\U{0B}' || c == '\U{0C}' || c == '\r'
  }

  predicate NoSpace(s: string) {
    forall i :: 0 <= i < |s| ==> !IsSpace(s[i])
  }

  predicate IsUpper(c: char) { 'A' <= c <= 'Z' }

  predicate IsLowerLetter(c: char) { 'a' <= c <= 'z' }

  function LowerChar(c: char): char {
    if IsUpper(c) then (c as int + 32) as char else c
  }

  function UpperChar(c: char): char {
    if IsLowerLetter(c) then (c as int - 32) as char else c
  }

  /** `s.lower()` / `s.toLowerCase()` restricted to ASCII letters. */
  function Lower(s: string): string {
    seq(|s|, i requires 0 <= i < |s| => LowerChar(s[i]))
  }

  /** `s.toUpperCase()` restricted to ASCII letters. */
  function Upper(s: string): string {
    seq(|s|, i requires 0 <= i < |s| => UpperChar(s[i]))
  }

  /** Lower-casing forgets an upper-casing. */
  lemma LowerOfUpper(s: string)
    ensures Lower(Upper(s)) == Lower(s)
  {
  }

  lemma LowerConcat(a: string, b: string)
    ensures Lower(a + b) == Lower(a) + Lower(b)
  {
  }

  /** Lower-casing leaves no upper-case letter behind and is idempotent. */
  lemma LowerNormalises(s: string)
    ensures forall i :: 0 <= i < |Lower(s)| ==> !IsUpper(Lower(s)[i])
    ensures Lower(Lower(s)) == Lower(s)
  {
  }

  // ---------------------------------------------------------------------
  // Trimming

  /** A string with no whitespace at either end. */
  predicate Stripped(s: string) {
    |s| == 0 || (!IsSpace(s[0]) && !IsSpace(s[|s| - 1]))
  }

  /** Drops leading whitespace: the result is a suffix of `s`, and only
      whitespace was dropped. */
  function TrimStart(s: string): (r: string)
    ensures |r| <= |s| && r == s[|s| - |r|..]
    ensures forall i :: 0 <= i < |s| - |r| ==> IsSpace(s[i])
    ensures |r| == 0 || !IsSpace(r[0])
    decreases |s|
  {
    if |s| > 0 && IsSpace(s[0]) then TrimStart(s[1..]) else s
  }

  /** Drops trailing whitespace: the result is a prefix of `s`, and only
      whitespace was dropped. */
  function TrimEnd(s: string): (r: string)
    ensures |r| <= |s| && r == s[..|r|]
    ensures forall i :: |r| <= i < |s| ==> IsSpace(s[i])
    ensures |r| == 0 || !IsSpace(r[|r| - 1])
    decreases |s|
  {
    if |s| > 0 && IsSpace(s[|s| - 1]) then TrimEnd(s[..|s| - 1]) else s
  }

  /** Python `s.strip()` / JavaScript `s.trim()`. */
  function Trim(s: string): (r: string)
    ensures Stripped(r)
    ensures |r| <= |s|
    ensures forall c :: c in r ==> c in s
    ensures Stripped(s) ==> r == s
  {
    var t := TrimStart(s);
    var r := TrimEnd(t);
    assert |r| > 0 ==> r[0] == t[0];
    assert forall c :: c in r ==> c in t;
    r
  }

  /** Trimming yields the empty string exactly when the input is all whitespace. */
  lemma TrimEmptyIff(s: string)
    ensures Trim(s) == "" <==> forall i :: 0 <= i < |s| ==> IsSpace(s[i])
  {
    var t := TrimStart(s);
    if |t| > 0 {
      assert t[0] == s[|s| - |t|];
    }
  }

  /** A single leading space is removed by trimming a clean item. */
  lemma TrimAfterSpace(c: string)
    requires Stripped(c) && c != ""
    ensures Trim(" " + c) == c
  {
    assert (" " + c)[1..] == c;
  }

  /** A single trailing space is removed by trimming a clean item. */
  lemma TrimBeforeSpace(c: string)
    requires Stripped(c) && c != ""
    ensures Trim(c + " ") == c
  {
    var s := c + " ";
    assert TrimStart(s) == s;
    assert s[..|s| - 1] == c;
    assert TrimEnd(s) == TrimEnd(c);
  }

  // ---------------------------------------------------------------------
  // Prefixes and substrings

  /** `s.startswith(p)` / `s.startsWith(p)`. */
  predicate StartsWith(s: string, p: string) {
    |p| <= |s| && s[..|p|] == p
  }

  /** `sub in s` / `s.includes(sub)`. */
  predicate Contains(s: string, sub: string)
    decreases |s|
  {
    StartsWith(s, sub) || (|s| > 0 && Contains(s[1..], sub))
  }

  /** Occurrence of `sub` in `s` at offset `k`. */
  predicate OccursAt(s: string, sub: string, k: int) {
    0 <= k && k + |sub| <= |s| && s[k..k + |sub|] == sub
  }

  /** `Contains` agrees with the positional definition of a substring. */
  lemma {:induction false} ContainsIff(s: string, sub: string)
    ensures Contains(s, sub) <==> exists k :: OccursAt(s, sub, k)
    decreases |s|
  {
    if StartsWith(s, sub) {
      assert OccursAt(s, sub, 0);
    } else if |s| > 0 {
      ContainsIff(s[1..], sub);
      if Contains(s[1..], sub) {
        var k :| OccursAt(s[1..], sub, k);
        assert s[k + 1..k + 1 + |sub|] == s[1..][k..k + |sub|];
        assert OccursAt(s, sub, k + 1);
      }
      if k :| OccursAt(s, sub, k) {
        assert k != 0;
        assert s[1..][k - 1..k - 1 + |sub|] == s[k..k + |sub|];
        assert OccursAt(s[1..], sub, k - 1);
      }
    }
  }

  /** A one-character substring is an occurrence of that character. */
  lemma {:induction false} ContainsChar(s: string, c: char)
    ensures Contains(s, [c]) <==> c in s
    decreases |s|
  {
    if |s| > 0 {
      ContainsChar(s[1..], c);
      assert s == [s[0]] + s[1..];
    }
  }

  /** Every string contains itself and the empty string. */
  lemma ContainsSelfAndEmpty(s: string)
    ensures Contains(s, s) && Contains(s, "")
  {
    assert s[..|s|] == s;
  }

  // ---------------------------------------------------------------------
  // Splitting on one separator character, and joining

  /** JavaScript `parts.join(delim)` / Python `delim.join(parts)`. */
  function Join(parts: seq<string>, delim: string): string
    decreases |parts|
  {
    if |parts| == 0 then ""
    else if |parts| == 1 then parts[0]
    else parts[0] + delim + Join(parts[1..], delim)
  }

  lemma JoinConsFirst(c: char, parts: seq<string>, delim: string)
    requires |parts| >= 1
    ensures Join([[c] + parts[0]] + parts[1..], delim) == [c] + Join(parts, delim)
  {
    var q := [[c] + parts[0]] + parts[1..];
    assert q[1..] == parts[1..];
  }

  /** Every character of a piece occurs in the joined string. */
  lemma {:induction false} InJoin(parts: seq<string>, delim: string, i: nat, c: char)
    requires i < |parts| && c in parts[i]
    ensures c in Join(parts, delim)
    decreases |parts|
  {
    if |parts| > 1 && i > 0 {
      InJoin(parts[1..], delim, i - 1, c);
    }
  }

  /** Python `s.split(sep)` / JavaScript `s.split(sep)` with a one-character
      separator: never empty, no piece holds the separator, and joining the
      pieces back with the separator gives `s`. */
  function Split(s: string, sep: char): (parts: seq<string>)
    ensures |parts| >= 1
    ensures forall i :: 0 <= i < |parts| ==> sep !in parts[i]
    ensures Join(parts, [sep]) == s
    decreases |s|
  {
    if |s| == 0 then [""]
    else
      var rest := Split(s[1..], sep);
      if s[0] == sep then
        assert ([""] + rest)[1..] == rest;
        [""] + rest
      else
        JoinConsFirst(s[0], rest, [sep]);
        [[s[0]] + rest[0]] + rest[1..]
  }

  lemma {:induction false} SplitNoSeparator(a: string, sep: char)
    requires sep !in a
    ensures Split(a, sep) == [a]
    decreases |a|
  {
    if |a| > 0 {
      SplitNoSeparator(a[1..], sep);
    }
  }

  lemma {:induction false} SplitConcat(a: string, sep: char, b: string)
    requires sep !in a
    ensures Split(a + [sep] + b, sep) == [a] + Split(b, sep)
    decreases |a|
  {
    var s := a + [sep] + b;
    if |a| == 0 {
      assert s[1..] == b;
    } else {
      assert s[1..] == a[1..] + [sep] + b;
      SplitConcat(a[1..], sep, b);
      assert [a[0]] + a[1..] == a;
    }
  }

  /** Splitting a join of separator-free pieces gives the pieces back. */
  lemma {:induction false} SplitJoin(parts: seq<string>, sep: char)
    requires |parts| >= 1
    requires forall i :: 0 <= i < |parts| ==> sep !in parts[i]
    ensures Split(Join(parts, [sep]), sep) == parts
    decreases |parts|
  {
    if |parts| == 1 {
      SplitNoSeparator(parts[0], sep);
    } else {
      SplitJoin(parts[1..], sep);
      SplitConcat(parts[0], sep, Join(parts[1..], [sep]));
      assert [parts[0]] + parts[1..] == parts;
    }
  }

  // ---------------------------------------------------------------------
  // Comma-separated lists: split on ',', trim each piece, drop empties

  /** A list item that survives parsing unchanged. */
  predicate CleanItem(c: string) {
    c != "" && Stripped(c) && ',' !in c
  }

  /** No piece of `parts` holds the character `c`. */
  predicate Avoids(parts: seq<string>, c: char) {
    forall j :: 0 <= j < |parts| ==> c !in parts[j]
  }

  /** `[p.strip() for p in parts if p.strip()]`, also
      `parts.map(p => p.trim()).filter(Boolean)`: every trimmed piece that is
      not empty, and nothing else. */
  function TrimNonEmpty(parts: seq<string>): (r: seq<string>)
    ensures |r| <= |parts|
    ensures forall i :: 0 <= i < |r| ==> r[i] != "" && Stripped(r[i])
    ensures forall c :: Avoids(parts, c) ==> Avoids(r, c)
    decreases |parts|
  {
    if |parts| == 0 then []
    else
      var t := Trim(parts[0]);
      var rest := TrimNonEmpty(parts[1..]);
      assert forall c :: Avoids(parts, c) ==> Avoids(parts[1..], c) && c !in parts[0];
      if t == "" then rest else [t] + rest
  }

  /** The pieces kept are exactly the non-empty trimmed pieces. */
  lemma TrimNonEmptyMembers(parts: seq<string>, x: string)
    ensures x in TrimNonEmpty(parts) <==> x != "" && exists j :: 0 <= j < |parts| && Trim(parts[j]) == x
  {
    if x in TrimNonEmpty(parts) {
      TrimNonEmptyFrom(parts, x);
    }
    if x != "" && exists j :: 0 <= j < |parts| && Trim(parts[j]) == x {
      var j :| 0 <= j < |parts| && Trim(parts[j]) == x;
      TrimNonEmptyHas(parts, j);
    }
  }

  /** Every non-empty trimmed piece is kept. */
  lemma {:induction false} TrimNonEmptyHas(parts: seq<string>, j: nat)
    requires j < |parts| && Trim(parts[j]) != ""
    ensures Trim(parts[j]) in TrimNonEmpty(parts)
    decreases |parts|
  {
    var rest := parts[1..];
    assert parts == [parts[0]] + rest;
    TrimNonEmptyCons(parts[0], rest);
    if j > 0 {
      assert rest[j - 1] == parts[j];
      TrimNonEmptyHas(rest, j - 1);
    }
  }

  /** Every kept piece is the trim of some piece. */
  lemma {:induction false} TrimNonEmptyFrom(parts: seq<string>, x: string)
    requires x in TrimNonEmpty(parts)
    ensures exists j :: 0 <= j < |parts| && Trim(parts[j]) == x
    decreases |parts|
  {
    var rest := parts[1..];
    assert parts == [parts[0]] + rest;
    TrimNonEmptyCons(parts[0], rest);
    if Trim(parts[0]) != x {
      assert x in TrimNonEmpty(rest);
      TrimNonEmptyFrom(rest, x);
      var j :| 0 <= j < |rest| && Trim(rest[j]) == x;
      assert Trim(parts[j + 1]) == x;
    }
  }

  lemma TrimNonEmptyCons(x: string, rest: seq<string>)
    ensures TrimNonEmpty([x] + rest) ==
      (if Trim(x) == "" then [] else [Trim(x)]) + TrimNonEmpty(rest)
  {
    assert ([x] + rest)[1..] == rest;
  }

  /** The comma-separated list parser: `s.split(',')`, trim, drop empties. */
  function ParseList(s: string): (items: seq<string>)
    ensures forall i :: 0 <= i < |items| ==> CleanItem(items[i])
  {
    var parts := Split(s, ',');
    assert Avoids(parts, ',');
    TrimNonEmpty(parts)
  }

  /** Every item with one space in front. */
  function Spaced(l: seq<string>): (r: seq<string>)
    ensures |r| == |l|
    ensures forall i :: 0 <= i < |l| ==> r[i] == " " + l[i]
  {
    seq(|l|, i requires 0 <= i < |l| => " " + l[i])
  }

  lemma CommaThenSpace(x: string, j: string)
    ensures x + ", " + j == x + "," + (" " + j)
    ensures " " + (x + ", " + j) == (" " + x) + "," + (" " + j)
  {
  }

  /** A space, then items joined by ", ", is the spaced items joined by ",". */
  lemma {:induction false} JoinSpaced(l: seq<string>)
    requires |l| >= 1
    ensures " " + Join(l, ", ") == Join(Spaced(l), ",")
    decreases |l|
  {
    if |l| >= 2 {
      JoinSpaced(l[1..]);
      assert Spaced(l)[1..] == Spaced(l[1..]);
      CommaThenSpace(l[0], Join(l[1..], ", "));
    }
  }

  /** Items joined by ", " are the first item and the spaced others joined
      by ",". */
  lemma JoinAsPieces(l: seq<string>)
    requires |l| >= 1
    ensures Join(l, ", ") == Join([l[0]] + Spaced(l[1..]), ",")
  {
    if |l| >= 2 {
      JoinSpaced(l[1..]);
      var pieces := [l[0]] + Spaced(l[1..]);
      assert pieces[1..] == Spaced(l[1..]);
      CommaThenSpace(l[0], Join(l[1..], ", "));
    }
  }

  /** Trimming the spaced clean items gives them back. */
  lemma {:induction false} TrimNonEmptySpaced(l: seq<string>)
    requires forall i :: 0 <= i < |l| ==> CleanItem(l[i])
    ensures TrimNonEmpty(Spaced(l)) == l
    decreases |l|
  {
    if |l| > 0 {
      TrimNonEmptySpaced(l[1..]);
      TrimNonEmptySpacedStep(l);
    }
  }

  lemma TrimNonEmptySpacedStep(l: seq<string>)
    requires |l| > 0 && CleanItem(l[0])
    requires TrimNonEmpty(Spaced(l[1..])) == l[1..]
    ensures TrimNonEmpty(Spaced(l)) == l
  {
    var rest := Spaced(l[1..]);
    SpacedCons(l);
    TrimAfterSpace(l[0]);
    TrimNonEmptyCons(" " + l[0], rest);
    assert [l[0]] + l[1..] == l;
  }

  lemma SpacedCons(l: seq<string>)
    requires |l| > 0
    ensures Spaced(l) == [" " + l[0]] + Spaced(l[1..])
  {
  }

  lemma PiecesAvoidComma(l: seq<string>)
    requires |l| >= 1
    requires forall i :: 0 <= i < |l| ==> CleanItem(l[i])
    ensures forall i :: 0 <= i < |[l[0]] + Spaced(l[1..])| ==> ',' !in ([l[0]] + Spaced(l[1..]))[i]
  {
    var pieces := [l[0]] + Spaced(l[1..]);
    forall i | 0 <= i < |pieces| ensures ',' !in pieces[i] {
      if i > 0 {
        assert pieces[i] == " " + l[i];
      }
    }
  }

  /** Splitting the joined items at commas gives the first item and the
      spaced others. */
  lemma SplitJoined(l: seq<string>)
    requires |l| >= 1
    requires forall i :: 0 <= i < |l| ==> CleanItem(l[i])
    ensures Split(Join(l, ", "), ',') == [l[0]] + Spaced(l[1..])
  {
    JoinAsPieces(l);
    PiecesAvoidComma(l);
    SplitJoin([l[0]] + Spaced(l[1..]), ',');
  }

  /** Trimming the pieces gives the items back. */
  lemma TrimPieces(l: seq<string>)
    requires |l| >= 1
    requires forall i :: 0 <= i < |l| ==> CleanItem(l[i])
    ensures TrimNonEmpty([l[0]] + Spaced(l[1..])) == l
  {
    TrimNonEmptySpaced(l[1..]);
    TrimNonEmptyCons(l[0], Spaced(l[1..]));
    assert [l[0]] + l[1..] == l;
  }

  lemma ParseEmpty()
    ensures ParseList("") == []
  {
    assert Split("", ',') == [""];
    assert Trim("") == "";
  }

  /** Joining clean items with ", " and parsing the text back gives the items. */
  lemma ParseJoinRoundTrip(l: seq<string>)
    requires forall i :: 0 <= i < |l| ==> CleanItem(l[i])
    ensures ParseList(Join(l, ", ")) == l
  {
    if |l| == 0 {
      ParseEmpty();
    } else {
      SplitJoined(l);
      TrimPieces(l);
    }
  }

  // ---------------------------------------------------------------------
  // Whitespace-separated words: Python `s.split()` and `" ".join(...)`

  /** Number of leading non-whitespace characters. */
  function WordLength(t: string): (n: nat)
    ensures n <= |t|
    ensures forall i :: 0 <= i < n ==> !IsSpace(t[i])
    ensures n < |t| ==> IsSpace(t[n])
    decreases |t|
  {
    if |t| == 0 || IsSpace(t[0]) then 0 else 1 + WordLength(t[1..])
  }

  /** Python `s.split()` with no argument: maximal runs of non-whitespace. */
  function Words(s: string): (ws: seq<string>)
    ensures forall i :: 0 <= i < |ws| ==> ws[i] != "" && NoSpace(ws[i])
    decreases |s|
  {
    var t := TrimStart(s);
    if |t| == 0 then []
    else
      var n := WordLength(t);
      assert n >= 1 by { assert !IsSpace(t[0]); }
      var w := t[..n];
      assert w != "" && NoSpace(w);
      var rest := Words(t[n..]);
      WordsCell(w, rest);
      [w] + rest
  }

  /** A word in front of words is still a list of words. */
  lemma WordsCell(w: string, rest: seq<string>)
    requires w != "" && NoSpace(w)
    requires forall i :: 0 <= i < |rest| ==> rest[i] != "" && NoSpace(rest[i])
    ensures forall i :: 0 <= i < |[w] + rest| ==> ([w] + rest)[i] != "" && NoSpace(([w] + rest)[i])
  {
    forall i | 0 <= i < |[w] + rest| ensures ([w] + rest)[i] != "" && NoSpace(([w] + rest)[i]) {
      if i > 0 { assert ([w] + rest)[i] == rest[i - 1]; }
    }
  }

  /** A string whose only whitespace is single interior spaces. */
  predicate Collapsed(r: string) {
    forall i :: 0 <= i < |r| && IsSpace(r[i]) ==>
      r[i] == ' ' && 0 < i < |r| - 1 && !IsSpace(r[i - 1]) && !IsSpace(r[i + 1])
  }

  lemma {:induction false} JoinWordsCollapsed(ws: seq<string>)
    requires forall i :: 0 <= i < |ws| ==> ws[i] != "" && NoSpace(ws[i])
    ensures Collapsed(Join(ws, " "))
    ensures |ws| > 0 ==> Join(ws, " ") != "" && !IsSpace(Join(ws, " ")[0])
    ensures |ws| > 0 ==> !IsSpace(Join(ws, " ")[|Join(ws, " ")| - 1])
    decreases |ws|
  {
    if |ws| > 1 {
      JoinWordsCollapsed(ws[1..]);
      var j := Join(ws[1..], " ");
      var r := ws[0] + " " + j;
      forall i | 0 <= i < |r| && IsSpace(r[i])
        ensures r[i] == ' ' && 0 < i < |r| - 1 && !IsSpace(r[i - 1]) && !IsSpace(r[i + 1])
      {
        if i > |ws[0]| {
          assert r[i] == j[i - |ws[0]| - 1];
          if i - 1 > |ws[0]| {
            assert r[i - 1] == j[i - 1 - |ws[0]| - 1];
          }
        }
      }
    }
  }

  /** `" ".join(s.split())`: every whitespace run becomes one space, and the
      ends are trimmed. */
  function Collapse(s: string): (r: string)
    ensures Collapsed(r)
    ensures Stripped(r)
    ensures Words(r) == Words(s)
    ensures r != "" ==> Split(r, ' ') == Words(s)
  {
    var ws := Words(s);
    JoinWordsCollapsed(ws);
    JoinedWords(ws);
    Join(ws, " ")
  }

  /** Space-joined words split back into the words, on whitespace and on
      the space character alike. */
  lemma JoinedWords(ws: seq<string>)
    requires forall i :: 0 <= i < |ws| ==> ws[i] != "" && NoSpace(ws[i])
    ensures Words(Join(ws, " ")) == ws
    ensures Join(ws, " ") != "" ==> Split(Join(ws, " "), ' ') == ws
  {
    WordsOfJoin(ws);
    if |ws| > 0 {
      forall i | 0 <= i < |ws| ensures ' ' !in ws[i] {
        assert NoSpace(ws[i]);
      }
      assert [' '] == " ";
      SplitJoin(ws, ' ');
    }
  }

  lemma {:induction false} WordLengthOfConcat(a: string, b: string)
    requires NoSpace(a)
    requires |b| == 0 || IsSpace(b[0])
    ensures WordLength(a + b) == |a|
    decreases |a|
  {
    if |a| > 0 {
      assert (a + b)[1..] == a[1..] + b;
      WordLengthOfConcat(a[1..], b);
    } else {
      assert a + b == b;
    }
  }

  lemma WordsCons(w: string, rest: string)
    requires w != "" && NoSpace(w)
    requires |rest| == 0 || IsSpace(rest[0])
    ensures Words(w + rest) == [w] + Words(rest)
  {
    var s := w + rest;
    WordLengthOfConcat(w, rest);
    assert TrimStart(s) == s;
    assert s[..|w|] == w;
    assert s[|w|..] == rest;
  }

  lemma WordsLeadingSpace(j: string)
    ensures Words(" " + j) == Words(j)
  {
    assert (" " + j)[1..] == j;
  }

  lemma WordsLeadingBlank(c: char, j: string)
    requires IsSpace(c)
    ensures Words([c] + j) == Words(j)
  {
    assert ([c] + j)[1..] == j;
  }

  /** Two words around one whitespace character collapse to the words
      joined by a single space. */
  lemma CollapseTwoWords(a: string, c: char, b: string)
    requires a != "" && NoSpace(a) && b != "" && NoSpace(b) && IsSpace(c)
    ensures Collapse(a + [c] + b) == a + " " + b
  {
    var s := a + [c] + b;
    assert s == a + ([c] + b);
    WordsCons(a, [c] + b);
    WordsLeadingBlank(c, b);
    assert Words(b) == [b] by {
      WordsCons(b, "");
      assert b + "" == b;
    }
    assert Words(s) == [a, b];
    assert Join([a, b], " ") == a + " " + b by {
      assert [a, b][1..] == [b];
    }
  }


  lemma WordsOfJoinSingle(ws: seq<string>)
    requires |ws| == 1 && ws[0] != "" && NoSpace(ws[0])
    ensures Words(Join(ws, " ")) == ws
  {
    var w := ws[0];
    assert Join(ws, " ") == w;
    WordsCons(w, "");
    assert w + "" == w;
    assert Words("") == [];
  }

  lemma WordsOfJoinStep(ws: seq<string>)
    requires |ws| > 1 && ws[0] != "" && NoSpace(ws[0])
    requires Words(Join(ws[1..], " ")) == ws[1..]
    ensures Words(Join(ws, " ")) == ws
  {
    var j := Join(ws[1..], " ");
    assert Join(ws, " ") == ws[0] + " " + j;
    assert ws[0] + " " + j == ws[0] + (" " + j);
    WordsCons(ws[0], " " + j);
    WordsLeadingSpace(j);
    assert [ws[0]] + ws[1..] == ws;
  }

  /** Splitting a space-joined list of words gives the words back. */
  lemma {:induction false} WordsOfJoin(ws: seq<string>)
    requires forall i :: 0 <= i < |ws| ==> ws[i] != "" && NoSpace(ws[i])
    ensures Words(Join(ws, " ")) == ws
    decreases |ws|
  {
    if |ws| == 1 {
      WordsOfJoinSingle(ws);
    } else if |ws| > 1 {
      WordsOfJoin(ws[1..]);
      WordsOfJoinStep(ws);
    }
  }

  /** Collapsing whitespace twice is the same as collapsing it once. */
  lemma CollapseIdempotent(s: string)
    ensures Collapse(Collapse(s)) == Collapse(s)
  {
    WordsOfJoin(Words(s));
  }

  /** The non-whitespace characters of a string, in order. */
  function Solid(s: string): (r: string)
    ensures NoSpace(r)
    decreases |s|
  {
    if |s| == 0 then ""
    else (if IsSpace(s[0]) then "" else [s[0]]) + Solid(s[1..])
  }

  /** The words of a list, one after the other. */
  function Flatten(ws: seq<string>): string
    decreases |ws|
  {
    if |ws| == 0 then "" else ws[0] + Flatten(ws[1..])
  }

  lemma {:induction false} SolidConcat(a: string, b: string)
    ensures Solid(a + b) == Solid(a) + Solid(b)
    decreases |a|
  {
    if |a| > 0 {
      assert (a + b)[1..] == a[1..] + b;
      SolidConcat(a[1..], b);
    } else {
      assert a + b == b;
    }
  }

  lemma {:induction false} SolidOfWord(w: string)
    requires NoSpace(w)
    ensures Solid(w) == w
    decreases |w|
  {
    if |w| > 0 {
      SolidOfWord(w[1..]);
      assert [w[0]] + w[1..] == w;
    }
  }

  lemma {:induction false} SolidOfBlank(s: string)
    requires forall i :: 0 <= i < |s| ==> IsSpace(s[i])
    ensures Solid(s) == ""
    decreases |s|
  {
    if |s| > 0 {
      SolidOfBlank(s[1..]);
    }
  }

  /** The first word of a text that is not blank, then the words after it. */
  lemma WordsStep(s: string)
    requires |TrimStart(s)| > 0
    ensures var t := TrimStart(s);
      Words(s) == [t[..WordLength(t)]] + Words(t[WordLength(t)..])
  {
  }

  /** Dropping whitespace from a text leaves its words, one after the other. */
  lemma {:induction false} SolidWords(s: string)
    ensures Solid(s) == Flatten(Words(s))
    decreases |s|
  {
    var t := TrimStart(s);
    if |t| > 0 {
      var after := t[WordLength(t)..];
      SolidFirstWord(s);
      SolidWords(after);
    } else {
      SolidLeadingBlank(s);
    }
  }

  /** Dropping whitespace keeps what follows the leading whitespace. */
  lemma SolidLeadingBlank(s: string)
    ensures Solid(s) == Solid(TrimStart(s))
    ensures |TrimStart(s)| == 0 ==> Solid(s) == "" && Words(s) == []
  {
    var t := TrimStart(s);
    var lead := s[..|s| - |t|];
    assert s == lead + t;
    SolidConcat(lead, t);
    SolidOfBlank(lead);
  }

  /** A text that is not blank: its first word, then the text after it. */
  lemma SolidFirstWord(s: string)
    requires |TrimStart(s)| > 0
    ensures var t := TrimStart(s);
      var w := t[..WordLength(t)];
      var after := t[WordLength(t)..];
      |after| < |s| &&
      Solid(s) == w + Solid(after) &&
      Flatten(Words(s)) == w + Flatten(Words(after))
  {
    SolidLeadingBlank(s);
    SolidWordThen(TrimStart(s));
    FlattenFirstWord(s);
  }

  /** A text starting with a word: the word, then what the rest keeps. */
  lemma SolidWordThen(t: string)
    requires |t| > 0 && !IsSpace(t[0])
    ensures 1 <= WordLength(t) <= |t|
    ensures Solid(t) == t[..WordLength(t)] + Solid(t[WordLength(t)..])
  {
    var n := WordLength(t);
    var w := t[..n];
    var after := t[n..];
    assert t == w + after;
    SolidConcat(w, after);
    SolidOfWord(w);
  }

  lemma FlattenFirstWord(s: string)
    requires |TrimStart(s)| > 0
    ensures var t := TrimStart(s);
      Flatten(Words(s)) == t[..WordLength(t)] + Flatten(Words(t[WordLength(t)..]))
  {
    WordsStep(s);
    var t := TrimStart(s);
    var ws := Words(s);
    assert ws[0] == t[..WordLength(t)] && ws[1..] == Words(t[WordLength(t)..]);
  }

  /** Dropping whitespace from words joined by spaces leaves the words. */
  lemma {:induction false} SolidJoin(ws: seq<string>)
    requires forall i :: 0 <= i < |ws| ==> NoSpace(ws[i])
    ensures Solid(Join(ws, " ")) == Flatten(ws)
    decreases |ws|
  {
    if |ws| == 1 {
      SolidOfWord(ws[0]);
      assert Flatten(ws[1..]) == "";
    } else if |ws| > 1 {
      SolidJoin(ws[1..]);
      SolidJoinStep(ws[0], ws[1..]);
      assert [ws[0]] + ws[1..] == ws;
    }
  }

  lemma SolidJoinStep(w: string, rest: seq<string>)
    requires NoSpace(w) && |rest| > 0
    requires Solid(Join(rest, " ")) == Flatten(rest)
    ensures Solid(Join([w] + rest, " ")) == Flatten([w] + rest)
  {
    var ws := [w] + rest;
    assert ws[1..] == rest && ws[0] == w;
    var j := Join(rest, " ");
    var sp: string := " ";
    assert Solid(sp) == "" by {
      assert IsSpace(sp[0]);
      assert sp[1..] == "";
    }
    SolidConcat(sp, j);
    SolidConcat(w, sp + j);
    SolidOfWord(w);
    assert Join(ws, " ") == w + sp + j;
    ConcatAssoc(w, sp, j);
    assert Solid(sp + j) == Flatten(rest) by {
      assert "" + Solid(j) == Solid(j);
    }
    calc {
      Solid(Join(ws, " "));
      Solid(w + (sp + j));
      Solid(w) + Solid(sp + j);
      w + Flatten(rest);
      Flatten(ws);
    }
  }

  lemma ConcatAssoc(a: string, b: string, c: string)
    ensures a + b + c == a + (b + c)
  {
  }

  /** Collapsing whitespace keeps every other character, in order. */
  lemma CollapseSolid(s: string)
    ensures Solid(Collapse(s)) == Solid(s)
  {
    SolidJoin(Words(s));
    SolidWords(s);
  }

  /** A property of every character of the pieces and of the delimiter
      holds of every character of the joined string. */
  lemma {:induction false} JoinKeep(parts: seq<string>, delim: string, P: char -> bool)
    requires forall i, j :: 0 <= i < |parts| && 0 <= j < |parts[i]| ==> P(parts[i][j])
    requires forall j :: 0 <= j < |delim| ==> P(delim[j])
    ensures forall k :: 0 <= k < |Join(parts, delim)| ==> P(Join(parts, delim)[k])
    decreases |parts|
  {
    if |parts| > 1 {
      JoinKeep(parts[1..], delim, P);
      var j := Join(parts[1..], delim);
      var r := parts[0] + delim + j;
      forall k | 0 <= k < |r| ensures P(r[k]) {
        if k < |parts[0]| {
        } else if k < |parts[0]| + |delim| {
          assert r[k] == delim[k - |parts[0]|];
        } else {
          assert r[k] == j[k - |parts[0]| - |delim|];
        }
      }
    }
  }

  /** Every character of every word occurs in the input. */
  lemma {:induction false} WordsIn(s: string)
    ensures forall i, j :: 0 <= i < |Words(s)| && 0 <= j < |Words(s)[i]| ==> Words(s)[i][j] in s
    decreases |s|
  {
    var t := TrimStart(s);
    if |t| > 0 {
      var n := WordLength(t);
      WordsIn(t[n..]);
      var rest := Words(t[n..]);
      assert Words(s) == [t[..n]] + rest;
      PiecesIn([t[..n]] + rest, t[..n], rest, t[n..], s);
    }
  }

  /** Characters of a first piece and of the following pieces, both found
      in `s`, are found in `s`. */
  lemma PiecesIn(ws: seq<string>, w: string, rest: seq<string>, tail: string, s: string)
    requires ws == [w] + rest
    requires forall c :: c in w ==> c in s
    requires forall c :: c in tail ==> c in s
    requires forall i, j :: 0 <= i < |rest| && 0 <= j < |rest[i]| ==> rest[i][j] in tail
    ensures forall i, j :: 0 <= i < |ws| && 0 <= j < |ws[i]| ==> ws[i][j] in s
  {
    forall i, j | 0 <= i < |ws| && 0 <= j < |ws[i]| ensures ws[i][j] in s {
      if i == 0 {
        assert ws[0][j] in w;
      } else {
        assert ws[i] == rest[i - 1];
      }
    }
  }

  // ---------------------------------------------------------------------
  // Decimal text of integers: Python `str(n)`, JavaScript `String(n)`

  function DigitChar(d: nat): (c: char)
    requires d < 10
    ensures c as int == '0' as int + d
  {
    "0123456789"[d]
  }

  /** The decimal digits of `n`, without sign or leading zero. */
  function Digits(n: nat): (r: string)
    ensures |r| > 0 && r[0] != '-'
    ensures r[0] == '0' <==> n == 0
    ensures forall i :: 0 <= i < |r| ==> '0' <= r[i] <= '9'
    decreases n
  {
    if n < 10 then [DigitChar(n)] else Digits(n / 10) + [DigitChar(n % 10)]
  }

  /** The value of a string of decimal digits. */
  function DigitsValue(s: string): nat
    decreases |s|
  {
    if s == [] then 0
    else
      var d := s[|s| - 1] as int - '0' as int;
      DigitsValue(s[..|s| - 1]) * 10 + (if 0 <= d then d else 0)
  }

  /** Reading the digits back gives the number. */
  lemma {:induction false} DigitsRoundTrip(n: nat)
    ensures DigitsValue(Digits(n)) == n
    decreases n
  {
    if n >= 10 {
      DigitsRoundTrip(n / 10);
      var r := Digits(n);
      assert r[..|r| - 1] == Digits(n / 10);
    }
  }

  function IntText(n: int): (r: string)
    ensures r != ""
    ensures r[0] == '-' <==> n < 0
    ensures r == "0" <==> n == 0
  {
    if n < 0 then "-" + Digits(-n) else Digits(n)
  }

  /** The text of a number gives the number back: its sign from a leading
      '-', its size from the digits. */
  lemma IntTextRoundTrip(n: int)
    ensures var r := IntText(n);
      (if r[0] == '-' then 0 - DigitsValue(r[1..]) as int else DigitsValue(r) as int) == n
  {
    if n < 0 {
      DigitsRoundTrip(-n);
      assert IntText(n)[1..] == Digits(-n);
    } else {
      DigitsRoundTrip(n);
    }
  }
}
